=== FILE: README.md ===
# GPS track converter: a Dafny model

This project models the computational core of a browser application that loads GPS tracks and converts between track formats. The tracks are GPX, KML, IGC, TCX and FIT files. It models two source files:

- **Script.js**, the page script. From it the model takes:
  - the strict IGC fix decoder `parseIGCLine` and the IGC branch of `processFile`;
  - the altitude statistics (`getAltitudes`, `calculateElevationGain`, `calculateElevationLoss`, `detectFlightPattern` and `analyzeAltitudes`);
  - the heuristic FIT salvage: `fallbackFitProcessing`, `isValidFitCoordinate`, `tryAlternativeConversion`, `filterAndSortCoordinates` and `tryGetAltitude`;
  - the GeoJSON flattener `extractCoordinatesFromGeoJSON`;
  - the extension gate of `handleFile`;
  - the point mapping of `getLoadedTraceData`.
- **conversion_trace.js**, the `TraceConverter` object. From it the model takes:
  - the format dispatch `parse`;
  - the readers `parseGPX`, `parseKML`, `parseIGC` and `parseTCX`;
  - the writers `toIGC`, `toKML`, `toGPX` and `toTCX`;
  - the sanitisers `escapeXml` and `escapeIGC`.

IGC fix records follow section A4.1 of the FAI IGC technical specification for GNSS flight recorders. `escapeXml` writes the five predefined entities of section 4.6 of XML 1.0. Reading the text back follows the character class of section 2.2 and the end-of-line handling of section 2.11 of the same standard.

## Modules

| module | file | what it holds |
|---|---|---|
| `Wrappers`, `Coords` | wrappers.dfy, coords.dfy | `Option` and `Result`. `Coord` is the page's `[lon, lat, alt]` triple. |
| `Seqs`, `RealSeqs` | seqs.dfy, real_seqs.dfy | `Filter`, `FilterMap`, `Subsequence`, and sums, minima and maxima of reals. |
| `JsNumber` | js_number.dfy | JavaScript numbers as `Num = Finite(real) \| NaN`, `\|\|` on numbers, `parseInt`, `parseFloat`, `Math.round` and `toFixed`. |
| `JsText` | js_text.dfy | `split`/`join` on one character, `trim`, `substring`, `padStart`, `toLowerCase` and `toUpperCase`. |
| `IgcFix` | igc_fix.dfy | `parseIGCLine`, its inverse on well-formed B records, and the IGC branch of `processFile`. |
| `TraceDecode` | trace_decode.dfy | `parse` and the four `TraceConverter` readers. |
| `IgcWrite` | igc_write.dfy | `toIGC` and what `parseIGC` reads back from it. |
| `XmlWrite` | xml_write.dfy | `toKML`, `toGPX` and `toTCX`, and what their readers get back. |
| `Escapes` | escapes.dfy | `escapeXml` and `escapeIGC`, and what an XML reader makes of escaped text. |
| `Altitude` | altitude.dfy | The altitude statistics and the flight classifier. |
| `FitScan` | fit_scan.dfy | The FIT byte scan and its staged accept/fail decision. |
| `GeoJson` | geojson.dfy | `extractCoordinatesFromGeoJSON` and the GPX/KML branch of `processFile`. |
| `AppLoad` | app_load.dfy | The extension gate and `getLoadedTraceData`. |
| `IgcFindings` | igc_findings.dfy | The two disagreements between the IGC writer and the readers (see Findings). |

Several things the code does are modelled with parameters, the host's answers to the model:

- An XML text is given by the answers its parser gives to the readers' queries, an `XmlDocument`.
- The GeoJSON that toGeoJSON builds is given as a `FeatureCollection`.
- `${x}` for a number is a function `show`. Each round-trip lemma assumes `show` only for the values it prints: `parseFloat` reads the text back as `x`, and the text has no white space, comma or markup.
- The wall clock is a parameter. `toIGC` receives the calendar date. `toTCX` receives a time stamp per point and the `Id` text.
- `toLocaleDateString` is a parameter of `parseIGC`.

Where the code and its documented intent differ, the model follows the code:

- The alternative FIT scan filters by region but skips the centroid cleanup.
- The alternative FIT scan is tried only after a non-empty primary scan.
- `parseIGC` checks neither the length nor the hemisphere letters.
- `toGPX` writes the elevation with `toFixed(2)`.
- `toIGC` writes decimal minutes.

## Model

| member | source | states |
|---|---|---|
| IgcFix.SelectAltitude | Script.js:910-918 | The GPS altitude when it parses and lies in [-500, 15000]. Otherwise the pressure altitude under the same test. Otherwise 0. |
| IgcFix.ParseIgcLine | Script.js:875-935 | A fix comes only from a line of 35 or more characters starting with `B`, with `N`/`S` at column 14 and `E`/`W` at column 23. Latitude is within ±90 and longitude within ±180. `valid` holds iff altitude > 0. Altitude is 0 or lies in [-500, 15000]. |
| IgcFix.DecodeRecord | Script.js:881-929 | Round trip: any well-formed B record decodes to the fix it denotes. Minutes are read as thousandths, and `S`/`W` negate. |
| IgcFix.ScanIgc | Script.js:1415-1429 | The IGC branch of `processFile` yields the `[lon, lat, alt]` of every line that decodes to a fix, one per such line and in line order: between 1 and (number of lines) coordinates. Otherwise it fails with the "no valid point" message. |
| IgcFix.FixesOfConcat | Script.js:1417-1424 | The lines are scanned independently: the coordinates of two runs of lines are those of the first run followed by those of the second. |
| IgcFix.FixesOfLine | Script.js:1420-1423 | A line contributes exactly its decoded fix as `[lon, lat, alt]`, or nothing when `parseIGCLine` returns null. |
| IgcFix.ScanIgcFails | Script.js:1417-1429 | The scan fails exactly when no line of the file decodes to a fix. |
| IgcFix.FixesWithinGlobe | Script.js:1420-1425 | Every kept coordinate is the decoding of some line of the file, so it lies within the globe. |
| TraceDecode.ParseFormat | conversion_trace.js:12-27 | A success is the format whose tag equals the trimmed, lower-cased input. A failure carries "Format non supporté: " followed by the original text. |
| TraceDecode.ParseFormatExact | conversion_trace.js:13-23 | `parse` picks format f exactly when the trimmed, lower-cased tag equals f's tag. |
| TraceDecode.ParseFormatTolerant | conversion_trace.js:13-23 | Every tag is accepted in upper or lower case, surrounded by any white space. |
| TraceDecode.FitRejected | conversion_trace.js:24-25 | The tag `fit` is refused with its error message. |
| TraceDecode.Parse | conversion_trace.js:12-27 | An unknown tag gives the dispatch error. `gpx`, `kml` and `tcx` give exactly what `parseGPX`, `parseKML` and `parseTCX` give for the parsed text. IGC always succeeds with `parseIGC`. The only other failure is invalid XML. |
| TraceDecode.GpxPoint | conversion_trace.js:43-56 | A `trkpt` gives a point iff both `lat` and `lon` parse as numbers. It keeps those two values. The elevation is `parseFloat` of the `ele` text, or 0 when there is no `ele`. The time is the `time` text, or none. |
| TraceDecode.ParseGpx | conversion_trace.js:32-65 | It fails iff the document holds a parser error, with "XML invalide". Otherwise the format is `GPX`, the points are the accepted `trkpt`s in order, the name defaults to "Trace GPS" and the description defaults to empty. |
| TraceDecode.KmlLinePoint | conversion_trace.js:87-96 | A trimmed line split on commas gives a point iff it has at least two fields and both the first (longitude) and the second (latitude) parse as numbers. The point carries those two values. The elevation is the third field when that parses as a number, and 0 when it is missing or not a number. There is no timestamp. |
| TraceDecode.ParseKml | conversion_trace.js:70-107 | It fails iff there is a parser error. Otherwise the format is `KML` and the points are those of every placemark's line string in order. The name defaults to "Trace GPS" and the description to empty. |
| TraceDecode.PlacemarksConcat | conversion_trace.js:79-99 | Placemarks contribute their points one after another. |
| TraceDecode.TcxPoint | conversion_trace.js:183-200 | A `Trackpoint` gives a point iff it has a `Position` whose `LatitudeDegrees` and `LongitudeDegrees` both parse as numbers. It keeps those two values. The elevation is `parseFloat` of `AltitudeMeters`, or 0 when there is none. The time is the `Time` text, or none. |
| TraceDecode.ParseTcx | conversion_trace.js:172-209 | It fails iff there is a parser error. Otherwise the format is `TCX`, the points are the accepted trackpoints in order, the name is the activity `Id` or "Trace TCX", and the description is empty. |
| TraceDecode.IgcLinePoint | conversion_trace.js:119-122 | A line gives a point iff its first character is `B`. |
| TraceDecode.ReadIgcLines | conversion_trace.js:113-159 | The line loop collects exactly one point per B line, in line order. It leaves the header as all H lines, read in order, set it. |
| TraceDecode.ParseIgc | conversion_trace.js:112-167 | Format `IGC`. The points are one per B line, in order, with no timestamp. The name is the last pilot header or "Trace IGC", never empty. The description is the read date, or "Inconnue". |
| TraceDecode.IgcOnePointPerFix | conversion_trace.js:118-144 | A file of B lines only gives one point per line, each the lenient decoding of that line. |
| TraceDecode.IgcPointsConcat | conversion_trace.js:118-144 | The points of concatenated line lists are the concatenation of their points. |
| TraceDecode.HeadersIgnoreOtherLines | conversion_trace.js:146-158 | Lines that are not H lines leave the name and the date alone. |
| IgcWrite.Minutes | conversion_trace.js:286-291 | The minutes of arc of a finite coordinate lie in [0, 60). They are NaN only for NaN. |
| IgcWrite.HemisphereOf | conversion_trace.js:288-292 | The letter is `N`/`E` iff the value is a number ≥ 0. NaN gives `S`/`W`. |
| IgcWrite.BLines | conversion_trace.js:285-303 | One B line per point, in point order, the i-th written with index i. |
| IgcWrite.TimeFieldShape | conversion_trace.js:295-297 | The synthesised time is six digits `hhmmss` with hh < 24, mm < 60 and ss < 60. ss is a multiple of 5, and the field encodes (5·idx) mod 86400 seconds. |
| IgcWrite.MinuteFieldWidth | conversion_trace.js:300-301 | Each minutes field is exactly five characters. |
| IgcWrite.BLineLayout | conversion_trace.js:299-302 | For \|lat\| < 100, \|lon\| < 1000 and 0 ≤ round(ele) ≤ 99999 the line is 35 characters. It starts with `B` and the time, has the hemisphere letters at columns 14 and 23, and repeats the same altitude in both altitude fields. |
| IgcWrite.ToIgcLines | conversion_trace.js:280-305 | The file splits on line feeds into the four header lines, one B line per point in order, and a final empty text. |
| IgcWrite.IgcFilePoints | conversion_trace.js:285-303 | `parseIGC` of the file gives one point per written point, in order. Each is the lenient decoding of its B line. |
| IgcWrite.BLineReadBack | conversion_trace.js:299-302 | `parseIGC` reads a written B line back within less than a hundredth of a minute of arc, on the same side of zero, with elevation `Math.round(ele)` and no time. |
| IgcWrite.IgcRoundTrip | conversion_trace.js:285-302 | The lenient round trip: as many points as written, in order. Each is within less than a hundredth of a minute of arc with the same signs, and the altitude is rounded to the metre. |
| IgcWrite.DateReadBack | conversion_trace.js:276-281 | The `HFDTE` line reads back as the clock's day, its month index, and its year in the 2000s with the same last two digits. |
| IgcWrite.HeadersOfHeader | conversion_trace.js:280-283 | Reading the four header lines gives the name from the `HFPLT` line. The date comes from the `HFDTE` line, unless the escaped pilot name itself contains `HFDTE`: then the later pilot line sets the date again. |
| IgcWrite.PilotNamedHfdte | conversion_trace.js:146-152 | A pilot called `HFDTE` is written as `HFPLT:HFDTE`, and the date read back from the header is NaN in every field. |
| IgcWrite.IgcFileHeader | conversion_trace.js:280-283 | The name `parseIGC` reads from a written file is the pilot line as the reader cuts it, or the default. The description is the clock's date, unless the escaped name contains `HFDTE`; then it is the date read from the pilot line. |
| Altitude.AltitudesEmpty | Script.js:937-945 | No altitude is kept iff no point has altitude > 0. |
| Altitude.AltitudesMembers | Script.js:937-945 | A value is kept iff it is positive and is the altitude of some point. |
| Altitude.ElevationGain | Script.js:947-956 | The loop computes the cumulative climb over consecutive altitudes, which is ≥ 0. |
| Altitude.ElevationLoss | Script.js:958-967 | The loop computes the cumulative descent over consecutive altitudes, which is ≥ 0. |
| Altitude.GainMinusLoss | Script.js:947-967 | Gain minus loss is the last altitude minus the first. |
| Altitude.GainCoversNetClimb | Script.js:947-967 | Gain is at least the net climb and loss at least the net descent. |
| Altitude.AscentBounds | Script.js:984-990 | The steep sections climb more than 50 m each on average, and together they climb at most the gain. |
| Altitude.FlightClimbs | Script.js:969-999 | A flight has ≥ 10 points and ≥ 5 altitudes in (0, 10000), spread over more than 200 m. It has more than 3 steep climbs rising more than 300 m together, a cumulative climb over 300 m, and some altitude in (500, 10000). |
| Altitude.GentleTrackIsNoFlight | Script.js:984-997 | A track whose plausible altitudes never rise more than 50 m between neighbours is not a flight. |
| Altitude.AnalyzeAltitudes | Script.js:1002-1025 | No altitude report iff no altitude > 0. Otherwise: count is the number of positive altitudes; min and max are attained and bound every positive altitude; amplitude = max − min; the average lies between min and max up to rounding; `isFlight` is the classifier; gain and loss are the rounded cumulative climb and descent. |
| Altitude.ReportBalance | Script.js:1020-1022 | The rounded gain and loss balance to the net change within one metre. |
| FitScan.Int32LERoundTrip | Script.js:1087-1088 | `getInt32(p, true)` reads back any 32-bit integer stored least significant byte first. |
| FitScan.Int32BERoundTrip | Script.js:1185-1186 | `getInt32(p, false)` reads back any 32-bit integer stored most significant byte first. |
| FitScan.SemicirclesToDegrees | Script.js:1071-1074 | Degrees lie in [-180, 180), and scaling back by 2^31/180 gives the semicircles. |
| FitScan.ValidFitCoordinateBox | Script.js:1162-1170 | `isValidFitCoordinate` is the France box with a non-zero longitude; its other tests are implied. |
| FitScan.TryGetAltitude | Script.js:1225-1238 | The altitude is 0 or the unsigned 16-bit value, in (0, 5000). |
| FitScan.SignedAltitudeAgrees | Script.js:1228-1232 | The signed reading never accepts a value the unsigned one refused. |
| FitScan.ScanFrom | Script.js:1077-1112 | At most 1001 − count more points, each inside the France box with altitude 0 or in (0, 5000). k points need the offset pos + 20(k − 1) to lie before the last 12 bytes. |
| FitScan.PrimaryScan | Script.js:1077-1112 | The loop, starting at the header size, computes the scan: it terminates and stops after 1001 points. |
| FitScan.AlternativeFrom | Script.js:1183-1197 | Every point is inside the France box with altitude 0, read at offsets 4 bytes apart below length − 8. |
| FitScan.AlternativeConversion | Script.js:1172-1200 | The big-endian loop computes the alternative scan. |
| FitScan.FilterNearCentroid | Script.js:1203-1223 | The result is an order-preserving subsequence of the input, each point strictly within 2° of the centroid on both axes. Empty input gives empty output. |
| FitScan.FilterNearCentroidMembers | Script.js:1207-1217 | A point is kept iff it is in the input and within 2° of the centroid on both axes. |
| FitScan.CompactTrackKept | Script.js:1203-1223 | A track whose coordinates pairwise differ by less than 2° passes unchanged. |
| FitScan.FallbackFit | Script.js:1062-1159 | Read error iff the file is empty. "No coordinates" iff the primary scan is empty. Success with the centroid-filtered primary scan when it keeps more than 10 points, else with the alternative scan when that has more than 10. "Too short" iff neither. Every salvaged point is in the box. |
| FitScan.ShortFileYieldsNoTrack | Script.js:1084-1147 | No file of 48 bytes or fewer yields a track. |
| GeoJson.Triple | Script.js:1544-1558 | A position gives a triple iff it has ≥ 2 components: longitude, latitude, and the third component or 0. |
| GeoJson.ExtractCoordinates | Script.js:1533-1538 | A missing object, or one without features, gives no coordinates. |
| GeoJson.ExtractByPositions | Script.js:1540-1561 | The result is the triple decoder applied, in feature order, to the positions of line strings and points. |
| GeoJson.FeaturesConcat | Script.js:1540-1561 | Features contribute their triples one after another. |
| GeoJson.TripleSource | Script.js:1540-1561 | Every triple comes from a looked-at position with ≥ 2 components. |
| GeoJson.OtherGeometryIgnored | Script.js:1541-1560 | A feature without a line string or point geometry contributes nothing. |
| GeoJson.LineStringTriples | Script.js:1542-1550 | A line string whose positions all have ≥ 2 components gives one triple per position, in order. |
| GeoJson.GeoJsonTrack | Script.js:1502-1507 | The GPX/KML branch yields the extracted triples when there are any, else the "no coordinates" error. |
| GeoJson.GeoJsonTrackFails | Script.js:1502-1507 | The branch fails iff no looked-at position has two components. |
| AppLoad.ExtensionAfterLastDot | Script.js:502-508 | A file name is judged by what follows its last dot, lower-cased, against the five allowed extensions. |
| AppLoad.ExtensionOfDotless | Script.js:502 | A name without a dot is its own extension. |
| AppLoad.LoadedPoint | Script.js:41-46 | `[lon, lat, alt]` becomes `{lat, lon, elevation: alt}` with no timestamp. |
| AppLoad.LoadedTraceData | Script.js:34-54 | Nothing for an empty track. Otherwise one point per coordinate, the upper-cased type as format, a non-empty name, and "Exportée depuis" plus the format as description. |
| AppLoad.LoadedRoundTrip | Script.js:40-46 | Reading the triples back from the points gives the loaded coordinates. |
| AppLoad.LoadedName | Script.js:51 | The name is the file name unless it is missing or empty, then "Trace GPS". |
| Escapes.PassesEscapeEach | conversion_trace.js:346-351 | Because `&` is replaced first, the five passes equal escaping each character once. |
| Escapes.UnescapeEscapeEach | conversion_trace.js:346-351 | Decoding the five entities gives back the original text. |
| Escapes.EscapeXmlSpec | conversion_trace.js:344-352 | No raw `<`, `>`, `"` or `'` in the output. The entities decode back to the input. Text without the five characters is unchanged. |
| Escapes.EscapeXmlText | conversion_trace.js:344-352 | `escapeXml` replaces only the five markup characters, so its output may stand in an XML document exactly when its input may. A control character such as U+0001 passes through and makes the file ill-formed. |
| Escapes.EscapedCharData | conversion_trace.js:344-352 | A reader gives back an escaped text with CR LF and lone CR turned into LF and nothing else changed. |
| Escapes.LineEndsEscapeEach | conversion_trace.js:346-351 | Escaping and line-end handling commute, since no entity holds a CR or LF. |
| Escapes.LineEndsKeeps | conversion_trace.js:344-352 | Line-end handling keeps text without a CR, leaves no CR behind, and gives the empty text only for the empty text. |
| Escapes.ControlCharNotXml | conversion_trace.js:344-352 | A text holding U+0001 cannot stand in a document. |
| Escapes.CrReadsAsLf | conversion_trace.js:344-352 | `x`, CR, `y` is read back as `x`, LF, `y`. |
| Escapes.EscapeIgc | conversion_trace.js:354-357 | The output has only `[A-Za-z0-9 ]` and is the first min(n, 20) characters of the n safe characters of the input. A missing value gives the empty text. |
| Escapes.EscapeIgcIdempotent | conversion_trace.js:354-357 | Escaping twice is escaping once. |
| Escapes.EscapeIgcOneLine | conversion_trace.js:354-357 | The escaped name holds no line feed, so it stays on its header line. |
| XmlWrite.KmlLineReadBack | conversion_trace.js:251 | `parseKML` reads a written coordinate line, after any indentation, back as its point: the same coordinates, and the elevation or 0. |
| XmlWrite.CoordinatesRoundTrip | conversion_trace.js:250-252 | Lines joined by a line feed and any indentation, inside any white space, read back as the written points with numeric coordinates, in order. |
| XmlWrite.KmlRoundTrip | conversion_trace.js:250-263 | The `coordinates` text of `toKML` reads back as the points with numeric coordinates, in order, with a falsy elevation as 0. |
| XmlWrite.KmlCoordinatesPlain | conversion_trace.js:250-263 | The `coordinates` text holds no `<` or `&`, so an XML parser hands it over verbatim. |
| XmlWrite.KmlFileRoundTrip | conversion_trace.js:249-268 | A KML file whose name and description hold only characters XML allows reads back with its points, its name (or "Trace GPS" when empty) and its description, each with CR and CR LF turned into LF. Any other character makes `parseKML` fail with "XML invalide". Text without a CR comes back unchanged. |
| XmlWrite.GpxElement | conversion_trace.js:225-232 | The `ele` element is left out exactly for a zero elevation. |
| XmlWrite.GpxElevation | conversion_trace.js:226-228 | The elevation read back lies within half a centimetre of the written one. NaN stays NaN, and 0 stays 0. |
| XmlWrite.GpxPointReadBack | conversion_trace.js:224-233 | `parseGPX` reads a written `trkpt` back with the same coordinates and time and the elevation rounded to the centimetre. |
| XmlWrite.GpxFileRoundTrip | conversion_trace.js:214-244 | A GPX file whose name and description hold only characters XML allows reads back with its points under the default name and with no description, because the name goes to `metadata`. Any other character makes `parseGPX` fail with "XML invalide". |
| XmlWrite.TcxElement | conversion_trace.js:313-325 | `AltitudeMeters` is left out exactly for a zero elevation. Every trackpoint has a position and its time stamp. |
| XmlWrite.TcxPointReadBack | conversion_trace.js:315-324 | `parseTCX` reads a written trackpoint back exactly, with the time stamp it was given. |
| XmlWrite.TcxFileRoundTrip | conversion_trace.js:311-339 | A TCX file read back gives every point with numeric coordinates, exactly and in order, named after the `Id` time. |
| IgcFindings.StrictReadsWrittenLine | Script.js:886-908 | The strict decoder accepts every written B line but reads each coordinate within 0.0011° of its whole degrees. |
| IgcFindings.StrictMisreadsHalfDegree | Script.js:888 | 45.5° N, 0.5° E is decoded below 45.0011° N and 0.0011° E, about half a degree away. |
| IgcFindings.StandardRoundTrip | conversion_trace.js:299-302 | A B line written in thousandths of a minute, as section A4.1 of the FAI IGC technical specification lays out, is decoded by `parseIGCLine` within 10^-5 degrees with the same signs. A plausible altitude is kept. |
| IgcFindings.PilotNameShortened | conversion_trace.js:157 | The name read back from `HFPLT:` + name loses the first two escaped characters. |
| IgcFindings.PilotJeanReadsAn | conversion_trace.js:157 | The pilot "Jean" is read back as "an". |
| IgcFindings.PilotNameRoundTrip | conversion_trace.js:282 | Reading from column 6 gives back the escaped name, trimmed. A safe name of up to 20 characters comes back unchanged. |
| JsNumber.Round | conversion_trace.js:294 | `Math.round(x)` is within half a unit of x, with halves rounded up. |
| JsNumber.ParseToFixed | conversion_trace.js:227 | `parseFloat(x.toFixed(f))` is x rounded to f decimals. |
| JsNumber.FixedValueError | conversion_trace.js:227 | Rounding to f decimals moves a value by at most half a unit in the last place. |
| JsText.Split | conversion_trace.js:113 | `split` on one character gives at least one part. No part holds the separator, and joining the parts gives back the text. |
| JsText.SplitJoin | conversion_trace.js:85 | `split` inverts `join` when no part holds the separator. |

## Left out

- ParseFloat: reads white space, a sign, digits and an optional `.digits` fraction. It has no exponent and no `Infinity`, so `"4.5e1"` reads as 4.5 and `"1e-5"` as 1.
- ParseIntAuto: without a radix it reads decimal digits or a `0x` hexadecimal prefix. Legacy octal and other engine extensions are not modelled.
- ToFixed: works on exact reals, not IEEE-754 doubles. `(1.005).toFixed(2)` is `"1.01"` here but `"1.00"` in a browser, where 1.005 is stored slightly below itself.
- Round: `Math.round` of sums is taken over exact reals. This applies to the average, the climb and the descent in `analyzeAltitudes`, and the elevation in `toIGC`. Double rounding in the sums is not modelled.
- FilterNearCentroid: the centroid sums are exact reals, not double sums.
- LoadedTraceData: `Coord.alt` is a real, so the NaN altitude the page can carry (`coord[2] || 0` with `coord[2]` NaN) is not represented.
- Triple: `coord[2] || 0` is modelled on real altitudes. A NaN or missing third component is represented only by its absence.
- Lower: `toLowerCase` covers ASCII letters only. Upper: the same holds for `toUpperCase`.
- JsText: a character is a Unicode scalar value, not a UTF-16 code unit. A character outside the Basic Multilingual Plane, such as an emoji, counts 2 in `length` and `substring` in a browser and 1 here. This affects `line.length < 35` (Script.js:876) and `substring(8)` (conversion_trace.js:157) only for such characters.
- Parse: `DOMParser` is not modelled. The XML formats read an `XmlDocument` that holds the parser's answers, and whether real text produces them is outside the model.
- ExtractCoordinates: the toGeoJSON library is not modelled. Its output is an `Option<FeatureCollection>`, and only `LineString`, `Point` and "other" geometries are distinguished.
- NumText: number-to-string conversion is the parameter `show`. Round trips assume, for the printed values only, that `parseFloat(show(x)) == x` and that the text is a single token.
- KmlFileRoundTrip: the XML parser's view of the written file is stated as `KmlView`, not derived from the text. GpxFileRoundTrip and TcxFileRoundTrip use `GpxView` and `TcxView` in the same way. The view decides well-formedness from the name and description alone, using the character class of section 2.2 of XML 1.0. Its text content follows the end-of-line handling of section 2.11, and the number texts are taken to be XML characters without a CR.
- ToIgc: the calendar date of `new Date()` is a parameter. The `toTCX` time stamps (`Date.now`, `toISOString`) are parameters. The `metadata` time of the `toGPX` header is left out.
- GpxPoint: the `time` text is kept as text. `new Date(text)` and its Invalid Date for unreadable text are not modelled.
- TcxPoint: the same holds for the `Time` text.
- GpxElement: a point's time stamp is kept as the text it was read from, not as a `Date`. `toGPX` writes that text back unchanged. The browser instead writes `toISOString()`, which normalises the text and throws a RangeError for an invalid date, such as one read from an empty `<time>`. That error is not modelled.
- GpxPointReadBack: reads the time back as the text written, so it holds only where `toISOString()` would print the read text unchanged.
- GpxFileRoundTrip: the same; a trace holding an invalid date, which makes the browser's `toGPX` throw, is not singled out.
- ParseIgc: `new Date(year, month - 1, day).toLocaleDateString()` is a parameter. The date is kept as its three arguments, and calendar normalisation is not modelled.
- `processFitData` and `FitParser`: the FIT library's record objects are outside the model, and only the fallback salvage is modelled.
- `advancedFitSearch`, `filterValidTrack`, `isValidCoordinate` and `debugCoordinates` are left out: no code calls them.
- The TCX branch of `processFile` is left out. It repeats the `parseTCX` rules through `getElementsByTagName`.
- Map display, animation, navigation, file reading (`FileReader`), downloads (`Blob`, `URL`) and console messages are left out.
- Exceptions are modelled as `Result` failures carrying their message. Messages the page only logs are left out.

## Findings

| source | as written | input that shows it | evidently intended | confidence | as-written member | corrected member |
|---|---|---|---|---|---|---|
| Script.js:888 | `toIGC` (conversion_trace.js:300) writes the minutes as decimal minutes, `MM.mm`. `parseIGCLine` divides that field by 1000 as if it held thousandths `MMmmm`, so every coordinate written by the converter is read by the viewer within 0.0011° of its whole degrees. | The point 45.5° N, 0.5° E is written as `B0000004530.00N00030.00EA0010000100` and decoded within 0.0011° of 45° N, 0° E, more than 0.49° from the point. | The writer should emit thousandths of a minute, as in section A4.1 of the IGC specification. The strict reader then gets the point back within 10^-5 degrees. | not executed; proved on the model | IgcFindings.StrictMisreadsHalfDegree (with IgcFindings.StrictReadsWrittenLine) | IgcFindings.StandardRoundTrip (on IgcFindings.StandardBLine) |
| conversion_trace.js:157 | `toIGC` (conversion_trace.js:282) writes `HFPLT:` followed by the name, a six-character tag. `parseIGC` reads the name with `substring(8)`, so the first two characters of the escaped name are lost. | The pilot `Jean` is written as `HFPLT:Jean` and read back as `an`. | The name should be read from column 6, right after the tag. | not executed; proved on the model | IgcFindings.PilotJeanReadsAn (with IgcFindings.PilotNameShortened) | IgcFindings.PilotNameRoundTrip (on IgcFindings.HeaderNameFixed) |

=== FILE: altitude.dfy ===
/** Altitude statistics of a loaded track and the heuristic that tells a
    flight from a walk (`getAltitudes`, `calculateElevationGain`,
    `calculateElevationLoss`, `detectFlightPattern`, `analyzeAltitudes` in
    Script.js). */
module Altitude {
  import opened Wrappers
  import opened Coords
  import opened Seqs
  import opened JsNumber
  import opened RealSeqs

  const NoAltitudeMessage := "Aucune donnée d'altitude trouvée"

  /** What `getAltitudes` pushes for one coordinate. */
  function PositiveAltitude(c: Coord): Option<real> {
    if c.alt > 0.0 then Some(c.alt) else None
  }

  /** `getAltitudes`: the strictly positive altitudes, in track order. */
  function Altitudes(coords: seq<Coord>): seq<real> {
    FilterMap(PositiveAltitude, coords)
  }

  /** Every altitude kept is positive and is the altitude of some point; a
      track has no altitude exactly when no point lies above zero. */
  lemma AltitudesPositive(coords: seq<Coord>)
    ensures forall i :: 0 <= i < |Altitudes(coords)| ==> Altitudes(coords)[i] > 0.0
  {
    forall i | 0 <= i < |Altitudes(coords)|
      ensures Altitudes(coords)[i] > 0.0
    {
      FilterMapFrom(PositiveAltitude, coords, Altitudes(coords)[i]);
    }
  }

  lemma AltitudesEmpty(coords: seq<Coord>)
    ensures Altitudes(coords) == [] <==> forall i :: 0 <= i < |coords| ==> coords[i].alt <= 0.0
  {
    FilterMapEmpty(PositiveAltitude, coords);
    assert forall i :: 0 <= i < |coords| ==> (PositiveAltitude(coords[i]).None? <==> coords[i].alt <= 0.0);
  }

  /** An altitude value is kept exactly when some point carries it and it is
      positive. */
  lemma AltitudesMembers(coords: seq<Coord>, x: real)
    ensures x in Altitudes(coords) <==> x > 0.0 && exists i :: 0 <= i < |coords| && coords[i].alt == x
  {
    if x in Altitudes(coords) {
      FilterMapFrom(PositiveAltitude, coords, x);
    }
    if x > 0.0 && exists i :: 0 <= i < |coords| && coords[i].alt == x {
      var i :| 0 <= i < |coords| && coords[i].alt == x;
      FilterMapConcat(PositiveAltitude, coords[..i], coords[i..]);
      FilterMapConcat(PositiveAltitude, [coords[i]], coords[i + 1..]);
      assert coords == coords[..i] + coords[i..];
      assert coords[i..] == [coords[i]] + coords[i + 1..];
      assert FilterMap(PositiveAltitude, [coords[i]]) == [x];
    }
  }

  /** The climb from `a` to `b`; nothing on a descent. */
  function Rise(a: real, b: real): real {
    if b - a > 0.0 then b - a else 0.0
  }

  /** The drop from `a` to `b` (`Math.abs` of a negative difference). */
  function Drop(a: real, b: real): real {
    if b - a < 0.0 then Abs(b - a) else 0.0
  }

  /** The cumulative climb over consecutive altitudes. */
  function Gain(a: seq<real>): (g: real)
    ensures g >= 0.0
  {
    if |a| < 2 then 0.0 else Gain(a[..|a| - 1]) + Rise(a[|a| - 2], a[|a| - 1])
  }

  /** The cumulative descent over consecutive altitudes. */
  function Loss(a: seq<real>): (l: real)
    ensures l >= 0.0
  {
    if |a| < 2 then 0.0 else Loss(a[..|a| - 1]) + Drop(a[|a| - 2], a[|a| - 1])
  }

  /** `calculateElevationGain`: the loop over consecutive pairs computes the
      cumulative climb. */
  method ElevationGain(a: seq<real>) returns (total: real)
    ensures total == Gain(a)
    ensures total >= 0.0
  {
    total := 0.0;
    var i := 1;
    while i < |a|
      invariant |a| == 0 || 1 <= i <= |a|
      invariant |a| == 0 ==> total == 0.0
      invariant |a| > 0 ==> total == Gain(a[..i])
    {
      var diff := a[i] - a[i - 1];
      if diff > 0.0 {
        total := total + diff;
      }
      assert a[..i + 1][..i] == a[..i];
      i := i + 1;
    }
    if |a| > 0 {
      assert a[..i] == a;
    }
  }

  /** `calculateElevationLoss`: the loop over consecutive pairs computes the
      cumulative descent. */
  method ElevationLoss(a: seq<real>) returns (total: real)
    ensures total == Loss(a)
    ensures total >= 0.0
  {
    total := 0.0;
    var i := 1;
    while i < |a|
      invariant |a| == 0 || 1 <= i <= |a|
      invariant |a| == 0 ==> total == 0.0
      invariant |a| > 0 ==> total == Loss(a[..i])
    {
      var diff := a[i] - a[i - 1];
      if diff < 0.0 {
        total := total + Abs(diff);
      }
      assert a[..i + 1][..i] == a[..i];
      i := i + 1;
    }
    if |a| > 0 {
      assert a[..i] == a;
    }
  }

  /** Climb minus descent is the net change from the first altitude to the
      last. */
  lemma {:induction false} GainMinusLoss(a: seq<real>)
    requires |a| >= 1
    ensures Gain(a) - Loss(a) == a[|a| - 1] - a[0]
  {
    if |a| >= 2 {
      var p := a[..|a| - 1];
      GainMinusLoss(p);
      assert p[|p| - 1] == a[|a| - 2] && p[0] == a[0];
    }
  }

  /** Cumulative climb and descent never fall short of the net change in
      either direction. */
  lemma GainCoversNetClimb(a: seq<real>)
    requires |a| >= 1
    ensures Gain(a) >= a[|a| - 1] - a[0]
    ensures Loss(a) >= a[0] - a[|a| - 1]
  {
    GainMinusLoss(a);
  }

  /** `coord[2] || 0` over the whole track: with altitudes as exact numbers
      the fallback to 0 changes nothing, so it is the altitude column. */
  function AltitudeColumn(coords: seq<Coord>): (alts: seq<real>)
    ensures |alts| == |coords|
    ensures forall i :: 0 <= i < |coords| ==> alts[i] == coords[i].alt
  {
    if |coords| == 0 then [] else [coords[0].alt] + AltitudeColumn(coords[1..])
  }

  /** The altitudes `detectFlightPattern` considers plausible for a flight. */
  predicate InFlightBand(alt: real) {
    alt > 0.0 && alt < 10000.0
  }

  function FlightAltitudes(coords: seq<Coord>): seq<real> {
    Filter(InFlightBand, AltitudeColumn(coords))
  }

  /** A climb between consecutive altitudes that counts as an ascending
      section. */
  predicate SteepRise(a: real, b: real) {
    b - a > 50.0
  }

  /** The number of ascending sections. */
  function Ascents(v: seq<real>): (n: nat)
    ensures |v| >= 1 ==> n <= |v| - 1
  {
    if |v| < 2 then 0
    else Ascents(v[..|v| - 1]) + (if SteepRise(v[|v| - 2], v[|v| - 1]) then 1 else 0)
  }

  /** The total climb of the ascending sections. */
  function AscentTotal(v: seq<real>): real {
    if |v| < 2 then 0.0
    else AscentTotal(v[..|v| - 1]) + (if SteepRise(v[|v| - 2], v[|v| - 1]) then v[|v| - 1] - v[|v| - 2] else 0.0)
  }

  /** Each ascending section climbs more than 50 m and is part of the
      cumulative climb. */
  lemma {:induction false} AscentBounds(v: seq<real>)
    ensures AscentTotal(v) >= 50.0 * Ascents(v) as real
    ensures Ascents(v) > 0 ==> AscentTotal(v) > 50.0 * Ascents(v) as real
    ensures AscentTotal(v) <= Gain(v)
  {
    if |v| >= 2 {
      AscentBounds(v[..|v| - 1]);
    }
  }

  /** `detectFlightPattern`. */
  function DetectFlightPattern(coords: seq<Coord>): bool {
    if |coords| < 10 then false
    else
      var v := FlightAltitudes(coords);
      if |v| < 5 then false
      else
        var minAlt := MinOf(v);
        var maxAlt := MaxOf(v);
        maxAlt - minAlt > 200.0 && Ascents(v) > 3 && AscentTotal(v) > 300.0 && maxAlt > 500.0
  }

  /** A track classed as a flight has at least ten points, at least five
      plausible altitudes all within the band, spread over more than 200 m,
      at least four steep climbs that together rise more than 300 m, a
      cumulative climb over 300 m among those altitudes, and reaches above
      500 m. */
  lemma FlightClimbs(coords: seq<Coord>)
    requires DetectFlightPattern(coords)
    ensures |coords| >= 10
    ensures |FlightAltitudes(coords)| >= 5
    ensures MaxOf(FlightAltitudes(coords)) - MinOf(FlightAltitudes(coords)) > 200.0
    ensures Ascents(FlightAltitudes(coords)) >= 4
    ensures AscentTotal(FlightAltitudes(coords)) > 300.0
    ensures Gain(FlightAltitudes(coords)) > 300.0
    ensures exists i :: 0 <= i < |coords| && 500.0 < coords[i].alt < 10000.0
  {
    var v := FlightAltitudes(coords);
    AscentBounds(v);
    var m := MaxOf(v);
    FilterMembers(InFlightBand, AltitudeColumn(coords), m);
    var i :| 0 <= i < |coords| && AltitudeColumn(coords)[i] == m;
  }

  /** A track whose plausible altitudes never climb more than 50 m between
      consecutive readings is never classed as a flight. */
  lemma GentleTrackIsNoFlight(coords: seq<Coord>)
    requires forall i :: 1 <= i < |FlightAltitudes(coords)| ==>
               FlightAltitudes(coords)[i] - FlightAltitudes(coords)[i - 1] <= 50.0
    ensures !DetectFlightPattern(coords)
  {
    NoSteepRise(FlightAltitudes(coords));
  }

  lemma {:induction false} NoSteepRise(v: seq<real>)
    requires forall i :: 1 <= i < |v| ==> v[i] - v[i - 1] <= 50.0
    ensures Ascents(v) == 0
  {
    if |v| >= 2 {
      var p := v[..|v| - 1];
      assert forall i :: 0 <= i < |p| ==> p[i] == v[i];
      NoSteepRise(p);
    }
  }

  /** The result of `analyzeAltitudes`. */
  datatype AltitudeReport =
    | NoAltitude(message: string)
    | Stats(isFlight: bool, count: nat, min: real, max: real, avg: int,
            totalGain: int, totalLoss: int, amplitude: real)

  /** `analyzeAltitudes`: statistics over the positive altitudes, or a
      message when there are none. */
  function AnalyzeAltitudes(coords: seq<Coord>): (r: AltitudeReport)
    ensures r.NoAltitude? <==> forall i :: 0 <= i < |coords| ==> coords[i].alt <= 0.0
    ensures r.NoAltitude? ==> r.message == NoAltitudeMessage
    ensures r.Stats? ==> r.count == |Altitudes(coords)| && 0 < r.count <= |coords|
    ensures r.Stats? ==> r.min in Altitudes(coords) && r.max in Altitudes(coords)
    ensures r.Stats? ==> r.isFlight == DetectFlightPattern(coords)
    ensures r.Stats? ==> 0.0 < r.min <= r.max && r.amplitude == r.max - r.min
    ensures r.Stats? ==> forall i :: 0 <= i < |coords| && coords[i].alt > 0.0 ==> r.min <= coords[i].alt <= r.max
    ensures r.Stats? ==> r.min - 0.5 < r.avg as real <= r.max + 0.5
    ensures r.Stats? ==> r.totalGain >= 0 && r.totalLoss >= 0
    ensures r.Stats? ==> r.totalGain == Round(Gain(Altitudes(coords))) && r.totalLoss == Round(Loss(Altitudes(coords)))
  {
    var altitudes := Altitudes(coords);
    AltitudesEmpty(coords);
    if |altitudes| == 0 then
      NoAltitude(NoAltitudeMessage)
    else
      var minAlt := MinOf(altitudes);
      var maxAlt := MaxOf(altitudes);
      AltitudesPositive(coords);
      MeanAtLeast(altitudes, minAlt);
      MeanAtMost(altitudes, maxAlt);
      assert forall i :: 0 <= i < |coords| && coords[i].alt > 0.0 ==> coords[i].alt in altitudes by {
        forall i | 0 <= i < |coords| && coords[i].alt > 0.0 {
          AltitudesMembers(coords, coords[i].alt);
        }
      }
      Stats(DetectFlightPattern(coords), |altitudes|, minAlt, maxAlt,
            Round(Sum(altitudes) / |altitudes| as real),
            Round(Gain(altitudes)), Round(Loss(altitudes)), maxAlt - minAlt)
  }

  /** The rounded climb and descent of a report still balance to the net
      altitude change between the first and the last positive altitude,
      within one metre. */
  lemma ReportBalance(coords: seq<Coord>)
    requires AnalyzeAltitudes(coords).Stats?
    ensures var r := AnalyzeAltitudes(coords);
            var a := Altitudes(coords);
            |a| > 0 &&
            -1.0 < (r.totalGain - r.totalLoss) as real - (a[|a| - 1] - a[0]) < 1.0
  {
    var a := Altitudes(coords);
    AltitudesEmpty(coords);
    GainMinusLoss(a);
  }
}

=== FILE: app_load.dfy ===
/** The page's side of a conversion: the extension gate of `handleFile` and
    the mapping of the loaded coordinate triples into TraceConverter's
    representation in `getLoadedTraceData` (Script.js). */
module AppLoad {
  import opened Wrappers
  import opened JsText
  import opened JsNumber
  import opened Seqs
  import opened Coords
  import opened TraceDecode

  /** `file.name.split('.').pop().toLowerCase()`: what follows the last
      dot, or the whole name when there is none, in lower case. */
  function ExtensionOf(name: string): string {
    var parts := Split(name, '.');
    Lower(parts[|parts| - 1])
  }

  const AllowedExtensions: seq<string> := ["igc", "gpx", "kml", "fit", "tcx"]

  /** The gate at the top of `handleFile`. */
  predicate AcceptsFile(name: string) {
    ExtensionOf(name) in AllowedExtensions
  }

  /** A name is judged by what follows its last dot, in any letter case. */
  lemma ExtensionAfterLastDot(stem: string, ext: string)
    requires '.' !in ext
    ensures ExtensionOf(stem + "." + ext) == Lower(ext)
    ensures AcceptsFile(stem + "." + ext) <==> Lower(ext) in AllowedExtensions
  {
    assert "." == ['.'];
    SplitLast(stem, '.', ext);
  }

  /** A name without a dot is its own extension. */
  lemma ExtensionOfDotless(name: string)
    requires '.' !in name
    ensures ExtensionOf(name) == Lower(name)
  {
    SplitWord(name, '.');
  }

  /** One loaded triple as a TraceConverter point: latitude and longitude
      swapped into place, `coord[2] || 0` as elevation, no timestamp. */
  function LoadedPoint(c: Coord): (pt: TracePoint)
    ensures pt.lat == Finite(c.lat) && pt.lon == Finite(c.lon) && pt.elevation == Finite(c.alt)
    ensures pt.timestamp.None?
  {
    TracePoint(Finite(c.lat), Finite(c.lon), Or(Finite(c.alt), Finite(0.0)), None)
  }

  /** The triple a point came from, when all three numbers are finite. */
  function CoordOf(pt: TracePoint): Option<Coord> {
    if pt.lat.Finite? && pt.lon.Finite? && pt.elevation.Finite? then
      Some(Coord(pt.lon.value, pt.lat.value, pt.elevation.value))
    else None
  }

  const DefaultTraceName := "Trace GPS"
  const ExportPrefix := "Exportée depuis "

  /** `getLoadedTraceData`: nothing without coordinates (the page alerts);
      otherwise the points in order, the upper-cased file type as format,
      the file name or a default. */
  function LoadedTraceData(coords: seq<Coord>, fileType: string, fileName: Option<string>): (r: Option<TraceData>)
    ensures r.None? <==> |coords| == 0
    ensures r.Some? ==> |r.value.points| == |coords| && r.value.name != []
    ensures r.Some? ==> r.value.format == Upper(fileType) && r.value.description == ExportPrefix + r.value.format
  {
    if |coords| == 0 then None
    else
      var points := seq(|coords|, i requires 0 <= i < |coords| => LoadedPoint(coords[i]));
      Some(TraceData(Upper(fileType), points, TextOr(fileName, DefaultTraceName), ExportPrefix + Upper(fileType)))
  }

  /** Reading the triples back from the points gives the loaded
      coordinates: the mapping loses nothing and keeps the order. */
  lemma LoadedRoundTrip(coords: seq<Coord>, fileType: string, fileName: Option<string>)
    requires |coords| > 0
    ensures FilterMap(CoordOf, LoadedTraceData(coords, fileType, fileName).value.points) == coords
  {
    var points := LoadedTraceData(coords, fileType, fileName).value.points;
    assert forall i :: 0 <= i < |points| ==> CoordOf(points[i]) == Some(coords[i]);
    FilterMapAll(CoordOf, points);
  }

  /** The name is the file name unless that is missing or empty. */
  lemma LoadedName(coords: seq<Coord>, fileType: string, fileName: Option<string>)
    requires |coords| > 0
    ensures LoadedTraceData(coords, fileType, fileName).value.name
            == if fileName.Some? && fileName.value != [] then fileName.value else DefaultTraceName
  {
  }
}

=== FILE: coords.dfy ===
/** The coordinate triple the viewer keeps for a loaded track. */
module Coords {

  /** One track point as the array `[longitude, latitude, altitude]`, longitude
      first as in GeoJSON; angles in degrees, altitude in metres. */
  datatype Coord = Coord(lon: real, lat: real, alt: real)
}

=== FILE: escapes.dfy ===
/** The two text sanitisers of TraceConverter: `escapeXml`, which writes the
    five predefined entities of section 4.6 of XML 1.0, and `escapeIGC`,
    which keeps what an IGC header value may safely hold. */
module Escapes {
  import opened Wrappers
  import opened JsText
  import opened Seqs

  /** `s.replace(/c/g, rep)`. */
  function ReplaceAll(s: string, c: char, rep: string): string {
    if |s| == 0 then []
    else (if s[0] == c then rep else [s[0]]) + ReplaceAll(s[1..], c, rep)
  }

  lemma {:induction false} ReplaceAllConcat(a: string, b: string, c: char, rep: string)
    ensures ReplaceAll(a + b, c, rep) == ReplaceAll(a, c, rep) + ReplaceAll(b, c, rep)
  {
    if |a| > 0 {
      assert (a + b)[1..] == a[1..] + b;
      ReplaceAllConcat(a[1..], b, c, rep);
    } else {
      assert a + b == b;
    }
  }

  /** A string without `c` is left alone by replacing `c`. */
  lemma {:induction false} ReplaceAllAbsent(s: string, c: char, rep: string)
    requires c !in s
    ensures ReplaceAll(s, c, rep) == s
  {
    if |s| > 0 {
      ReplaceAllAbsent(s[1..], c, rep);
    }
  }

  /** The five replacement passes of `escapeXml`, ampersand first; the
      passes after the first are named so that their effect on an entity
      already written can be stated once. */
  function EscapePasses(s: string): string {
    AfterAmpersand(ReplaceAll(s, '&', "&amp;"))
  }

  function AfterAmpersand(s: string): string {
    AfterLess(ReplaceAll(s, '<', "&lt;"))
  }

  function AfterLess(s: string): string {
    AfterGreater(ReplaceAll(s, '>', "&gt;"))
  }

  function AfterGreater(s: string): string {
    ReplaceAll(ReplaceAll(s, '"', "&quot;"), '\'', "&apos;")
  }

  /** `escapeXml`: a missing or empty value gives the empty string. */
  function EscapeXml(s: Option<string>): string {
    if s.None? || s.value == [] then [] else EscapePasses(s.value)
  }

  /** The entity that stands for one character, or the character itself. */
  function Entity(c: char): string {
    if c == '&' then "&amp;"
    else if c == '<' then "&lt;"
    else if c == '>' then "&gt;"
    else if c == '"' then "&quot;"
    else if c == '\'' then "&apos;"
    else [c]
  }

  /** The reference escaper: each character replaced by its entity in one
      pass. */
  function EscapeEach(s: string): (r: string)
    ensures |r| >= |s|
  {
    if |s| == 0 then [] else Entity(s[0]) + EscapeEach(s[1..])
  }

  predicate IsMarkup(c: char) {
    c == '<' || c == '>' || c == '"' || c == '\''
  }

  /** One character and the passes after the one that matches it. */
  lemma ReplaceOne(c: char, d: char, rep: string)
    ensures ReplaceAll([c], d, rep) == if c == d then rep else [c]
  {
    assert [c][1..] == [];
  }

  /** The passes left after the one that wrote an entity leave it alone. */
  lemma AfterGreaterKeeps(e: string)
    requires '"' !in e && '\'' !in e
    ensures AfterGreater(e) == e
  {
    ReplaceAllAbsent(e, '"', "&quot;");
    ReplaceAllAbsent(e, '\'', "&apos;");
  }

  lemma AfterLessKeeps(e: string)
    requires '>' !in e && '"' !in e && '\'' !in e
    ensures AfterLess(e) == e
  {
    ReplaceAllAbsent(e, '>', "&gt;");
    AfterGreaterKeeps(e);
  }

  lemma AfterAmpersandKeeps(e: string)
    requires '<' !in e && '>' !in e && '"' !in e && '\'' !in e
    ensures AfterAmpersand(e) == e
  {
    ReplaceAllAbsent(e, '<', "&lt;");
    AfterLessKeeps(e);
  }

  lemma EscapeAmpersand(c: char)
    requires c == '&'
    ensures EscapePasses([c]) == Entity(c)
  {
    ReplaceOne(c, '&', "&amp;");
    AfterAmpersandKeeps("&amp;");
  }

  lemma EscapeLess(c: char)
    requires c == '<'
    ensures EscapePasses([c]) == Entity(c)
  {
    ReplaceOne(c, '&', "&amp;");
    ReplaceOne(c, '<', "&lt;");
    AfterLessKeeps("&lt;");
  }

  lemma EscapeGreater(c: char)
    requires c == '>'
    ensures EscapePasses([c]) == Entity(c)
  {
    ReplaceOne(c, '&', "&amp;");
    ReplaceOne(c, '<', "&lt;");
    ReplaceOne(c, '>', "&gt;");
    AfterGreaterKeeps("&gt;");
  }

  lemma EscapeQuote(c: char)
    requires c == '"'
    ensures EscapePasses([c]) == Entity(c)
  {
    ReplaceOne(c, '&', "&amp;");
    ReplaceOne(c, '<', "&lt;");
    ReplaceOne(c, '>', "&gt;");
    ReplaceOne(c, '"', "&quot;");
    ReplaceAllAbsent("&quot;", '\'', "&apos;");
  }

  lemma EscapeApostrophe(c: char)
    requires c == '\''
    ensures EscapePasses([c]) == Entity(c)
  {
    ReplaceOne(c, '&', "&amp;");
    ReplaceOne(c, '<', "&lt;");
    ReplaceOne(c, '>', "&gt;");
    ReplaceOne(c, '"', "&quot;");
    ReplaceOne(c, '\'', "&apos;");
  }

  lemma EscapeOther(c: char)
    requires c != '&' && !IsMarkup(c)
    ensures EscapePasses([c]) == [c]
  {
    ReplaceOne(c, '&', "&amp;");
    ReplaceOne(c, '<', "&lt;");
    ReplaceOne(c, '>', "&gt;");
    ReplaceOne(c, '"', "&quot;");
    ReplaceOne(c, '\'', "&apos;");
  }

  lemma EntityOfOne(c: char)
    ensures EscapePasses([c]) == Entity(c)
  {
    if c == '&' {
      EscapeAmpersand(c);
    } else if c == '<' {
      EscapeLess(c);
    } else if c == '>' {
      EscapeGreater(c);
    } else if c == '"' {
      EscapeQuote(c);
    } else if c == '\'' {
      EscapeApostrophe(c);
    } else {
      EscapeOther(c);
    }
  }

  lemma AfterGreaterConcat(a: string, b: string)
    ensures AfterGreater(a + b) == AfterGreater(a) + AfterGreater(b)
  {
    ReplaceAllConcat(a, b, '"', "&quot;");
    ReplaceAllConcat(ReplaceAll(a, '"', "&quot;"), ReplaceAll(b, '"', "&quot;"), '\'', "&apos;");
  }

  lemma AfterLessConcat(a: string, b: string)
    ensures AfterLess(a + b) == AfterLess(a) + AfterLess(b)
  {
    ReplaceAllConcat(a, b, '>', "&gt;");
    AfterGreaterConcat(ReplaceAll(a, '>', "&gt;"), ReplaceAll(b, '>', "&gt;"));
  }

  lemma AfterAmpersandConcat(a: string, b: string)
    ensures AfterAmpersand(a + b) == AfterAmpersand(a) + AfterAmpersand(b)
  {
    ReplaceAllConcat(a, b, '<', "&lt;");
    AfterLessConcat(ReplaceAll(a, '<', "&lt;"), ReplaceAll(b, '<', "&lt;"));
  }

  /** Every pass works character by character, so the passes distribute over
      concatenation. */
  lemma PassesConcat(a: string, b: string)
    ensures EscapePasses(a + b) == EscapePasses(a) + EscapePasses(b)
  {
    ReplaceAllConcat(a, b, '&', "&amp;");
    AfterAmpersandConcat(ReplaceAll(a, '&', "&amp;"), ReplaceAll(b, '&', "&amp;"));
  }

  /** Because the ampersand is replaced first, no entity written by an earlier
      pass is escaped again: the five passes escape each character once. */
  lemma {:induction false} PassesEscapeEach(s: string)
    ensures EscapePasses(s) == EscapeEach(s)
  {
    if |s| > 0 {
      assert s == [s[0]] + s[1..];
      PassesConcat([s[0]], s[1..]);
      EntityOfOne(s[0]);
      PassesEscapeEach(s[1..]);
    }
  }

  /** Escaped text holds no raw markup character. */
  lemma {:induction false} EscapeEachNoMarkup(s: string)
    ensures forall i :: 0 <= i < |EscapeEach(s)| ==> !IsMarkup(EscapeEach(s)[i])
  {
    if |s| > 0 {
      EscapeEachNoMarkup(s[1..]);
      var e := Entity(s[0]);
      assert forall i :: 0 <= i < |e| ==> !IsMarkup(e[i]);
      assert EscapeEach(s) == e + EscapeEach(s[1..]);
    }
  }

  /** The escaped text of a string free of the five special characters is the
      string itself. */
  lemma {:induction false} EscapeEachPlain(s: string)
    requires forall i :: 0 <= i < |s| ==> s[i] != '&' && !IsMarkup(s[i])
    ensures EscapeEach(s) == s
  {
    if |s| > 0 {
      EscapeEachPlain(s[1..]);
    }
  }

  /** Decoding of the five predefined entities, as an XML reader does it. */
  function Unescape(t: string): string {
    if |t| == 0 then []
    else if t[0] != '&' then [t[0]] + Unescape(t[1..])
    else if "&amp;" <= t then "&" + Unescape(t[5..])
    else if "&lt;" <= t then "<" + Unescape(t[4..])
    else if "&gt;" <= t then ">" + Unescape(t[4..])
    else if "&quot;" <= t then "\"" + Unescape(t[6..])
    else if "&apos;" <= t then "'" + Unescape(t[6..])
    else [t[0]] + Unescape(t[1..])
  }

  lemma UnescapeEntity(c: char, rest: string)
    ensures Unescape(Entity(c) + rest) == [c] + Unescape(rest)
  {
    var t := Entity(c) + rest;
    if c == '&' {
      assert "&amp;" <= t && t[5..] == rest;
    } else if c == '<' {
      assert t[1] == 'l';
      assert "&lt;" <= t && t[4..] == rest;
    } else if c == '>' {
      assert t[1] == 'g';
      assert "&gt;" <= t && t[4..] == rest;
    } else if c == '"' {
      assert t[1] == 'q';
      assert "&quot;" <= t && t[6..] == rest;
    } else if c == '\'' {
      assert t[1] == 'a' && t[2] == 'p';
      assert "&apos;" <= t && t[6..] == rest;
    } else {
      assert t[0] == c && t[1..] == rest;
    }
  }

  /** Decoding the entities gives back the original text. */
  lemma {:induction false} UnescapeEscapeEach(s: string)
    ensures Unescape(EscapeEach(s)) == s
  {
    if |s| > 0 {
      UnescapeEntity(s[0], EscapeEach(s[1..]));
      UnescapeEscapeEach(s[1..]);
    }
  }

  /** What `escapeXml` promises its callers: no raw `<`, `>`, `"` or `'`,
      the original text after entity decoding, and plain text unchanged. */
  lemma EscapeXmlSpec(s: string)
    ensures forall i :: 0 <= i < |EscapeXml(Some(s))| ==> !IsMarkup(EscapeXml(Some(s))[i])
    ensures Unescape(EscapeXml(Some(s))) == s
    ensures (forall i :: 0 <= i < |s| ==> s[i] != '&' && !IsMarkup(s[i])) ==> EscapeXml(Some(s)) == s
  {
    PassesEscapeEach(s);
    EscapeEachNoMarkup(s);
    UnescapeEscapeEach(s);
    if forall i :: 0 <= i < |s| ==> s[i] != '&' && !IsMarkup(s[i]) {
      EscapeEachPlain(s);
    }
  }

  // ----- What an XML 1.0 reader makes of the escaped text -----

  /** A character XML 1.0 allows in a document (section 2.2, production
      Char). A Dafny char is a Unicode scalar value, so the surrogate
      range cannot occur. */
  predicate XmlChar(c: char) {
    c == '\t' || c == '\n' || c == '\r' || (' ' <= c <= '\U{FFFD}') || '\U{10000}' <= c
  }

  /** Text that may stand in a well-formed document. */
  predicate XmlText(s: string) {
    forall i :: 0 <= i < |s| ==> XmlChar(s[i])
  }

  /** End-of-line handling (section 2.11 of XML 1.0): a reader turns CR LF
      and a lone CR into LF before anything else. */
  function LineEnds(s: string): string
    decreases |s|
  {
    if |s| == 0 then []
    else if s[0] == '\r' then "\n" + LineEnds(if |s| > 1 && s[1] == '\n' then s[2..] else s[1..])
    else [s[0]] + LineEnds(s[1..])
  }

  /** The text content a reader gives for character data written as `t`. */
  function CharData(t: string): string {
    Unescape(LineEnds(t))
  }

  /** Line-end handling only ever rewrites a CR: text without one is kept,
      and no CR is left. */
  lemma {:induction false} LineEndsKeeps(s: string)
    ensures '\r' !in s ==> LineEnds(s) == s
    ensures '\r' !in LineEnds(s)
    ensures LineEnds(s) == [] <==> s == []
    decreases |s|
  {
    if |s| > 0 {
      var t := s[1..];
      assert s == [s[0]] + t;
      if s[0] == '\r' {
        var rest := if |t| > 0 && t[0] == '\n' then t[1..] else t;
        assert LineEnds(s) == "\n" + LineEnds(rest) by {
          LineEndsCr(t);
        }
        LineEndsKeeps(rest);
      } else {
        assert LineEnds(s) == [s[0]] + LineEnds(t) by {
          LineEndsOther(s[0], t);
        }
        LineEndsKeeps(t);
      }
    }
  }

  /** A CR-free prefix passes through line-end handling unchanged. */
  lemma {:induction false} LineEndsPrefix(a: string, rest: string)
    requires '\r' !in a
    ensures LineEnds(a + rest) == a + LineEnds(rest)
  {
    if |a| > 0 {
      var b := a[1..];
      assert '\r' !in b by {
        assert forall k :: 0 <= k < |b| ==> b[k] == a[k + 1];
      }
      LineEndsPrefix(b, rest);
      assert a == [a[0]] + b;
      calc {
        LineEnds(a + rest);
        { assert a + rest == [a[0]] + (b + rest); }
        LineEnds([a[0]] + (b + rest));
        { LineEndsOther(a[0], b + rest); }
        [a[0]] + LineEnds(b + rest);
        [a[0]] + (b + LineEnds(rest));
        a + LineEnds(rest);
      }
    } else {
      assert a + rest == rest;
    }
  }

  /** One step of line-end handling at any other character. */
  lemma LineEndsOther(c: char, rest: string)
    requires c != '\r'
    ensures LineEnds([c] + rest) == [c] + LineEnds(rest)
  {
    assert ([c] + rest)[1..] == rest;
  }

  /** One step of line-end handling at a CR. */
  lemma LineEndsCr(rest: string)
    ensures LineEnds("\r" + rest) == "\n" + LineEnds(if |rest| > 0 && rest[0] == '\n' then rest[1..] else rest)
  {
    var t := "\r" + rest;
    assert t[1..] == rest;
    if |rest| > 0 {
      assert t[1] == rest[0] && t[2..] == rest[1..];
    }
  }

  lemma EscapeEachCons(c: char, t: string)
    ensures EscapeEach([c] + t) == Entity(c) + EscapeEach(t)
  {
    assert ([c] + t)[1..] == t;
  }

  /** Escaping and line-end handling commute: entities hold no CR or LF. */
  lemma {:induction false} LineEndsEscapeEach(s: string)
    ensures LineEnds(EscapeEach(s)) == EscapeEach(LineEnds(s))
    decreases |s|
  {
    if |s| > 0 {
      var c, t := s[0], s[1..];
      assert s == [c] + t;
      if c == '\r' && |t| > 0 && t[0] == '\n' {
        var u := t[1..];
        assert EscapeEach(s) == "\r" + ("\n" + EscapeEach(u)) by {
          assert t == "\n" + u;
          EscapeEachCons('\r', t);
          EscapeEachCons('\n', u);
        }
        assert LineEnds(s) == "\n" + LineEnds(u) by {
          LineEndsCr(t);
        }
        assert LineEnds("\r" + ("\n" + EscapeEach(u))) == EscapeEach("\n" + LineEnds(u)) by {
          LineEndsEscapeEach(u);
          CrLfCore(EscapeEach(u), LineEnds(u));
        }
      } else if c == '\r' {
        assert EscapeEach(s) == "\r" + EscapeEach(t) by {
          EscapeEachCons('\r', t);
        }
        assert LineEnds(s) == "\n" + LineEnds(t) by {
          LineEndsCr(t);
        }
        assert LineEnds("\r" + EscapeEach(t)) == EscapeEach("\n" + LineEnds(t)) by {
          LineEndsEscapeEach(t);
          NoLeadingLf(t);
          LoneCrCore(EscapeEach(t), LineEnds(t));
        }
      } else {
        assert EscapeEach(s) == Entity(c) + EscapeEach(t) by {
          EscapeEachCons(c, t);
        }
        assert LineEnds(s) == [c] + LineEnds(t) by {
          LineEndsOther(c, t);
        }
        assert LineEnds(Entity(c) + EscapeEach(t)) == EscapeEach([c] + LineEnds(t)) by {
          LineEndsEscapeEach(t);
          PlainCore(c, EscapeEach(t), LineEnds(t));
        }
      }
    }
  }

  /** The CR LF step with the escaped and the normalised rest abstract. */
  lemma CrLfCore(eu: string, lu: string)
    requires LineEnds(eu) == EscapeEach(lu)
    ensures LineEnds("\r" + ("\n" + eu)) == EscapeEach("\n" + lu)
  {
    var x := "\n" + eu;
    assert LineEnds("\r" + x) == "\n" + LineEnds(eu) by {
      assert x[0] == '\n' && x[1..] == eu;
      LineEndsCr(x);
    }
    assert EscapeEach("\n" + lu) == "\n" + EscapeEach(lu) by {
      EscapeEachCons('\n', lu);
    }
  }

  lemma NoLeadingLf(t: string)
    requires |t| > 0 ==> t[0] != '\n'
    ensures |EscapeEach(t)| > 0 ==> EscapeEach(t)[0] != '\n'
  {
    if |t| > 0 {
      assert t == [t[0]] + t[1..];
      EscapeEachCons(t[0], t[1..]);
    }
  }

  /** The lone CR step with the escaped and the normalised rest abstract. */
  lemma LoneCrCore(et: string, lt: string)
    requires |et| > 0 ==> et[0] != '\n'
    requires LineEnds(et) == EscapeEach(lt)
    ensures LineEnds("\r" + et) == EscapeEach("\n" + lt)
  {
    LineEndsCr(et);
    EscapeEachCons('\n', lt);
  }

  /** The step at any other character, with the rest abstract. */
  lemma PlainCore(c: char, et: string, lt: string)
    requires c != '\r'
    requires LineEnds(et) == EscapeEach(lt)
    ensures LineEnds(Entity(c) + et) == EscapeEach([c] + lt)
  {
    LineEndsPrefix(Entity(c), et);
    EscapeEachCons(c, lt);
  }

  /** A reader gives back a text `escapeXml` wrote with its line ends
      normalised and nothing else changed. */
  lemma EscapedCharData(s: string)
    ensures CharData(EscapeXml(Some(s))) == LineEnds(s)
  {
    PassesEscapeEach(s);
    LineEndsEscapeEach(s);
    UnescapeEscapeEach(LineEnds(s));
    if s == [] {
      LineEndsKeeps(s);
    }
  }

  lemma XmlTextConcat(a: string, b: string)
    ensures XmlText(a + b) <==> XmlText(a) && XmlText(b)
  {
    assert forall i :: 0 <= i < |a| ==> (a + b)[i] == a[i];
    assert forall i :: 0 <= i < |b| ==> (a + b)[|a| + i] == b[i];
  }

  /** An entity is plain ASCII, so it may stand in a document exactly
      when the character it replaces may. */
  lemma EntityXmlText(c: char)
    ensures XmlText(Entity(c)) <==> XmlChar(c)
  {
    if c == '&' || IsMarkup(c) {
      assert forall i :: 0 <= i < |Entity(c)| ==> ' ' <= Entity(c)[i] <= '~';
    } else {
      assert Entity(c) == [c];
      assert XmlText([c]) ==> XmlChar([c][0]);
    }
  }

  /** `escapeXml` replaces only the five markup characters, so the
      escaped text may stand in a document exactly when the input may. */
  lemma {:induction false} EscapeEachXmlText(s: string)
    ensures XmlText(EscapeEach(s)) <==> XmlText(s)
  {
    if |s| > 0 {
      EscapeEachXmlText(s[1..]);
      EntityXmlText(s[0]);
      XmlTextConcat(Entity(s[0]), EscapeEach(s[1..]));
      assert s == [s[0]] + s[1..];
      XmlTextConcat([s[0]], s[1..]);
    }
  }

  lemma EscapeXmlText(s: string)
    ensures XmlText(EscapeXml(Some(s))) <==> XmlText(s)
  {
    PassesEscapeEach(s);
    EscapeEachXmlText(s);
  }

  /** A control character such as U+0001 cannot stand in a document. */
  lemma ControlCharNotXml()
    ensures !XmlText("a\U{0001}")
  {
    assert !XmlChar("a\U{0001}"[1]);
  }

  /** A lone CR comes back as LF; with `EscapedCharData`, so does one
      `escapeXml` wrote. */
  lemma CrReadsAsLf()
    ensures LineEnds("x\ry") == "x\ny"
  {
    assert LineEnds("y") == "y" by {
      LineEndsOther('y', []);
      assert ['y'] + [] == "y";
    }
    assert LineEnds("\ry") == "\ny" by {
      LineEndsCr("y");
      assert "\r" + "y" == "\ry";
    }
    LineEndsOther('x', "\ry");
    assert ['x'] + "\ry" == "x\ry";
  }

  /** The characters `escapeIGC` keeps: `[a-zA-Z0-9 ]`. */
  predicate IsIgcSafe(c: char) {
    'a' <= c <= 'z' || 'A' <= c <= 'Z' || '0' <= c <= '9' || c == ' '
  }

  /** `escapeIGC`: the safe characters, at most the first 20 of them; a
      missing or empty value gives the empty string. */
  function EscapeIgc(s: Option<string>): (r: string)
    ensures |r| <= 20
    ensures forall i :: 0 <= i < |r| ==> IsIgcSafe(r[i])
    ensures s.Some? ==> r <= Filter(IsIgcSafe, s.value)
    ensures s.Some? ==> |r| == if |Filter(IsIgcSafe, s.value)| < 20 then |Filter(IsIgcSafe, s.value)| else 20
    ensures s.None? ==> r == []
  {
    if s.None? || s.value == [] then []
    else
      var kept := Filter(IsIgcSafe, s.value);
      Substring(kept, 0, 20)
  }

  /** Escaping an escaped value changes nothing. */
  lemma EscapeIgcIdempotent(s: Option<string>)
    ensures EscapeIgc(Some(EscapeIgc(s))) == EscapeIgc(s)
  {
    var r := EscapeIgc(s);
    FilterAll(IsIgcSafe, r);
  }

  /** An escaped value holds no line break, so it stays on its header line. */
  lemma EscapeIgcOneLine(s: Option<string>)
    ensures '\n' !in EscapeIgc(s)
  {
  }
}

=== FILE: fit_scan.dfy ===
/** The heuristic salvage of a FIT file that the FIT library could not read
    (`fallbackFitProcessing`, `isValidFitCoordinate`,
    `tryAlternativeConversion`, `filterAndSortCoordinates` and
    `tryGetAltitude` in Script.js). It does not decode FIT records: it slides
    over the raw bytes looking for pairs of 32-bit integers that, read as
    Garmin semicircles, land in a latitude/longitude box around France. */
module FitScan {
  import opened Wrappers
  import opened Coords
  import opened Seqs
  import opened RealSeqs
  import opened JsNumber

  /** One byte of the file's `ArrayBuffer`. */
  type Byte = x: int | 0 <= x < 256

  const TwoTo16: int := 0x1_0000
  const TwoTo31: int := 0x8000_0000
  const TwoTo32: int := 0x1_0000_0000

  /** Reinterprets an unsigned 32-bit value as two's-complement. */
  function ToInt32(u: int): (v: int)
    requires 0 <= u < TwoTo32
    ensures -TwoTo31 <= v < TwoTo31
    ensures v % TwoTo32 == u
  {
    if u >= TwoTo31 then u - TwoTo32 else u
  }

  /** `DataView.getInt32(p, true)`. */
  function Int32LE(b: seq<Byte>, p: nat): int
    requires p + 4 <= |b|
  {
    ToInt32(b[p] as int + 0x100 * (b[p + 1] as int) + 0x1_0000 * (b[p + 2] as int) + 0x100_0000 * (b[p + 3] as int))
  }

  /** `DataView.getInt32(p, false)`. */
  function Int32BE(b: seq<Byte>, p: nat): int
    requires p + 4 <= |b|
  {
    ToInt32(0x100_0000 * (b[p] as int) + 0x1_0000 * (b[p + 1] as int) + 0x100 * (b[p + 2] as int) + b[p + 3] as int)
  }

  /** `DataView.getUint16(p, true)`. */
  function Uint16LE(b: seq<Byte>, p: nat): (v: int)
    requires p + 2 <= |b|
    ensures 0 <= v < TwoTo16
  {
    b[p] as int + 0x100 * (b[p + 1] as int)
  }

  /** `DataView.getInt16(p, true)`. */
  function Int16LE(b: seq<Byte>, p: nat): (v: int)
    requires p + 2 <= |b|
    ensures -0x8000 <= v < 0x8000
    ensures v % TwoTo16 == Uint16LE(b, p)
  {
    var u := Uint16LE(b, p);
    if u >= 0x8000 then u - TwoTo16 else u
  }

  /** The four bytes of a 32-bit integer, least significant first: what a FIT
      writer stores in a little-endian field. */
  function Int32Bytes(v: int): (b: seq<Byte>)
    requires -TwoTo31 <= v < TwoTo31
    ensures |b| == 4
  {
    var u := if v < 0 then v + TwoTo32 else v;
    var q1 := u / 0x100;
    var q2 := q1 / 0x100;
    [u % 0x100, q1 % 0x100, q2 % 0x100, q2 / 0x100]
  }

  /** Reading four stored bytes back gives the stored integer, in either byte
      order once the bytes are reversed for the big-endian reader. */
  lemma Int32LERoundTrip(v: int)
    requires -TwoTo31 <= v < TwoTo31
    ensures Int32LE(Int32Bytes(v), 0) == v
  {
  }

  lemma Int32BERoundTrip(v: int)
    requires -TwoTo31 <= v < TwoTo31
    ensures var b := Int32Bytes(v); Int32BE([b[3], b[2], b[1], b[0]], 0) == v
  {
  }

  /** `semicircles * (180 / 2^31)`: the Garmin angle unit, 2^31 semicircles
      to 180 degrees. */
  function SemicirclesToDegrees(s: int): (deg: real)
    requires -TwoTo31 <= s < TwoTo31
    ensures -180.0 <= deg < 180.0
    ensures deg * (TwoTo31 as real) / 180.0 == s as real
  {
    s as real * (180.0 / TwoTo31 as real)
  }

  /** `isValidFitCoordinate`: a plausible, non-zero position inside the
      box around France the salvage accepts. */
  predicate IsValidFitCoordinate(lat: real, lon: real) {
    var isInFrance := 41.0 <= lat <= 51.5 && -5.0 <= lon <= 9.5;
    Abs(lat) <= 90.0 && Abs(lon) <= 180.0 && lat != 0.0 && lon != 0.0 && isInFrance
  }

  /** The box alone decides: its own bounds already exclude zero and lie
      within the globe. */
  lemma ValidFitCoordinateBox(lat: real, lon: real)
    ensures IsValidFitCoordinate(lat, lon) <==> 41.0 <= lat <= 51.5 && -5.0 <= lon <= 9.5 && lon != 0.0
  {
  }

  /** `tryGetAltitude`: the unsigned 16-bit value at `p` if it lies in
      (0, 5000), else the signed one under the same test, else 0. */
  function TryGetAltitude(b: seq<Byte>, p: nat): (alt: int)
    requires p + 2 <= |b|
    ensures alt == 0 || 0 < alt < 5000
    ensures alt == 0 || alt == Uint16LE(b, p)
  {
    var alt1 := Uint16LE(b, p);
    var alt2 := Int16LE(b, p);
    if 0 < alt1 < 5000 then alt1
    else if 0 < alt2 < 5000 then alt2
    else 0
  }

  /** The signed reading never rescues a value the unsigned one rejected:
      both agree on every value in (0, 5000). */
  lemma SignedAltitudeAgrees(b: seq<Byte>, p: nat)
    requires p + 2 <= |b|
    ensures 0 < Int16LE(b, p) < 5000 ==> Uint16LE(b, p) == Int16LE(b, p)
  {
  }

  /** The point the primary scan accepts at `pos`, if any. */
  function PrimaryPoint(b: seq<Byte>, pos: nat): Option<Coord>
    requires pos + 12 <= |b|
  {
    var latDeg := SemicirclesToDegrees(Int32LE(b, pos));
    var lonDeg := SemicirclesToDegrees(Int32LE(b, pos + 4));
    if IsValidFitCoordinate(latDeg, lonDeg) then
      Some(Coord(lonDeg, latDeg, TryGetAltitude(b, pos + 8) as real))
    else None
  }

  /** A point the salvage may emit: inside the France box, with no altitude
      or an altitude in (0, 5000). */
  predicate SalvagedPoint(c: Coord) {
    IsValidFitCoordinate(c.lat, c.lon) && (c.alt == 0.0 || 0.0 < c.alt < 5000.0)
  }

  /** The primary scan from `pos` once `count` points were accepted: a
      little-endian latitude/longitude pair at `pos`; on success the scan
      jumps 20 bytes (the size of a typical record) and stops after 1001
      points, otherwise it moves on one byte; it stops when fewer than 13
      bytes remain. */
  function ScanFrom(b: seq<Byte>, pos: nat, count: nat): (r: seq<Coord>)
    requires count <= 1000
    ensures |r| <= 1001 - count
    ensures forall i :: 0 <= i < |r| ==> SalvagedPoint(r[i])
    ensures |r| > 0 ==> pos + 20 * (|r| - 1) < |b| - 12
    decreases |b| - pos
  {
    if pos >= |b| - 12 then []
    else
      match PrimaryPoint(b, pos)
      case Some(c) =>
        var rest := if count + 1 > 1000 then [] else ScanFrom(b, pos + 20, count + 1);
        [c] + rest
      case None =>
        ScanFrom(b, pos + 1, count)
  }

  /** The scanning loop of `fallbackFitProcessing`, starting at the header
      size held in the first byte. */
  method PrimaryScan(b: seq<Byte>) returns (coordinates: seq<Coord>)
    requires |b| > 0
    ensures coordinates == ScanFrom(b, b[0], 0)
  {
    coordinates := [];
    var position: nat := b[0];
    var recordCount := 0;
    while position < |b| - 12
      invariant recordCount <= 1000 && recordCount == |coordinates|
      invariant coordinates + ScanFrom(b, position, recordCount) == ScanFrom(b, b[0], 0)
      decreases |b| - position
    {
      var lat := Int32LE(b, position);
      var lon := Int32LE(b, position + 4);
      var latDeg := SemicirclesToDegrees(lat);
      var lonDeg := SemicirclesToDegrees(lon);
      if IsValidFitCoordinate(latDeg, lonDeg) {
        var alt := TryGetAltitude(b, position + 8);
        assert ScanFrom(b, position, recordCount)
            == [Coord(lonDeg, latDeg, alt as real)]
               + (if recordCount + 1 > 1000 then [] else ScanFrom(b, position + 20, recordCount + 1));
        coordinates := coordinates + [Coord(lonDeg, latDeg, alt as real)];
        recordCount := recordCount + 1;
        position := position + 20;
      } else {
        position := position + 1;
      }
      if recordCount > 1000 {
        break;
      }
    }
  }

  /** The pair `tryAlternativeConversion` reads at `i`, big-endian, with no
      altitude. */
  function AlternativePoint(b: seq<Byte>, i: nat): Option<Coord>
    requires i + 8 <= |b|
  {
    var latDeg := SemicirclesToDegrees(Int32BE(b, i));
    var lonDeg := SemicirclesToDegrees(Int32BE(b, i + 4));
    if IsValidFitCoordinate(latDeg, lonDeg) then Some(Coord(lonDeg, latDeg, 0.0)) else None
  }

  /** The alternative scan from offset `i`: every fourth offset below
      `|b| - 8`, keeping the pairs inside the box. */
  function AlternativeFrom(b: seq<Byte>, i: nat): (r: seq<Coord>)
    ensures forall k :: 0 <= k < |r| ==> IsValidFitCoordinate(r[k].lat, r[k].lon) && r[k].alt == 0.0
    ensures |r| > 0 ==> i + 4 * (|r| - 1) < |b| - 8
    decreases |b| - i
  {
    if i >= |b| - 8 then []
    else
      (match AlternativePoint(b, i) case Some(c) => [c] case None => [])
      + AlternativeFrom(b, i + 4)
  }

  /** `tryAlternativeConversion`. */
  method AlternativeConversion(b: seq<Byte>) returns (coordinates: seq<Coord>)
    ensures coordinates == AlternativeFrom(b, 0)
  {
    coordinates := [];
    var i: nat := 0;
    while i < |b| - 8
      invariant coordinates + AlternativeFrom(b, i) == AlternativeFrom(b, 0)
      decreases |b| - i
    {
      var latDeg := SemicirclesToDegrees(Int32BE(b, i));
      var lonDeg := SemicirclesToDegrees(Int32BE(b, i + 4));
      if IsValidFitCoordinate(latDeg, lonDeg) {
        coordinates := coordinates + [Coord(lonDeg, latDeg, 0.0)];
      }
      i := i + 4;
    }
  }

  /** The longitude and latitude columns of a track. */
  function Lons(coords: seq<Coord>): (r: seq<real>)
    ensures |r| == |coords| && forall i :: 0 <= i < |coords| ==> r[i] == coords[i].lon
  {
    if |coords| == 0 then [] else [coords[0].lon] + Lons(coords[1..])
  }

  function Lats(coords: seq<Coord>): (r: seq<real>)
    ensures |r| == |coords| && forall i :: 0 <= i < |coords| ==> r[i] == coords[i].lat
  {
    if |coords| == 0 then [] else [coords[0].lat] + Lats(coords[1..])
  }

  /** A point strictly within 2 degrees of the centre on both axes. */
  predicate NearCentre(c: Coord, avgLon: real, avgLat: real) {
    Abs(c.lon - avgLon) < 2.0 && Abs(c.lat - avgLat) < 2.0
  }

  function NearCentreOf(avgLon: real, avgLat: real): Coord -> bool {
    c => NearCentre(c, avgLon, avgLat)
  }

  /** `filterAndSortCoordinates`: keeps, in file order, the points strictly
      within 2 degrees of the centroid on both axes. */
  function FilterNearCentroid(coords: seq<Coord>): (r: seq<Coord>)
    ensures |r| <= |coords|
    ensures Subsequence(r, coords)
    ensures |coords| > 0 ==> forall i :: 0 <= i < |r| ==>
              NearCentre(r[i], Sum(Lons(coords)) / |coords| as real, Sum(Lats(coords)) / |coords| as real)
  {
    if |coords| == 0 then []
    else
      var avgLon := Sum(Lons(coords)) / |coords| as real;
      var avgLat := Sum(Lats(coords)) / |coords| as real;
      FilterSubsequence(NearCentreOf(avgLon, avgLat), coords);
      Filter(NearCentreOf(avgLon, avgLat), coords)
  }

  /** The centroid filter keeps exactly the points of the input that lie
      near the centroid. */
  lemma FilterNearCentroidMembers(coords: seq<Coord>, c: Coord)
    requires |coords| > 0
    ensures c in FilterNearCentroid(coords) <==>
            c in coords && NearCentre(c, Sum(Lons(coords)) / |coords| as real, Sum(Lats(coords)) / |coords| as real)
  {
    var avgLon := Sum(Lons(coords)) / |coords| as real;
    var avgLat := Sum(Lats(coords)) / |coords| as real;
    FilterMembers(NearCentreOf(avgLon, avgLat), coords, c);
  }

  /** A value between a lower and an upper bound lies within their distance
      of any other value between them. */
  lemma WithinSpread(x: real, y: real, lo: real, hi: real)
    requires lo <= x <= hi && lo <= y <= hi
    ensures -(hi - lo) <= x - y <= hi - lo
  {
  }

  /** In a column spanning less than 2, every value is within 2 of any
      value between the column's extremes, its mean in particular. */
  lemma ColumnNear(a: seq<real>, m: real)
    requires |a| > 0 && MinOf(a) <= m <= MaxOf(a)
    requires forall i, j :: 0 <= i < |a| && 0 <= j < |a| ==> a[i] - a[j] < 2.0
    ensures forall i :: 0 <= i < |a| ==> -2.0 < a[i] - m < 2.0
  {
    var hi, lo := MaxOf(a), MinOf(a);
    var h :| 0 <= h < |a| && a[h] == hi;
    var l :| 0 <= l < |a| && a[l] == lo;
    assert a[h] - a[l] < 2.0;
    forall i | 0 <= i < |a|
      ensures -2.0 < a[i] - m < 2.0
    {
      WithinSpread(a[i], m, lo, hi);
    }
  }

  /** The mean of a non-empty column lies between its extremes. */
  lemma MeanWithin(a: seq<real>)
    requires |a| > 0
    ensures MinOf(a) <= Sum(a) / |a| as real <= MaxOf(a)
  {
    MeanAtLeast(a, MinOf(a));
    MeanAtMost(a, MaxOf(a));
  }

  /** Pairwise closeness of the points carries over to their distance from
      the centroid, one axis at a time. */
  lemma LonsNearCentroid(coords: seq<Coord>)
    requires |coords| > 0
    requires forall i, j :: 0 <= i < |coords| && 0 <= j < |coords| ==> coords[i].lon - coords[j].lon < 2.0
    ensures forall i :: 0 <= i < |coords| ==> -2.0 < coords[i].lon - Sum(Lons(coords)) / |coords| as real < 2.0
  {
    var lons := Lons(coords);
    MeanWithin(lons);
    ColumnNear(lons, Sum(lons) / |lons| as real);
  }

  lemma LatsNearCentroid(coords: seq<Coord>)
    requires |coords| > 0
    requires forall i, j :: 0 <= i < |coords| && 0 <= j < |coords| ==> coords[i].lat - coords[j].lat < 2.0
    ensures forall i :: 0 <= i < |coords| ==> -2.0 < coords[i].lat - Sum(Lats(coords)) / |coords| as real < 2.0
  {
    var lats := Lats(coords);
    MeanWithin(lats);
    ColumnNear(lats, Sum(lats) / |lats| as real);
  }

  /** A track in which any two longitudes, and any two latitudes, differ by
      less than 2 degrees passes the centroid filter untouched. */
  lemma CompactTrackKept(coords: seq<Coord>)
    requires |coords| > 0
    requires forall i, j :: 0 <= i < |coords| && 0 <= j < |coords| ==>
               coords[i].lon - coords[j].lon < 2.0 && coords[i].lat - coords[j].lat < 2.0
    ensures FilterNearCentroid(coords) == coords
  {
    LonsNearCentroid(coords);
    LatsNearCentroid(coords);
    var avgLon := Sum(Lons(coords)) / |coords| as real;
    var avgLat := Sum(Lats(coords)) / |coords| as real;
    FilterAll(NearCentreOf(avgLon, avgLat), coords);
  }

  /** Why `fallbackFitProcessing` produced no track. */
  datatype FitFailure =
    | ReadError       // the header byte could not be read: "Erreur traitement FIT"
    | NoCoordinates   // the primary scan found nothing: "Aucune coordonnée valide trouvée"
    | TrackTooShort   // neither scan kept more than 10 points: "Trace trop courte ou hors zone"

  /** `fallbackFitProcessing`: the primary scan, cleaned around its
      centroid, if more than 10 points survive; otherwise the alternative
      scan if it has more than 10 points; an empty primary scan fails at
      once. */
  function FallbackFit(b: seq<Byte>): (r: Result<seq<Coord>, FitFailure>)
    ensures r == Failure(ReadError) <==> |b| == 0
    ensures r == Failure(NoCoordinates) <==> |b| > 0 && ScanFrom(b, b[0], 0) == []
    ensures r.Success? ==> |b| > 0 && ScanFrom(b, b[0], 0) != []
    ensures r.Success? ==>
              (|FilterNearCentroid(ScanFrom(b, b[0], 0))| > 10 && r.value == FilterNearCentroid(ScanFrom(b, b[0], 0)))
              || (|FilterNearCentroid(ScanFrom(b, b[0], 0))| <= 10 && r.value == AlternativeFrom(b, 0))
    ensures r == Failure(TrackTooShort) <==>
              |b| > 0 && ScanFrom(b, b[0], 0) != []
              && |FilterNearCentroid(ScanFrom(b, b[0], 0))| <= 10 && |AlternativeFrom(b, 0)| <= 10
    ensures r.Success? ==> |r.value| > 10
    ensures r.Success? ==> forall i :: 0 <= i < |r.value| ==> SalvagedPoint(r.value[i])
  {
    if |b| == 0 then Failure(ReadError)
    else
      var coordinates := ScanFrom(b, b[0], 0);
      if |coordinates| == 0 then Failure(NoCoordinates)
      else
        var filtered := FilterNearCentroid(coordinates);
        if |filtered| > 10 then
          assert forall i :: 0 <= i < |filtered| ==> SalvagedPoint(filtered[i]) by {
            forall i | 0 <= i < |filtered| {
              FilterNearCentroidMembers(coordinates, filtered[i]);
            }
          }
          Success(filtered)
        else
          var alternative := AlternativeFrom(b, 0);
          if |alternative| > 10 then Success(alternative) else Failure(TrackTooShort)
  }

  /** A salvaged track needs room for its points: more than 10 pairs at
      distinct offsets, so no file of 48 bytes or fewer yields one. */
  lemma ShortFileYieldsNoTrack(b: seq<Byte>)
    requires |b| <= 48
    ensures FallbackFit(b).Failure?
  {
    if |b| > 0 {
      var coordinates := ScanFrom(b, b[0], 0);
      if |coordinates| > 0 {
        var filtered := FilterNearCentroid(coordinates);
        assert |filtered| <= |coordinates|;
      }
    }
  }
}

=== FILE: geojson.dfy ===
/** The adapter from the GeoJSON that toGeoJSON builds for GPX and KML files
    to the viewer's coordinate triples: `extractCoordinatesFromGeoJSON` and
    the emptiness test `processFile` applies to its result (Script.js). */
module GeoJson {
  import opened Wrappers
  import opened Seqs
  import opened Coords

  /** A GeoJSON position: its components in order, longitude first. */
  type Position = seq<real>

  /** The geometry of a feature as the adapter looks at it: its `type` and
      `coordinates`, which may be missing. */
  datatype Geometry =
    | LineString(positions: Option<seq<Position>>)
    | Point(position: Option<Position>)
    | OtherGeometry

  datatype Feature = Feature(geometry: Option<Geometry>)

  /** A GeoJSON object whose `features` may be missing. */
  datatype FeatureCollection = FeatureCollection(features: Option<seq<Feature>>)

  /** The triple pushed for one position: `[coord[0], coord[1], coord[2] || 0]`
      when the position has at least two components. */
  function Triple(p: Position): (r: Option<Coord>)
    ensures r.Some? <==> |p| >= 2
    ensures r.Some? ==> r.value.lon == p[0] && r.value.lat == p[1]
    ensures r.Some? ==> r.value.alt == (if |p| > 2 then p[2] else 0.0)
  {
    if |p| >= 2 then
      Some(Coord(p[0], p[1], if |p| > 2 && p[2] != 0.0 then p[2] else 0.0))
    else None
  }

  /** The triples one feature contributes. */
  function FeatureCoordinates(f: Feature): seq<Coord> {
    match f.geometry
    case Some(LineString(Some(ps))) => FilterMap(Triple, ps)
    case Some(Point(Some(p))) => if |p| >= 2 then [Triple(p).value] else []
    case _ => []
  }

  function FeaturesCoordinates(fs: seq<Feature>): seq<Coord> {
    if |fs| == 0 then [] else FeatureCoordinates(fs[0]) + FeaturesCoordinates(fs[1..])
  }

  /** `extractCoordinatesFromGeoJSON`: a missing object, or one without
      `features`, gives no coordinates. */
  function ExtractCoordinates(g: Option<FeatureCollection>): (r: seq<Coord>)
    ensures g.None? || g.value.features.None? ==> r == []
  {
    if g.None? || g.value.features.None? then []
    else FeaturesCoordinates(g.value.features.value)
  }

  /** The positions the adapter looks at: those of line strings and points,
      and of no other geometry. */
  function GeometryPositions(g: Option<Geometry>): seq<Position> {
    match g
    case Some(LineString(Some(ps))) => ps
    case Some(Point(Some(p))) => [p]
    case _ => []
  }

  /** All looked-at positions, in feature order. */
  function AllPositions(fs: seq<Feature>): seq<Position> {
    if |fs| == 0 then [] else GeometryPositions(fs[0].geometry) + AllPositions(fs[1..])
  }

  /** The adapter is the triple decoder applied to every looked-at position
      in feature order. */
  lemma {:induction false} ExtractByPositions(fs: seq<Feature>)
    ensures FeaturesCoordinates(fs) == FilterMap(Triple, AllPositions(fs))
  {
    if |fs| > 0 {
      ExtractByPositions(fs[1..]);
      var here := GeometryPositions(fs[0].geometry);
      FilterMapConcat(Triple, here, AllPositions(fs[1..]));
      match fs[0].geometry
      case Some(Point(Some(p))) =>
        assert FilterMap(Triple, [p]) == (if |p| >= 2 then [Triple(p).value] else []) + FilterMap(Triple, []);
      case _ =>
    }
  }

  /** The adapter works feature by feature: the triples of a collection are
      those of its first part followed by those of the rest. */
  lemma {:induction false} FeaturesConcat(a: seq<Feature>, b: seq<Feature>)
    ensures FeaturesCoordinates(a + b) == FeaturesCoordinates(a) + FeaturesCoordinates(b)
  {
    if |a| == 0 {
      assert a + b == b;
    } else {
      assert (a + b)[1..] == a[1..] + b;
      FeaturesConcat(a[1..], b);
    }
  }

  /** Every triple comes from a looked-at position with at least two
      components, longitude first, a missing altitude read as 0. */
  lemma TripleSource(fs: seq<Feature>, c: Coord)
    requires c in FeaturesCoordinates(fs)
    ensures exists p :: p in AllPositions(fs) && |p| >= 2 && c.lon == p[0] && c.lat == p[1]
                        && c.alt == (if |p| > 2 then p[2] else 0.0)
  {
    ExtractByPositions(fs);
    FilterMapFrom(Triple, AllPositions(fs), c);
    var i :| 0 <= i < |AllPositions(fs)| && Triple(AllPositions(fs)[i]) == Some(c);
    var p := AllPositions(fs)[i];
    assert p in AllPositions(fs);
  }

  /** A feature whose geometry is neither a line string nor a point
      contributes nothing, wherever it stands. */
  lemma OtherGeometryIgnored(a: seq<Feature>, f: Feature, b: seq<Feature>)
    requires f.geometry.None? || f.geometry.value.OtherGeometry?
    ensures FeaturesCoordinates(a + [f] + b) == FeaturesCoordinates(a + b)
  {
    NoTriplesFrom(f);
    FeaturesConcat(a, [f]);
    FeaturesConcat(a + [f], b);
    FeaturesConcat(a, b);
  }

  lemma NoTriplesFrom(f: Feature)
    requires f.geometry.None? || f.geometry.value.OtherGeometry?
    ensures FeaturesCoordinates([f]) == []
  {
    assert [f][1..] == [];
  }

  /** A line string whose positions all have two or more components gives
      one triple per position, in order. */
  lemma LineStringTriples(ps: seq<Position>)
    requires forall i :: 0 <= i < |ps| ==> |ps[i]| >= 2
    ensures |FeatureCoordinates(Feature(Some(LineString(Some(ps)))))| == |ps|
    ensures forall i :: 0 <= i < |ps| ==>
              FeatureCoordinates(Feature(Some(LineString(Some(ps)))))[i] == Triple(ps[i]).value
  {
    FilterMapAll(Triple, ps);
  }

  const NoCoordinatesMessage := "Aucune coordonnée valide trouvée dans le fichier"

  /** The GPX and KML branch of `processFile`: the extracted triples, or an
      error when there are none. */
  function GeoJsonTrack(g: Option<FeatureCollection>): (r: Result<seq<Coord>, string>)
    ensures r.Success? ==> |r.value| > 0 && r.value == ExtractCoordinates(g)
    ensures r.Failure? ==> r.error == NoCoordinatesMessage
  {
    var coordinates := ExtractCoordinates(g);
    if |coordinates| == 0 then Failure(NoCoordinatesMessage) else Success(coordinates)
  }

  /** The branch fails exactly when no looked-at position has two
      components. */
  lemma GeoJsonTrackFails(g: Option<FeatureCollection>)
    ensures GeoJsonTrack(g).Failure? <==>
            g.None? || g.value.features.None?
            || forall i :: 0 <= i < |AllPositions(g.value.features.value)| ==> |AllPositions(g.value.features.value)[i]| < 2
  {
    if g.Some? && g.value.features.Some? {
      var fs := g.value.features.value;
      ExtractByPositions(fs);
      FilterMapEmpty(Triple, AllPositions(fs));
    }
  }
}

=== FILE: igc_findings.dfy ===
/** Two places where the IGC writer of the converter and the readers of the
    same repository disagree: each is stated once as the code is written,
    with an input that shows the difference, and once as evidently
    intended, with the property that then holds. */
module IgcFindings {
  import opened Wrappers
  import opened JsText
  import opened JsNumber
  import opened Seqs
  import opened Escapes
  import TraceDecode
  import IgcWrite
  import IgcFix

  // ----- minutes of arc: decimal minutes against thousandths -----

  lemma SliceOfSlice(line: string, p: nat, n: nat, i: nat, j: nat)
    requires p + n <= |line| && i <= j <= n
    ensures line[p + i..p + j] == line[p..p + n][i..j]
  {
    var f := line[p..p + n];
    forall k | 0 <= k < j - i
      ensures line[p + i..p + j][k] == f[i..j][k]
    {
      assert line[p + i + k] == f[i + k];
    }
  }

  /** The strict decoder's view of a coordinate field at column `p`. */
  lemma StrictFields(line: string, p: nat, width: nat, deg: string, min: string, h: char, pos: char, neg: char,
                     fl: real, v: real)
    requires |deg| == width && |min| == 5 && ParseInt(deg) == Finite(fl) && ParseFloat(min) == Finite(v)
    requires h == pos || h == neg
    requires p + width + 6 <= |line| && line[p..p + width + 6] == deg + min + [h]
    ensures IgcFix.ReadAngle(line[p..p + width], line[p + width..p + width + 5], line[p + width + 5], pos, neg)
            == Some(IgcFix.Angle(fl, v / 1000.0, h == neg))
  {
    var field := deg + min + [h];
    IgcWrite.CoordinateLayout(deg, min, h);
    SliceOfSlice(line, p, width + 6, 0, width);
    SliceOfSlice(line, p, width + 6, width, width + 5);
    assert line[p + width + 5] == field[width + 5];
    IgcFix.ReadAngleOf(deg, min, h, pos, neg, fl, v);
  }

  /** Minutes of at most 60 taken for thousandths add at most about a
      thousandth of a degree. */
  lemma StrictValue(x: real, fl: real, v: real, negative: bool)
    requires fl == Abs(x).Floor as real && 0.0 <= v < 60.0006 && (negative <==> x < 0.0)
    ensures var y := IgcFix.Angle(fl, v / 1000.0, negative);
            fl <= Abs(y) < fl + 0.0011 && (x >= 0.0 ==> y >= 0.0) && (x < 0.0 ==> y <= 0.0)
  {
    assert v / 1000.0 / 60.0 == v / 60000.0;
  }

  /** The viewer's strict decoder reads a coordinate field `toIGC` wrote
      as the whole degrees plus about a thousandth of a degree at most: the
      decimal minutes `MM.mm` are taken for thousandths of a minute. */
  lemma StrictCoordinate(line: string, p: nat, x: real, width: nat, pos: char, neg: char) returns (y: real)
    requires width >= 1 && Abs(x) < Pow10(width) as real && pos != neg
    requires p + width + 6 <= |line| && line[p..p + width + 6] == IgcWrite.CoordinateField(Finite(x), width, pos, neg)
    ensures IgcFix.ReadAngle(line[p..p + width], line[p + width..p + width + 5], line[p + width + 5], pos, neg) == Some(y)
    ensures Abs(x).Floor as real <= Abs(y) < Abs(x).Floor as real + 0.0011
    ensures x >= 0.0 ==> y >= 0.0
    ensures x < 0.0 ==> y <= 0.0
  {
    var fl: nat := Abs(x).Floor;
    var deg := PadStart(IgcWrite.DegreeText(Finite(x)), width, '0');
    var min := IgcWrite.MinuteField(Finite(x));
    var h := IgcWrite.HemisphereOf(Finite(x), pos, neg);
    assert line[p..p + width + 6] == deg + min + [h];
    assert |deg| == width && ParseInt(deg) == Finite(fl as real) by {
      assert deg == ZeroPad(fl, width);
      IgcWrite.DegreeField(x, width);
      ZeroPadValue(fl, width);
    }
    assert |min| == 5 by {
      IgcWrite.MinuteFieldWidth(Finite(x));
    }
    assert h == neg <==> x < 0.0;
    var v := IgcWrite.MinuteReadBack(x);
    StrictFields(line, p, width, deg, min, h, pos, neg, fl as real, v);
    y := IgcFix.Angle(fl as real, v / 1000.0, h == neg);
    StrictValue(x, fl as real, v, h == neg);
  }

  /** The strict decoder on a 35-character B line holding the two
      coordinate fields `toIGC` writes. */
  lemma StrictLine(line: string, x: real, z: real) returns (lat: real, lon: real)
    requires Abs(x) < 90.0 && Abs(z) < 180.0
    requires |line| == 35 && line[0] == 'B'
    requires line[7..15] == IgcWrite.CoordinateField(Finite(x), 2, 'N', 'S')
    requires line[15..24] == IgcWrite.CoordinateField(Finite(z), 3, 'E', 'W')
    ensures IgcFix.ParseIgcLine(line).Some?
    ensures IgcFix.ParseIgcLine(line).value.latitude == lat && IgcFix.ParseIgcLine(line).value.longitude == lon
    ensures Abs(x).Floor as real <= Abs(lat) < Abs(x).Floor as real + 0.0011
    ensures Abs(z).Floor as real <= Abs(lon) < Abs(z).Floor as real + 0.0011
    ensures (x >= 0.0 ==> lat >= 0.0) && (x < 0.0 ==> lat <= 0.0)
    ensures (z >= 0.0 ==> lon >= 0.0) && (z < 0.0 ==> lon <= 0.0)
  {
    lat := StrictCoordinate(line, 7, x, 2, 'N', 'S');
    lon := StrictCoordinate(line, 15, z, 3, 'E', 'W');
    assert Abs(x).Floor <= 89 && Abs(z).Floor <= 179;
    assert Abs(lat) <= 90.0 && Abs(lon) <= 180.0;
    IgcFix.DecodeByFields(line, lat, lon, ParseInt(line[30..35]), ParseInt(line[25..30]));
  }

  /** As written: the strict decoder accepts every B line `toIGC` writes
      for a point within the globe, but reads each coordinate as its whole
      degrees plus at most about a thousandth of a degree. */
  lemma StrictReadsWrittenLine(pt: TraceDecode.TracePoint, idx: nat) returns (lat: real, lon: real)
    requires pt.lat.Finite? && Abs(pt.lat.value) < 90.0
    requires pt.lon.Finite? && Abs(pt.lon.value) < 180.0
    requires pt.elevation.Finite? ==> -9999 <= Round(pt.elevation.value) <= 99999
    ensures IgcFix.ParseIgcLine(IgcWrite.BLine(pt, idx)).Some?
    ensures IgcFix.ParseIgcLine(IgcWrite.BLine(pt, idx)).value.latitude == lat
    ensures IgcFix.ParseIgcLine(IgcWrite.BLine(pt, idx)).value.longitude == lon
    ensures Abs(pt.lat.value).Floor as real <= Abs(lat) < Abs(pt.lat.value).Floor as real + 0.0011
    ensures Abs(pt.lon.value).Floor as real <= Abs(lon) < Abs(pt.lon.value).Floor as real + 0.0011
    ensures (pt.lat.value >= 0.0 ==> lat >= 0.0) && (pt.lat.value < 0.0 ==> lat <= 0.0)
    ensures (pt.lon.value >= 0.0 ==> lon >= 0.0) && (pt.lon.value < 0.0 ==> lon <= 0.0)
  {
    IgcWrite.BLineFields(pt, idx);
    IgcWrite.BLineLayout(pt, idx);
    lat, lon := StrictLine(IgcWrite.BLine(pt, idx), pt.lat.value, pt.lon.value);
  }

  /** The input that shows it: the point at 45.5 degrees north, half a
      degree east, is written as `B0000004530.00N00030.00EA0010000100`
      and decoded at less than 45.0011 degrees north, half a degree away. */
  lemma StrictMisreadsHalfDegree(pt: TraceDecode.TracePoint)
    requires pt == TraceDecode.TracePoint(Finite(45.5), Finite(0.5), Finite(100.0), None)
    ensures IgcFix.ParseIgcLine(IgcWrite.BLine(pt, 0)).Some?
    ensures var fix := IgcFix.ParseIgcLine(IgcWrite.BLine(pt, 0)).value;
            45.0 <= fix.latitude < 45.0011 && pt.lat.value - fix.latitude > 0.49
            && 0.0 <= fix.longitude < 0.0011 && pt.lon.value - fix.longitude > 0.49
  {
    assert Round(100.0) == 100;
    assert Abs(45.5).Floor == 45 && Abs(0.5).Floor == 0;
    var lat, lon := StrictReadsWrittenLine(pt, 0);
    assert 45.0 <= lat < 45.0011 && 0.0 <= lon < 0.0011;
  }

  /** The altitude written in a standard record: the metre nearest the
      elevation, 0 for NaN or a negative value, at most 99999. */
  function StandardAltitude(e: Num): (a: nat)
    ensures a < 100000
    ensures e.Finite? && 0 <= Round(e.value) <= 99999 ==> a == Round(e.value)
  {
    if e.NaN? || Round(e.value) < 0 then 0
    else if Round(e.value) > 99999 then 99999
    else Round(e.value)
  }

  /** Thousandths of a minute in the fractional degrees of `x`. */
  function MilliMinutes(x: real): (n: nat)
    ensures -0.5 < n as real - (Abs(x) - Abs(x).Floor as real) * 60000.0 <= 0.5
    ensures n <= 60000
  {
    Round((Abs(x) - Abs(x).Floor as real) * 60000.0)
  }

  /** Corrected: the B record of section A4.1 of the IGC specification for
      a point, minutes of arc written in thousandths without a point. */
  function StandardRecord(pt: TraceDecode.TracePoint, idx: nat): IgcFix.BRecord
    requires pt.lat.Finite? && pt.lon.Finite?
  {
    var alt := StandardAltitude(pt.elevation);
    IgcFix.BRecord(IgcWrite.TimeField(idx),
                   Abs(pt.lat.value).Floor, MilliMinutes(pt.lat.value), pt.lat.value < 0.0,
                   Abs(pt.lon.value).Floor, MilliMinutes(pt.lon.value), pt.lon.value < 0.0,
                   alt, alt)
  }

  function StandardBLine(pt: TraceDecode.TracePoint, idx: nat): string
    requires pt.lat.Finite? && pt.lon.Finite?
  {
    IgcFix.RenderBRecord(StandardRecord(pt, idx))
  }

  /** The angle a standard record denotes lies within a two-hundredth of
      a second of arc of the coordinate, on the same side. */
  lemma StandardAngle(x: real)
    ensures var a := IgcFix.Angle(Abs(x).Floor as real, MilliMinutes(x) as real / 1000.0, x < 0.0);
            -1.0 / 100000.0 < a - x < 1.0 / 100000.0 && (x > 0.0 ==> a >= 0.0) && (x < 0.0 ==> a <= 0.0)
            && Abs(a) <= Abs(x).Floor as real + 1.0
  {
    var fl := Abs(x).Floor as real;
    var n := MilliMinutes(x) as real;
    assert n / 1000.0 / 60.0 == n / 60000.0;
  }

  /** The fix a record with the standard fields of `x` and `z` denotes. */
  lemma StandardFix(b: IgcFix.BRecord, x: real, z: real)
    requires Abs(x) < 90.0 && Abs(z) < 180.0
    requires b.latDeg == Abs(x).Floor && b.latMilli == MilliMinutes(x) && (b.south <==> x < 0.0)
    requires b.lonDeg == Abs(z).Floor && b.lonMilli == MilliMinutes(z) && (b.west <==> z < 0.0)
    ensures var fix := IgcFix.RecordFix(b);
            fix.Some?
            && -1.0 / 100000.0 < fix.value.latitude - x < 1.0 / 100000.0
            && -1.0 / 100000.0 < fix.value.longitude - z < 1.0 / 100000.0
            && (x > 0.0 ==> fix.value.latitude >= 0.0) && (x < 0.0 ==> fix.value.latitude <= 0.0)
            && (z > 0.0 ==> fix.value.longitude >= 0.0) && (z < 0.0 ==> fix.value.longitude <= 0.0)
            && fix.value.altitude == IgcFix.SelectAltitude(Finite(b.gps as real), Finite(b.pressure as real))
  {
    StandardAngle(x);
    StandardAngle(z);
    assert Abs(x).Floor <= 89 && Abs(z).Floor <= 179;
  }

  /** Corrected property: the strict decoder reads a standard record back
      within a hundred-thousandth of a degree and on the same side of zero,
      with the altitude when it is a plausible one. */
  lemma StandardRoundTrip(pt: TraceDecode.TracePoint, idx: nat)
    requires pt.lat.Finite? && Abs(pt.lat.value) < 90.0
    requires pt.lon.Finite? && Abs(pt.lon.value) < 180.0
    ensures var fix := IgcFix.ParseIgcLine(StandardBLine(pt, idx));
            fix.Some?
            && -1.0 / 100000.0 < fix.value.latitude - pt.lat.value < 1.0 / 100000.0
            && -1.0 / 100000.0 < fix.value.longitude - pt.lon.value < 1.0 / 100000.0
            && (pt.lat.value > 0.0 ==> fix.value.latitude >= 0.0) && (pt.lat.value < 0.0 ==> fix.value.latitude <= 0.0)
            && (pt.lon.value > 0.0 ==> fix.value.longitude >= 0.0) && (pt.lon.value < 0.0 ==> fix.value.longitude <= 0.0)
            && (pt.elevation.Finite? && 0 <= Round(pt.elevation.value) <= 15000
                ==> fix.value.altitude == Round(pt.elevation.value) as real)
  {
    var b := StandardRecord(pt, idx);
    assert IgcFix.FitsFields(b) by {
      IgcWrite.TimeFieldShape(idx);
      assert Abs(pt.lat.value).Floor <= 89 && Abs(pt.lon.value).Floor <= 179;
    }
    IgcFix.DecodeRecord(b);
    StandardFix(b, pt.lat.value, pt.lon.value);
  }

  // ----- the pilot line: written after six characters, read after eight -----

  /** As written: `toIGC` writes `HFPLT:` and the name, six characters of
      tag, while `parseIGC` reads the name from column 8, so the first two
      characters of the escaped name are lost. */
  lemma PilotNameShortened(name: string)
    ensures var e := EscapeIgc(Some(name));
            TraceDecode.HeaderName(IgcWrite.PilotLine(name)) == (if |e| >= 2 then Trim(e[2..]) else [])
    ensures |TraceDecode.HeaderName(IgcWrite.PilotLine(name))| <= |EscapeIgc(Some(name))| - 2
            || TraceDecode.HeaderName(IgcWrite.PilotLine(name)) == []
  {
    var e := EscapeIgc(Some(name));
    var line := IgcWrite.PilotLine(name);
    if |e| >= 2 {
      assert SubstringFrom(line, 8) == e[2..];
      TrimStartShape(e[2..]);
      TrimEndShape(TrimStart(e[2..]));
    } else {
      assert SubstringFrom(line, 8) == [];
    }
  }

  /** The input that shows it: the pilot `Jean` is read back as `an`. */
  lemma PilotJeanReadsAn()
    ensures TraceDecode.HeaderName(IgcWrite.PilotLine("Jean")) == "an"
  {
    SafeNameKept("Jean");
    PilotNameShortened("Jean");
    assert "Jean"[2..] == "an";
    TrimWord("an");
  }

  /** A name of at most 20 safe characters passes `escapeIGC` unchanged. */
  lemma SafeNameKept(name: string)
    requires |name| <= 20 && forall i :: 0 <= i < |name| ==> IsIgcSafe(name[i])
    ensures EscapeIgc(Some(name)) == name
  {
    FilterAll(IsIgcSafe, name);
  }

  /** Corrected: the name read from column 6, right after `HFPLT:`. */
  function HeaderNameFixed(line: string): string {
    Trim(SubstringFrom(line, 6))
  }

  /** Corrected property: the reader gets back the escaped name, trimmed;
      so a name of at most 20 letters, digits and inner spaces comes back
      unchanged. */
  lemma PilotNameRoundTrip(name: string)
    ensures HeaderNameFixed(IgcWrite.PilotLine(name)) == Trim(EscapeIgc(Some(name)))
    ensures |name| <= 20 && (forall i :: 0 <= i < |name| ==> IsIgcSafe(name[i])) && Trim(name) == name
            ==> HeaderNameFixed(IgcWrite.PilotLine(name)) == name
  {
    var e := EscapeIgc(Some(name));
    assert SubstringFrom(IgcWrite.PilotLine(name), 6) == e;
    if |name| <= 20 && forall i :: 0 <= i < |name| ==> IsIgcSafe(name[i]) {
      SafeNameKept(name);
    }
  }
}

=== FILE: igc_fix.dfy ===
/** The viewer's strict decoder of IGC fix records (B records, section A4.1
    of the FAI IGC technical specification for GNSS flight recorders) and the
    file scan that keeps the fixes it accepts. */
module IgcFix {
  import opened Wrappers
  import opened JsText
  import opened JsNumber
  import opened Coords
  import opened Seqs

  /** A decoded fix; `valid` marks a positive altitude. */
  datatype Fix = Fix(longitude: real, latitude: real, altitude: real, valid: bool)

  /** The altitude range a field must lie in to be believed, in metres. */
  predicate AltitudeInRange(n: Num) {
    n.Finite? && -500.0 <= n.value <= 15000.0
  }

  /** The GPS altitude when it is plausible, else the pressure altitude when it
      is, else 0. */
  function SelectAltitude(gps: Num, pressure: Num): (alt: real)
    ensures alt == 0.0 || -500.0 <= alt <= 15000.0
    ensures AltitudeInRange(gps) ==> alt == gps.value
    ensures !AltitudeInRange(gps) && AltitudeInRange(pressure) ==> alt == pressure.value
    ensures !AltitudeInRange(gps) && !AltitudeInRange(pressure) ==> alt == 0.0
  {
    if AltitudeInRange(gps) then gps.value
    else if AltitudeInRange(pressure) then pressure.value
    else 0.0
  }

  /** Degrees plus minutes, negated in the southern or western hemisphere. */
  function Angle(degrees: real, minutes: real, negative: bool): real {
    var a := degrees + minutes / 60.0;
    if negative then -a else a
  }

  /** One angle of a B record: a degrees field read by `parseInt`, a minutes
      field read by `parseFloat` in thousandths of a minute, and a hemisphere
      letter that must be `positive` or `negative` (the hemisphere field is a
      one-character substring, compared here as that character). */
  function ReadAngle(degField: string, minField: string, dir: char, positive: char, negative: char): Option<real> {
    var degrees := ParseInt(degField);
    var minutes := DivBy(ParseFloat(minField), 1000.0);
    if degrees.NaN? || minutes.NaN? || !(dir == positive || dir == negative) then None
    else Some(Angle(degrees.value, minutes.value, dir == negative))
  }

  /** `parseIGCLine`: a line that starts with `B` and has at least 35
      characters is read at fixed offsets: latitude `DDMMmmm` and its
      hemisphere at 7-14, longitude `DDDMMmmm` and its hemisphere at 15-23,
      pressure altitude at 25-29 and GPS altitude at 30-34. Any line that does
      not read as a fix within the globe gives `None`. */
  function ParseIgcLine(line: string): (r: Option<Fix>)
    ensures r.Some? ==> |line| >= 35 && line[0] == 'B'
    ensures r.Some? ==> (line[14] == 'N' || line[14] == 'S') && (line[23] == 'E' || line[23] == 'W')
    ensures r.Some? ==> -90.0 <= r.value.latitude <= 90.0 && -180.0 <= r.value.longitude <= 180.0
    ensures r.Some? ==> (r.value.valid <==> r.value.altitude > 0.0)
    ensures r.Some? ==> r.value.altitude == 0.0 || -500.0 <= r.value.altitude <= 15000.0
  {
    if !StartsWith(line, "B") || |line| < 35 then None
    else
      // with at least 35 characters every `substring` is a plain slice
      match ReadAngle(line[7..9], line[9..14], line[14], 'N', 'S')
      case None => None
      case Some(latitude) =>
        match ReadAngle(line[15..18], line[18..23], line[23], 'E', 'W')
        case None => None
        case Some(longitude) =>
          var altitude := SelectAltitude(ParseInt(line[30..35]), ParseInt(line[25..30]));
          if Abs(latitude) > 90.0 || Abs(longitude) > 180.0 then None
          else Some(Fix(longitude, latitude, altitude, altitude > 0.0))
  }

  /** The fields of a B record in the layout of section A4.1 of the IGC
      specification, `B HHMMSS DDMMmmm{N|S} DDDMMmmm{E|W} A PPPPP GGGGG`,
      minutes being written in thousandths. */
  datatype BRecord = BRecord(
    time: string, latDeg: nat, latMilli: nat, south: bool,
    lonDeg: nat, lonMilli: nat, west: bool, pressure: nat, gps: nat)

  /** Every field fits its fixed width. */
  predicate FitsFields(b: BRecord) {
    |b.time| == 6 && b.latDeg < 100 && b.latMilli < 100000 && b.lonDeg < 1000 &&
    b.lonMilli < 100000 && b.pressure < 100000 && b.gps < 100000
  }

  /** The text of a B record. */
  function RenderBRecord(b: BRecord): string {
    "B" + b.time + ZeroPad(b.latDeg, 2) + ZeroPad(b.latMilli, 5) + [if b.south then 'S' else 'N']
    + ZeroPad(b.lonDeg, 3) + ZeroPad(b.lonMilli, 5) + [if b.west then 'W' else 'E']
    + "A" + ZeroPad(b.pressure, 5) + ZeroPad(b.gps, 5)
  }

  /** The latitude and longitude a B record denotes. */
  function RecordLatitude(b: BRecord): real {
    Angle(b.latDeg as real, b.latMilli as real / 1000.0, b.south)
  }

  function RecordLongitude(b: BRecord): real {
    Angle(b.lonDeg as real, b.lonMilli as real / 1000.0, b.west)
  }

  /** The fix a B record denotes, when it lies within the globe. */
  function RecordFix(b: BRecord): Option<Fix> {
    var alt := SelectAltitude(Finite(b.gps as real), Finite(b.pressure as real));
    if Abs(RecordLatitude(b)) > 90.0 || Abs(RecordLongitude(b)) > 180.0 then None
    else Some(Fix(RecordLongitude(b), RecordLatitude(b), alt, alt > 0.0))
  }

  /** Where the fields of a 35-character B record sit. */
  lemma {:induction false} BLayout(t: string, f1: string, f2: string, f3: string, f4: string,
                                   f5: string, f6: string, f7: string, f8: string)
    requires |t| == 6 && |f1| == 2 && |f2| == 5 && |f3| == 1 && |f4| == 3
    requires |f5| == 5 && |f6| == 1 && |f7| == 5 && |f8| == 5
    ensures var line := "B" + t + f1 + f2 + f3 + f4 + f5 + f6 + "A" + f7 + f8;
      |line| == 35 && line[0] == 'B' && line[7..9] == f1 && line[9..14] == f2 && line[14] == f3[0] &&
      line[15..18] == f4 && line[18..23] == f5 && line[23] == f6[0] && line[25..30] == f7 && line[30..35] == f8
  {
  }

  /** The angle reader takes well-formed fields at their value. */
  lemma {:induction false} ReadAngleOf(degField: string, minField: string, dir: char, positive: char,
                                       negative: char, degrees: real, minutes: real)
    requires ParseInt(degField) == Finite(degrees) && ParseFloat(minField) == Finite(minutes)
    requires dir == positive || dir == negative
    ensures ReadAngle(degField, minField, dir, positive, negative) ==
      Some(Angle(degrees, minutes / 1000.0, dir == negative))
  {
  }

  /** The decoder reads a line field by field. */
  lemma {:induction false} DecodeByFields(line: string, latitude: real, longitude: real, gps: Num, pressure: Num)
    requires |line| >= 35 && line[0] == 'B'
    requires ReadAngle(line[7..9], line[9..14], line[14], 'N', 'S') == Some(latitude)
    requires ReadAngle(line[15..18], line[18..23], line[23], 'E', 'W') == Some(longitude)
    requires ParseInt(line[30..35]) == gps && ParseInt(line[25..30]) == pressure
    ensures ParseIgcLine(line) ==
      var alt := SelectAltitude(gps, pressure);
      if Abs(latitude) > 90.0 || Abs(longitude) > 180.0 then None else Some(Fix(longitude, latitude, alt, alt > 0.0))
  {
    assert StartsWith(line, "B");
  }

  /** The decoder reads a line assembled from fields whose values are known. */
  lemma {:induction false} DecodeAssembled(t: string, f1: string, f2: string, f4: string, f5: string,
                                           f7: string, f8: string, b: BRecord)
    requires |t| == 6 && |f1| == 2 && |f2| == 5 && |f4| == 3 && |f5| == 5 && |f7| == 5 && |f8| == 5
    requires ParseInt(f1) == Finite(b.latDeg as real) && ParseFloat(f2) == Finite(b.latMilli as real)
    requires ParseInt(f4) == Finite(b.lonDeg as real) && ParseFloat(f5) == Finite(b.lonMilli as real)
    requires ParseInt(f7) == Finite(b.pressure as real) && ParseInt(f8) == Finite(b.gps as real)
    ensures ParseIgcLine("B" + t + f1 + f2 + [if b.south then 'S' else 'N'] + f4 + f5 + [if b.west then 'W' else 'E']
                         + "A" + f7 + f8) == RecordFix(b)
  {
    var f3 := [if b.south then 'S' else 'N'];
    var f6 := [if b.west then 'W' else 'E'];
    var line := "B" + t + f1 + f2 + f3 + f4 + f5 + f6 + "A" + f7 + f8;
    BLayout(t, f1, f2, f3, f4, f5, f6, f7, f8);
    ReadAngleOf(f1, f2, f3[0], 'N', 'S', b.latDeg as real, b.latMilli as real);
    ReadAngleOf(f4, f5, f6[0], 'E', 'W', b.lonDeg as real, b.lonMilli as real);
    DecodeByFields(line, RecordLatitude(b), RecordLongitude(b), Finite(b.gps as real), Finite(b.pressure as real));
  }

  /** The strict decoder reads back exactly what a well-formed B record
      denotes. */
  lemma {:induction false} DecodeRecord(b: BRecord)
    requires FitsFields(b)
    ensures ParseIgcLine(RenderBRecord(b)) == RecordFix(b)
  {
    ZeroPadWidth(b.latDeg, 2);
    ZeroPadWidth(b.latMilli, 5);
    ZeroPadWidth(b.lonDeg, 3);
    ZeroPadWidth(b.lonMilli, 5);
    ZeroPadWidth(b.pressure, 5);
    ZeroPadWidth(b.gps, 5);
    ZeroPadValue(b.latDeg, 2);
    ZeroPadValue(b.latMilli, 5);
    ZeroPadValue(b.lonDeg, 3);
    ZeroPadValue(b.lonMilli, 5);
    ZeroPadValue(b.pressure, 5);
    ZeroPadValue(b.gps, 5);
    DecodeAssembled(b.time, ZeroPad(b.latDeg, 2), ZeroPad(b.latMilli, 5), ZeroPad(b.lonDeg, 3),
                    ZeroPad(b.lonMilli, 5), ZeroPad(b.pressure, 5), ZeroPad(b.gps, 5), b);
  }

  /** The coordinate `processFile` pushes for one line, if any. */
  function LineCoord(line: string): (r: Option<Coord>)
    ensures r.Some? ==> -90.0 <= r.value.lat <= 90.0 && -180.0 <= r.value.lon <= 180.0
  {
    match ParseIgcLine(line)
    case None => None
    case Some(f) => Some(Coord(f.longitude, f.latitude, f.altitude))
  }

  /** The coordinates of the fixes of `lines`, in line order: the loop of the
      IGC branch of `processFile`. */
  function FixesOf(lines: seq<string>): seq<Coord> {
    FilterMap(LineCoord, lines)
  }

  const NoFixMessage := "Aucun point valide trouvé dans le fichier IGC"

  /** The IGC branch of `processFile`: split the text on line feeds, keep the
      fixes, and fail when none is left. */
  function ScanIgc(text: string): (r: Result<seq<Coord>, string>)
    ensures r.Success? ==> 1 <= |r.value| <= |Split(text, '\n')|
    ensures r.Success? ==> r.value == FixesOf(Split(text, '\n'))
    ensures r.Failure? ==> r.error == NoFixMessage
  {
    var coords := FixesOf(Split(text, '\n'));
    if |coords| == 0 then Failure(NoFixMessage) else Success(coords)
  }

  /** The lines are scanned one after another: the fixes of two runs of
      lines are those of the first followed by those of the second. */
  lemma {:induction false} FixesOfConcat(a: seq<string>, b: seq<string>)
    ensures FixesOf(a + b) == FixesOf(a) + FixesOf(b)
  {
    FilterMapConcat(LineCoord, a, b);
  }

  /** One line gives its decoded fix as `[lon, lat, alt]`, or nothing. */
  lemma FixesOfLine(line: string)
    ensures ParseIgcLine(line).None? ==> FixesOf([line]) == []
    ensures ParseIgcLine(line).Some? ==>
              var f := ParseIgcLine(line).value;
              FixesOf([line]) == [Coord(f.longitude, f.latitude, f.altitude)]
  {
    assert [line][1..] == [];
  }

  /** Every coordinate the scan keeps is the decoding of one of the lines,
      so it lies within the globe. */
  lemma {:induction false} FixesWithinGlobe(lines: seq<string>, c: Coord)
    requires c in FixesOf(lines)
    ensures exists i :: 0 <= i < |lines| && LineCoord(lines[i]) == Some(c)
    ensures -90.0 <= c.lat <= 90.0 && -180.0 <= c.lon <= 180.0
  {
    FilterMapFrom(LineCoord, lines, c);
    var i :| 0 <= i < |lines| && LineCoord(lines[i]) == Some(c);
  }

  lemma {:induction false} LineCoordNone(line: string)
    ensures LineCoord(line).None? <==> ParseIgcLine(line).None?
  {
  }

  /** No line of `lines` decodes to a fix. */
  predicate NoFixIn(lines: seq<string>) {
    forall i :: 0 <= i < |lines| ==> ParseIgcLine(lines[i]).None?
  }

  /** The scan keeps nothing exactly when no line decodes to a fix. */
  lemma {:induction false} FixesOfEmpty(lines: seq<string>)
    ensures FixesOf(lines) == [] <==> NoFixIn(lines)
  {
    assert FixesOf(lines) == [] <==> forall i :: 0 <= i < |lines| ==> LineCoord(lines[i]).None? by {
      FilterMapEmpty(LineCoord, lines);
    }
    assert (forall i :: 0 <= i < |lines| ==> LineCoord(lines[i]).None?) <==> NoFixIn(lines) by {
      forall i | 0 <= i < |lines|
        ensures LineCoord(lines[i]).None? <==> ParseIgcLine(lines[i]).None?
      {
        LineCoordNone(lines[i]);
      }
    }
  }

  /** The file scan fails exactly when no line of the text decodes to a fix. */
  lemma {:induction false} ScanIgcFails(text: string)
    ensures ScanIgc(text).Failure? <==> NoFixIn(Split(text, '\n'))
  {
    FixesOfEmpty(Split(text, '\n'));
  }
}

=== FILE: igc_write.dfy ===
/** The IGC writer of TraceConverter (`toIGC`, conversion_trace.js), and
    what the lenient reader `parseIGC` gives back from its output. The wall
    clock the header date comes from is a parameter. */
module IgcWrite {
  import opened Wrappers
  import opened JsText
  import opened JsNumber
  import opened Seqs
  import opened Escapes
  import opened TraceDecode

  /** The calendar fields of `new Date()` the header uses: `getDate()`,
      `getMonth() + 1` and `getFullYear()`. */
  datatype Clock = Clock(day: nat, month: nat, year: nat)

  /** `s.slice(-2)`: the last two characters, or all of a shorter text. */
  function LastTwo(s: string): (r: string)
    ensures |s| >= 2 ==> |r| == 2 && s == s[..|s| - 2] + r
    ensures |s| < 2 ==> r == s
  {
    if |s| >= 2 then s[|s| - 2..] else s
  }

  /** The `ddmmyy` of the `HFDTE` header. */
  function DateField(c: Clock): string {
    ZeroPad(c.day, 2) + ZeroPad(c.month, 2) + LastTwo(NatDigits(c.year))
  }

  const GeneratorLine := "AXXX Generated by TraceConverter"
  const GpsLine := "HFGPS:Converted"

  function DateLine(c: Clock): string {
    "HFDTE:" + DateField(c)
  }

  function PilotLine(name: string): string {
    "HFPLT:" + EscapeIgc(Some(name))
  }

  /** The four header lines, in the order they are written. */
  function HeaderLines(name: string, c: Clock): seq<string> {
    [GeneratorLine, DateLine(c), PilotLine(name), GpsLine]
  }

  /** The synthesised time of the fix at index `idx`: five seconds per
      point from midnight, wrapping at 24 hours, as `hhmmss`. */
  function TimeField(idx: nat): string {
    var t := 5 * idx;
    ZeroPad((t % 86400) / 3600, 2) + ZeroPad((t % 3600) / 60, 2) + ZeroPad(t % 60, 2)
  }

  /** `String(Math.floor(Math.abs(v)))`. */
  function DegreeText(v: Num): string {
    match v
    case NaN => "NaN"
    case Finite(x) => NatDigits(Abs(x).Floor)
  }

  /** `(Math.abs(v) - Math.floor(Math.abs(v))) * 60`: the minutes of arc
      left over after the whole degrees. */
  function Minutes(v: Num): (r: Num)
    ensures r.Finite? <==> v.Finite?
    ensures r.Finite? ==> 0.0 <= r.value < 60.0
  {
    match v
    case NaN => NaN
    case Finite(x) => Finite((Abs(x) - Abs(x).Floor as real) * 60.0)
  }

  /** `latMin.toFixed(3).substring(0, 5).padStart(5, '0')`. */
  function MinuteField(v: Num): string {
    PadStart(Substring(ToFixed(Minutes(v), 3), 0, 5), 5, '0')
  }

  /** `v >= 0 ? pos : neg`; NaN compares false. */
  function HemisphereOf(v: Num, pos: char, neg: char): (r: char)
    ensures r == pos <==> (v.Finite? && v.value >= 0.0) || pos == neg
  {
    if v.Finite? && v.value >= 0.0 then pos else neg
  }

  /** Degrees padded to `width`, minutes, hemisphere letter. */
  function CoordinateField(v: Num, width: nat, pos: char, neg: char): string {
    PadStart(DegreeText(v), width, '0') + MinuteField(v) + [HemisphereOf(v, pos, neg)]
  }

  /** `String(Math.round(e)).padStart(5, '0')`. */
  function AltitudeField(e: Num): string {
    PadStart(match e case NaN => "NaN" case Finite(x) => IntToString(Round(x)), 5, '0')
  }

  /** The B line `toIGC` writes for the point at index `idx`: the same
      altitude in the pressure and the GPS field. */
  function BLine(pt: TracePoint, idx: nat): string {
    Assemble(TimeField(idx), CoordinateField(pt.lat, 2, 'N', 'S'), CoordinateField(pt.lon, 3, 'E', 'W'),
             AltitudeField(pt.elevation))
  }

  /** A B line from its time, latitude, longitude and altitude fields. */
  function Assemble(time: string, lat: string, lon: string, alt: string): string {
    "B" + time + lat + lon + "A" + alt + alt
  }

  function BLines(points: seq<TracePoint>): (r: seq<string>)
    ensures |r| == |points|
    ensures forall i :: 0 <= i < |points| ==> r[i] == BLine(points[i], i)
  {
    seq(|points|, i requires 0 <= i < |points| => BLine(points[i], i))
  }

  /** `toIGC`: the header lines, then one B line per point, each line
      ended by a line feed. */
  function ToIgc(trace: TraceData, c: Clock): string {
    Terminated(HeaderLines(trace.name, c) + BLines(trace.points))
  }

  // ----- the shape of the output -----

  lemma ZeroPadDigits(n: nat, width: nat)
    requires width >= 1 && n < Pow10(width)
    ensures |ZeroPad(n, width)| == width && AllDigits(ZeroPad(n, width))
    ensures DigitsValue(ZeroPad(n, width)) == n
  {
    ZeroPadWidth(n, width);
    PaddedValue(NatDigits(n), width);
    NatDigitsValue(n);
  }

  /** The time field is six digits `hhmmss` with `hh < 24`, `mm < 60`,
      `ss < 60`, `ss` a multiple of 5, and together they give the offset
      `5 * idx` seconds reduced modulo one day. */
  lemma TimeFieldShape(idx: nat)
    ensures |TimeField(idx)| == 6 && AllDigits(TimeField(idx))
    ensures var t := TimeField(idx);
            var hh := DigitsValue(t[..2]);
            var mm := DigitsValue(t[2..4]);
            var ss := DigitsValue(t[4..]);
            hh < 24 && mm < 60 && ss < 60 && ss % 5 == 0
            && 3600 * hh + 60 * mm + ss == (5 * idx) % 86400
  {
    var t := 5 * idx;
    DayClock(t);
    FiveSeconds(idx);
    ZeroPadDigits((t % 86400) / 3600, 2);
    ZeroPadDigits((t % 3600) / 60, 2);
    ZeroPadDigits(t % 60, 2);
    var f := TimeField(idx);
    assert f[..2] == ZeroPad((t % 86400) / 3600, 2);
    assert f[2..4] == ZeroPad((t % 3600) / 60, 2);
    assert f[4..] == ZeroPad(t % 60, 2);
  }

  lemma {:induction false} ModUnique(t: int, k: int, r: int, p: int)
    requires p > 0 && t == p * k + r && 0 <= r < p
    ensures t % p == r && t / p == k
  {
    var d := k - t / p;
    assert p * d == t % p - r;
  }

  /** Hours, minutes and seconds of a count of seconds within a day. */
  lemma DayClock(t: nat)
    ensures (t % 86400) / 3600 < 24 && (t % 3600) / 60 < 60 && t % 60 < 60
    ensures 3600 * ((t % 86400) / 3600) + 60 * ((t % 3600) / 60) + t % 60 == t % 86400
  {
    var x := t % 86400;
    var h := x / 3600;
    var r := x % 3600;
    var q := t / 86400;
    assert x == 3600 * h + r;
    assert t == 3600 * (24 * q + h) + r;
    ModUnique(t, 24 * q + h, r, 3600);
    var m := r / 60;
    var s := r % 60;
    assert r == 60 * m + s;
    assert t == 60 * (60 * (24 * q + h) + m) + s;
    ModUnique(t, 60 * (24 * q + h) + m, s, 60);
  }

  lemma FiveSeconds(idx: nat)
    ensures (5 * idx) % 60 % 5 == 0
  {
    var t := 5 * idx;
    var s := t % 60;
    var q := t / 60;
    assert s == 5 * (idx - 12 * q);
  }

  lemma {:induction false} PadStartOneLine(s: string, width: nat)
    requires '\n' !in s
    ensures '\n' !in PadStart(s, width, '0')
  {
  }

  lemma DigitsOneLine(s: string)
    requires AllDigits(s)
    ensures '\n' !in s
  {
  }

  lemma FixedDigitsOneLine(n: nat, f: nat)
    ensures '\n' !in FixedDigits(n, f)
  {
    DigitsOneLine(NatDigits(n));
    if f > 0 {
      var whole, frac := FixedDigitsParts(n, f);
      DigitsOneLine(whole);
      DigitsOneLine(frac);
    }
  }

  lemma ToFixedOneLine(v: Num, f: nat)
    ensures '\n' !in ToFixed(v, f)
  {
    if v.Finite? {
      var x := v.value;
      var n := if x < 0.0 then Round(Scale(-x, f)) else Round(Scale(x, f));
      FixedDigitsOneLine(n, f);
    }
  }

  lemma CoordinateFieldOneLine(v: Num, width: nat, pos: char, neg: char)
    requires pos != '\n' && neg != '\n'
    ensures '\n' !in CoordinateField(v, width, pos, neg)
  {
    if v.Finite? {
      DigitsOneLine(DegreeText(v));
    }
    PadStartOneLine(DegreeText(v), width);
    ToFixedOneLine(Minutes(v), 3);
    PadStartOneLine(Substring(ToFixed(Minutes(v), 3), 0, 5), 5);
  }

  lemma AltitudeFieldOneLine(e: Num)
    ensures '\n' !in AltitudeField(e)
  {
    if e.Finite? {
      var r := Round(e.value);
      DigitsOneLine(NatDigits(if r < 0 then -r else r));
      PadStartOneLine(IntToString(r), 5);
    }
  }

  /** No written line holds a line feed, so the reader sees exactly the
      written lines. */
  lemma BLineOneLine(pt: TracePoint, idx: nat)
    ensures '\n' !in BLine(pt, idx)
  {
    TimeFieldShape(idx);
    DigitsOneLine(TimeField(idx));
    CoordinateFieldOneLine(pt.lat, 2, 'N', 'S');
    CoordinateFieldOneLine(pt.lon, 3, 'E', 'W');
    AltitudeFieldOneLine(pt.elevation);
  }

  lemma LastTwoDigits(s: string)
    requires AllDigits(s)
    ensures AllDigits(LastTwo(s))
  {
  }

  lemma HeaderOneLine(name: string, c: Clock)
    ensures forall i :: 0 <= i < 4 ==> '\n' !in HeaderLines(name, c)[i]
  {
    EscapeIgcOneLine(Some(name));
    LastTwoDigits(NatDigits(c.year));
    DigitsOneLine(DateField(c));
  }

  /** Both minute fields are exactly five characters, whatever the value. */
  lemma MinuteFieldWidth(v: Num)
    ensures |MinuteField(v)| == 5
  {
    if v.Finite? {
      var m := Minutes(v).value;
      var n: nat := Round(Scale(m, 3));
      ToFixedNonNegative(m, 3);
      var whole, frac := FixedDigitsParts(n, 3);
    }
  }

  /** The whole degrees of `x`, padded to `width`, read back by `parseInt`. */
  lemma DegreeField(x: real, width: nat)
    requires width >= 1 && Abs(x) < Pow10(width) as real
    ensures |PadStart(DegreeText(Finite(x)), width, '0')| == width
    ensures ParseIntAuto(PadStart(DegreeText(Finite(x)), width, '0')) == Finite(Abs(x).Floor as real)
  {
    var d: nat := Abs(x).Floor;
    ZeroPadWidth(d, width);
    ZeroPadValue(d, width);
  }

  /** A coordinate of fewer than `10^width` degrees fills `width + 6`
      columns. */
  lemma CoordinateFieldWidth(v: Num, width: nat, pos: char, neg: char)
    requires v.Finite? && width >= 1 && Abs(v.value) < Pow10(width) as real
    ensures |CoordinateField(v, width, pos, neg)| == width + 6
  {
    DegreeField(v.value, width);
    MinuteFieldWidth(v);
  }

  /** An altitude from -9999 to 99999 metres, or NaN, fills five columns. */
  lemma AltitudeFieldWidth(e: Num)
    requires e.Finite? ==> -9999 <= Round(e.value) <= 99999
    ensures |AltitudeField(e)| == 5
  {
    if e.Finite? {
      var r := Round(e.value);
      if r < 0 {
        NatDigitsLength(-r, 4);
      } else {
        NatDigitsLength(r, 5);
      }
    }
  }

  /** The fixed layout of a written B line: the record letter, the time
      at columns 1 to 6, the hemisphere letters at columns 14 and 23, the
      validity letter at 24, and twice the same altitude field. */
  lemma BLineLayout(pt: TracePoint, idx: nat)
    requires pt.lat.Finite? && Abs(pt.lat.value) < 100.0
    requires pt.lon.Finite? && Abs(pt.lon.value) < 1000.0
    requires pt.elevation.Finite? ==> -9999 <= Round(pt.elevation.value) <= 99999
    ensures |BLine(pt, idx)| == 35
    ensures BLine(pt, idx)[0] == 'B' && BLine(pt, idx)[1..7] == TimeField(idx)
    ensures BLine(pt, idx)[14] == HemisphereOf(pt.lat, 'N', 'S')
    ensures BLine(pt, idx)[23] == HemisphereOf(pt.lon, 'E', 'W')
    ensures BLine(pt, idx)[24] == 'A' && BLine(pt, idx)[25..30] == BLine(pt, idx)[30..35]
  {
    TimeFieldShape(idx);
    CoordinateFieldWidth(pt.lat, 2, 'N', 'S');
    CoordinateFieldWidth(pt.lon, 3, 'E', 'W');
    AltitudeFieldWidth(pt.elevation);
    var lat := CoordinateField(pt.lat, 2, 'N', 'S');
    var lon := CoordinateField(pt.lon, 3, 'E', 'W');
    CoordinateFieldHemisphere(pt.lat, 2, 'N', 'S');
    CoordinateFieldHemisphere(pt.lon, 3, 'E', 'W');
    AssembleLayout(TimeField(idx), lat, lon, AltitudeField(pt.elevation));
    var line := BLine(pt, idx);
    assert line[14] == line[7..15][7];
    assert line[23] == line[15..24][8];
  }

  lemma CoordinateFieldHemisphere(v: Num, width: nat, pos: char, neg: char)
    requires v.Finite? && width >= 1 && Abs(v.value) < Pow10(width) as real
    ensures CoordinateField(v, width, pos, neg)[width + 5] == HemisphereOf(v, pos, neg)
  {
    DegreeField(v.value, width);
    MinuteFieldWidth(v);
    CoordinateLayout(PadStart(DegreeText(v), width, '0'), MinuteField(v), HemisphereOf(v, pos, neg));
  }

  lemma AssembleLayout(time: string, lat: string, lon: string, alt: string)
    requires |time| == 6 && |lat| == 8 && |lon| == 9 && |alt| == 5
    ensures var line := Assemble(time, lat, lon, alt);
            |line| == 35 && line[0] == 'B' && line[1..7] == time && line[7..15] == lat
            && line[15..24] == lon && line[24] == 'A' && line[25..30] == alt && line[30..35] == alt
  {
    var line := Assemble(time, lat, lon, alt);
    assert line == (((((["B"[0]] + time) + lat) + lon) + ["A"[0]]) + alt) + alt;
  }

  lemma CoordinateLayout(deg: string, min: string, h: char)
    requires |min| == 5
    ensures var f := deg + min + [h];
            f[..|deg|] == deg && f[|deg|..|deg| + 5] == min && f[|deg| + 5] == h
  {
  }

  // ----- reading the output back with parseIGC -----

  /** `m.toFixed(3)` for minutes below 60: one or two whole digits and
      three decimals, denoting `m` rounded to thousandths. */
  lemma MinuteText(m: real) returns (whole: string, frac: string)
    requires 0.0 <= m < 60.0
    ensures ToFixed(Finite(m), 3) == whole + "." + frac
    ensures 1 <= |whole| <= 2 && |frac| == 3 && AllDigits(whole) && AllDigits(frac)
    ensures -0.0005 < Magnitude(whole, frac) - m <= 0.0005
  {
    ToFixedNonNegative(m, 3);
    assert Pow10(3) == 1000;
    var n: nat := Round(Scale(m, 3));
    whole, frac := FixedDigitsParts(n, 3);
    assert n <= 60000;
    NatDigitsLength(n / 1000, 2);
  }

  /** Cutting that text to five characters: two whole digits lose the last
      decimal, so the value read is at most nine thousandths below. */
  lemma CutMinuteText(whole: string, frac: string) returns (v: real)
    requires 1 <= |whole| <= 2 && |frac| == 3 && AllDigits(whole) && AllDigits(frac)
    ensures ParseFloat(PadStart(Substring(whole + "." + frac, 0, 5), 5, '0')) == Finite(v)
    ensures v >= 0.0 && -0.009 <= v - Magnitude(whole, frac) <= 0.0
  {
    var kept := CutText(whole, frac);
    assert AllDigits(kept);
    ParseFloatDecimal(whole, kept);
    v := Magnitude(whole, kept);
    UnscaleNonNegative(DigitsValue(kept), |kept|);
    if |whole| == 2 {
      CutValue(whole, frac);
    } else {
      assert kept == frac;
    }
  }

  lemma UnscaleNonNegative(n: nat, f: nat)
    ensures Unscale(n, f) >= 0.0
  {
    var p := Pow10(f) as real;
    assert n as real / p * p == n as real;
  }

  lemma CutText(whole: string, frac: string) returns (kept: string)
    requires 1 <= |whole| <= 2 && |frac| == 3
    ensures kept == if |whole| == 1 then frac else frac[..2]
    ensures PadStart(Substring(whole + "." + frac, 0, 5), 5, '0') == whole + "." + kept
  {
    var text := whole + "." + frac;
    kept := if |whole| == 1 then frac else frac[..2];
    assert Substring(text, 0, 5) == text[..5];
    assert text[..5] == whole + "." + kept;
  }

  lemma CutValue(whole: string, frac: string)
    requires AllDigits(whole) && |frac| == 3 && AllDigits(frac)
    ensures -0.009 <= Magnitude(whole, frac[..2]) - Magnitude(whole, frac) <= 0.0
  {
    var cut := frac[..2];
    assert Pow10(3) == 1000 && Pow10(2) == 100;
    assert frac[..|frac| - 1] == cut;
    var d := DigitValue(frac[2]);
    assert DigitsValue(frac) == DigitsValue(cut) * 10 + d;
    assert Unscale(DigitsValue(frac), 3) == Unscale(DigitsValue(cut), 2) + d as real / 1000.0;
  }

  /** The minute field reads back as the minutes rounded to thousandths,
      then cut to two decimals when there are two whole digits. */
  lemma MinuteReadBack(x: real) returns (v: real)
    ensures ParseFloat(MinuteField(Finite(x))) == Finite(v)
    ensures v >= 0.0
    ensures -0.0095 < v - Minutes(Finite(x)).value <= 0.0005
  {
    var m := Minutes(Finite(x)).value;
    var whole, frac := MinuteText(m);
    v := CutMinuteText(whole, frac);
  }

  /** Less than a hundredth of a minute of arc apart. */
  predicate Close(y: real, x: real) {
    -1.0 / 6000.0 < y - x < 1.0 / 6000.0
  }

  lemma SignedReadBack(x: real, deg: real, v: real) returns (y: real)
    requires deg == Abs(x).Floor as real && v >= 0.0
    requires -0.0095 < v - (Abs(x) - deg) * 60.0 <= 0.0005
    ensures y == (if x < 0.0 then -(deg + v / 60.0) else deg + v / 60.0)
    ensures Close(y, x)
    ensures x >= 0.0 ==> y >= 0.0
    ensures x < 0.0 ==> y <= 0.0
  {
    y := if x < 0.0 then -(deg + v / 60.0) else deg + v / 60.0;
  }

  /** A slice of a field found at column `p` of a line. */
  lemma SubField(line: string, p: nat, field: string, i: nat, j: nat)
    requires p + |field| <= |line| && line[p..p + |field|] == field && i <= j <= |field|
    ensures Substring(line, p + i, p + j) == field[i..j]
    ensures j < |field| ==> line[p + j] == field[j]
  {
    forall k | 0 <= k < j - i
      ensures line[p + i..p + j][k] == field[i..j][k]
    {
      assert line[p + i + k] == line[p..p + |field|][i + k];
    }
    if j < |field| {
      assert line[p + j] == line[p..p + |field|][j];
    }
  }

  /** The reader's view of a coordinate field at column `p`: the degrees,
      the minutes over 60, negated by the hemisphere letter `neg`. */
  lemma ReadCoordinate(line: string, p: nat, width: nat, deg: string, min: string, h: char, neg: char, fl: real, v: real)
    requires |deg| == width && |min| == 5 && ParseIntAuto(deg) == Finite(fl) && ParseFloat(min) == Finite(v)
    requires p + width + 6 <= |line| && line[p..p + width + 6] == deg + min + [h]
    ensures Hemisphere(line, p + width + 5, neg,
                       Add(ParseIntAuto(Substring(line, p, p + width)),
                           DivBy(ParseFloat(Substring(line, p + width, p + width + 5)), 60.0)))
            == Finite(if h == neg then -(fl + v / 60.0) else fl + v / 60.0)
  {
    var field := deg + min + [h];
    CoordinateLayout(deg, min, h);
    SubField(line, p, field, 0, width);
    SubField(line, p, field, width, width + 5);
  }

  /** A coordinate field written at column `p` reads back, as `parseIGC`
      reads it, within a hundredth of a minute of arc and on the same side
      of zero. */
  lemma CoordinateReadBack(line: string, p: nat, x: real, width: nat, pos: char, neg: char) returns (y: real)
    requires width >= 1 && Abs(x) < Pow10(width) as real && pos != neg
    requires p + width + 6 <= |line| && line[p..p + width + 6] == CoordinateField(Finite(x), width, pos, neg)
    ensures Hemisphere(line, p + width + 5, neg,
                       Add(ParseIntAuto(Substring(line, p, p + width)),
                           DivBy(ParseFloat(Substring(line, p + width, p + width + 5)), 60.0))) == Finite(y)
    ensures Close(y, x)
    ensures x >= 0.0 ==> y >= 0.0
    ensures x < 0.0 ==> y <= 0.0
  {
    var deg := PadStart(DegreeText(Finite(x)), width, '0');
    var min := MinuteField(Finite(x));
    var h := HemisphereOf(Finite(x), pos, neg);
    assert line[p..p + width + 6] == deg + min + [h];
    var fl := Abs(x).Floor as real;
    assert |deg| == width && ParseIntAuto(deg) == Finite(fl) by {
      DegreeField(x, width);
    }
    assert |min| == 5 by {
      MinuteFieldWidth(Finite(x));
    }
    var v := MinuteReadBack(x);
    ReadCoordinate(line, p, width, deg, min, h, neg, fl, v);
    y := SignedReadBack(x, fl, v);
    assert h == neg <==> x < 0.0;
  }

  /** What `parseIGC` gives back from the B line written for `pt`: both
      coordinates within a hundredth of a minute of arc and on the same
      side of zero, the altitude rounded to the metre, no timestamp. */
  lemma BLineReadBack(pt: TracePoint, idx: nat) returns (lat: real, lon: real)
    requires pt.lat.Finite? && Abs(pt.lat.value) < 100.0
    requires pt.lon.Finite? && Abs(pt.lon.value) < 1000.0
    requires pt.elevation.Finite? && 0 <= Round(pt.elevation.value) <= 99999
    ensures IgcFixPoint(BLine(pt, idx)) == TracePoint(Finite(lat), Finite(lon), Finite(Round(pt.elevation.value) as real), None)
    ensures Close(lat, pt.lat.value) && Close(lon, pt.lon.value)
    ensures pt.lat.value >= 0.0 ==> lat >= 0.0
    ensures pt.lat.value < 0.0 ==> lat <= 0.0
    ensures pt.lon.value >= 0.0 ==> lon >= 0.0
    ensures pt.lon.value < 0.0 ==> lon <= 0.0
  {
    var line := BLine(pt, idx);
    var alt := AltitudeField(pt.elevation);
    BLineFields(pt, idx);
    lat := CoordinateReadBack(line, 7, pt.lat.value, 2, 'N', 'S');
    lon := CoordinateReadBack(line, 15, pt.lon.value, 3, 'E', 'W');
    var r: nat := Round(pt.elevation.value);
    assert ParseIntAuto(alt) == Finite(r as real) by {
      ZeroPadValue(r, 5);
    }
    SubField(line, 25, alt, 0, 5);
    SubField(line, 30, alt, 0, 5);
    ReadFix(line, Finite(lat), Finite(lon), Finite(r as real), Finite(r as real));
  }

  lemma BLineFields(pt: TracePoint, idx: nat)
    requires pt.lat.Finite? && Abs(pt.lat.value) < 100.0
    requires pt.lon.Finite? && Abs(pt.lon.value) < 1000.0
    requires pt.elevation.Finite? ==> -9999 <= Round(pt.elevation.value) <= 99999
    ensures |BLine(pt, idx)| == 35
    ensures BLine(pt, idx)[7..15] == CoordinateField(pt.lat, 2, 'N', 'S')
    ensures BLine(pt, idx)[15..24] == CoordinateField(pt.lon, 3, 'E', 'W')
    ensures BLine(pt, idx)[25..30] == AltitudeField(pt.elevation)
    ensures BLine(pt, idx)[30..35] == AltitudeField(pt.elevation)
  {
    TimeFieldShape(idx);
    CoordinateFieldWidth(pt.lat, 2, 'N', 'S');
    CoordinateFieldWidth(pt.lon, 3, 'E', 'W');
    AltitudeFieldWidth(pt.elevation);
    AssembleLayout(TimeField(idx), CoordinateField(pt.lat, 2, 'N', 'S'), CoordinateField(pt.lon, 3, 'E', 'W'),
                   AltitudeField(pt.elevation));
  }

  /** The reader's fields of a B line. */
  lemma ReadFix(line: string, lat: Num, lon: Num, pressure: Num, gps: Num)
    requires Hemisphere(line, 14, 'S', Add(ParseIntAuto(Substring(line, 7, 9)),
                                           DivBy(ParseFloat(Substring(line, 9, 14)), 60.0))) == lat
    requires Hemisphere(line, 23, 'W', Add(ParseIntAuto(Substring(line, 15, 18)),
                                           DivBy(ParseFloat(Substring(line, 18, 23)), 60.0))) == lon
    requires ParseIntAuto(Substring(line, 25, 30)) == pressure && ParseIntAuto(Substring(line, 30, 35)) == gps
    ensures IgcFixPoint(line) == TracePoint(lat, lon, Or(gps, pressure), None)
  {
  }

  // ----- the whole file -----

  /** The file splits back into the four header lines, one B line per
      point in order, and the empty text after the last line feed. */
  lemma ToIgcLines(trace: TraceData, c: Clock)
    ensures Split(ToIgc(trace, c), '\n') == HeaderLines(trace.name, c) + BLines(trace.points) + [[]]
  {
    var header := HeaderLines(trace.name, c);
    var body := BLines(trace.points);
    HeaderOneLine(trace.name, c);
    BodyOneLine(trace.points);
    OneLineConcat(header, body);
    SplitTerminated(header + body);
  }

  lemma BodyOneLine(points: seq<TracePoint>)
    ensures forall i :: 0 <= i < |BLines(points)| ==> '\n' !in BLines(points)[i]
  {
    forall i | 0 <= i < |points|
      ensures '\n' !in BLines(points)[i]
    {
      BLineOneLine(points[i], i);
    }
  }

  lemma OneLineConcat(a: seq<string>, b: seq<string>)
    requires forall i :: 0 <= i < |a| ==> '\n' !in a[i]
    requires forall i :: 0 <= i < |b| ==> '\n' !in b[i]
    ensures forall i :: 0 <= i < |a + b| ==> '\n' !in (a + b)[i]
  {
    forall i | 0 <= i < |a + b|
      ensures '\n' !in (a + b)[i]
    {
      if i >= |a| {
        assert (a + b)[i] == b[i - |a|];
      }
    }
  }

  lemma HeaderNoFix(name: string, c: Clock)
    ensures FilterMap(IgcLinePoint, HeaderLines(name, c)) == []
  {
    var h := HeaderLines(name, c);
    assert GeneratorLine[0] == 'A';
    assert DateLine(c)[0] == 'H' && PilotLine(name)[0] == 'H' && GpsLine[0] == 'H';
    assert forall i :: 0 <= i < |h| ==> !IsBLine(h[i]);
    FilterMapEmpty(IgcLinePoint, h);
  }

  /** `parseIGC` reads one point per written point, in order: the point
      the B line of that index decodes to. */
  lemma IgcFilePoints(trace: TraceData, c: Clock)
    ensures |IgcPoints(ToIgc(trace, c))| == |trace.points|
    ensures forall i :: 0 <= i < |trace.points| ==>
              IgcPoints(ToIgc(trace, c))[i] == IgcFixPoint(BLine(trace.points[i], i))
  {
    var header := HeaderLines(trace.name, c);
    var body := BLines(trace.points);
    ToIgcLines(trace, c);
    HeaderNoFix(trace.name, c);
    forall i | 0 <= i < |body|
      ensures IsBLine(body[i])
    {
      BLineStartsWithB(trace.points[i], i);
    }
    FixLines(header, body);
  }

  /** Header lines that are no B lines, then B lines, then an empty line:
      one point per B line. */
  lemma FixLines(header: seq<string>, body: seq<string>)
    requires FilterMap(IgcLinePoint, header) == []
    requires forall i :: 0 <= i < |body| ==> IsBLine(body[i])
    ensures |FilterMap(IgcLinePoint, header + body + [[]])| == |body|
    ensures forall i :: 0 <= i < |body| ==> FilterMap(IgcLinePoint, header + body + [[]])[i] == IgcFixPoint(body[i])
  {
    var empty: seq<string> := [[]];
    assert header + body + empty == header + (body + empty);
    FilterMapConcat(IgcLinePoint, header, body + empty);
    FilterMapConcat(IgcLinePoint, body, empty);
    assert FilterMap(IgcLinePoint, empty) == [];
    FilterMapAll(IgcLinePoint, body);
  }

  lemma BLineStartsWithB(pt: TracePoint, idx: nat)
    ensures IsBLine(BLine(pt, idx))
  {
  }

  /** A point `toIGC` can lay out in its fixed columns. */
  predicate Writable(pt: TracePoint) {
    pt.lat.Finite? && Abs(pt.lat.value) < 100.0
    && pt.lon.Finite? && Abs(pt.lon.value) < 1000.0
    && pt.elevation.Finite? && 0 <= Round(pt.elevation.value) <= 99999
  }

  /** `q` is what the lenient reader should give back for the written
      point `pt`: coordinates within a hundredth of a minute of arc and on
      the same side of zero, the altitude rounded to the metre, no time. */
  predicate ReadBackOf(q: TracePoint, pt: TracePoint)
    requires Writable(pt)
  {
    q.lat.Finite? && Close(q.lat.value, pt.lat.value)
    && (pt.lat.value >= 0.0 ==> q.lat.value >= 0.0) && (pt.lat.value < 0.0 ==> q.lat.value <= 0.0)
    && q.lon.Finite? && Close(q.lon.value, pt.lon.value)
    && (pt.lon.value >= 0.0 ==> q.lon.value >= 0.0) && (pt.lon.value < 0.0 ==> q.lon.value <= 0.0)
    && q.elevation == Finite(Round(pt.elevation.value) as real)
    && q.timestamp.None?
  }

  /** The lenient round trip: `parseIGC` of `toIGC` gives as many points
      as were written, in order, each read back as `ReadBackOf` says. */
  lemma IgcRoundTrip(trace: TraceData, c: Clock)
    requires forall i :: 0 <= i < |trace.points| ==> Writable(trace.points[i])
    ensures |IgcPoints(ToIgc(trace, c))| == |trace.points|
    ensures forall i :: 0 <= i < |trace.points| ==> ReadBackOf(IgcPoints(ToIgc(trace, c))[i], trace.points[i])
  {
    IgcFilePoints(trace, c);
    forall i | 0 <= i < |trace.points|
      ensures ReadBackOf(IgcFixPoint(BLine(trace.points[i], i)), trace.points[i])
    {
      var lat, lon := BLineReadBack(trace.points[i], i);
    }
  }

  // ----- the header read back -----

  lemma {:induction false} NatDigitsLast(n: nat)
    ensures NatDigits(n)[|NatDigits(n)| - 1] == DigitChar(n % 10)
  {
  }

  lemma LastTwoArith(y: nat)
    ensures y % 100 == (y / 10 % 10) * 10 + y % 10
  {
    var q := y / 10 / 10;
    assert y == 10 * (y / 10) + y % 10;
    assert y / 10 == 10 * q + y / 10 % 10;
    ModUnique(y, q, (y / 10 % 10) * 10 + y % 10, 100);
  }

  lemma TwoCharValue(a: char, b: char)
    requires IsDigit(a) && IsDigit(b)
    ensures AllDigits([a, b]) && DigitsValue([a, b]) == DigitValue(a) * 10 + DigitValue(b)
  {
    assert [a, b][..1] == [a] && [a][..0] == [];
    assert DigitsValue([a]) == DigitValue(a);
  }

  lemma LastTwoAppend(hi: string, b: char)
    requires |hi| >= 1
    ensures LastTwo(hi + [b]) == [hi[|hi| - 1], b]
  {
  }

  /** `slice(-2)` of a year of at least two digits is its last two digits. */
  lemma LastTwoValue(y: nat)
    requires y >= 10
    ensures |LastTwo(NatDigits(y))| == 2 && AllDigits(LastTwo(NatDigits(y)))
    ensures DigitsValue(LastTwo(NatDigits(y))) == y % 100
  {
    NatDigitsLast(y / 10);
    LastTwoOfDigits(NatDigits(y / 10), DigitChar(y % 10));
    LastTwoArith(y);
  }

  /** The last two characters of digits `hi` followed by a digit `b`. */
  lemma LastTwoOfDigits(hi: string, b: char)
    requires |hi| >= 1 && AllDigits(hi) && IsDigit(b)
    ensures |LastTwo(hi + [b])| == 2 && AllDigits(LastTwo(hi + [b]))
    ensures DigitsValue(LastTwo(hi + [b])) == DigitValue(hi[|hi| - 1]) * 10 + DigitValue(b)
  {
    LastTwoAppend(hi, b);
    TwoCharValue(hi[|hi| - 1], b);
  }

  /** A two-digit text reads as its value. */
  lemma TwoDigits(ds: string)
    requires |ds| >= 1 && AllDigits(ds)
    ensures ParseIntAuto(ds) == Finite(DigitsValue(ds) as real)
  {
    ParseIntAutoDigits(ds);
    ParseIntDigits(ds, "");
    assert ds + "" == ds;
  }

  /** Three two-character fields after a six-character tag. */
  lemma DateParts(tag: string, dd: string, mm: string, yy: string)
    requires |tag| == 6 && |dd| == 2 && |mm| == 2 && |yy| == 2
    ensures var f := Substring(tag + (dd + mm + yy), 6, 12);
            Substring(f, 0, 2) == dd && Substring(f, 2, 4) == mm && Substring(f, 4, 6) == yy
  {
    var f := dd + mm + yy;
    assert (tag + f)[6..12] == f;
    assert f[0..2] == dd && f[2..4] == mm && f[4..6] == yy;
  }

  /** The six characters after `HFDTE:` are the three two-digit fields. */
  lemma DateFieldParts(c: Clock)
    requires c.day < 100 && c.month < 100 && c.year >= 10
    ensures var f := Substring(DateLine(c), 6, 12);
            Substring(f, 0, 2) == ZeroPad(c.day, 2) && Substring(f, 2, 4) == ZeroPad(c.month, 2)
            && Substring(f, 4, 6) == LastTwo(NatDigits(c.year))
  {
    ZeroPadWidth(c.day, 2);
    ZeroPadWidth(c.month, 2);
    LastTwoValue(c.year);
    DateParts("HFDTE:", ZeroPad(c.day, 2), ZeroPad(c.month, 2), LastTwo(NatDigits(c.year)));
  }

  /** The date the reader takes from a tag and three two-digit fields. */
  lemma HeaderDateOf(tag: string, dd: string, mm: string, yy: string)
    requires |tag| == 6 && |dd| == 2 && |mm| == 2 && |yy| == 2
    requires AllDigits(dd) && AllDigits(mm) && AllDigits(yy)
    ensures HeaderDate(tag + (dd + mm + yy))
            == IgcDate(Finite((2000 + DigitsValue(yy)) as real), Finite((DigitsValue(mm) - 1) as real),
                       Finite(DigitsValue(dd) as real))
  {
    DateParts(tag, dd, mm, yy);
    TwoDigits(dd);
    TwoDigits(mm);
    TwoDigits(yy);
  }

  /** The date `parseIGC` reads from the `HFDTE` line `toIGC` writes: the
      day, the month index and the year in the 2000s with the same last two
      digits. */
  lemma DateReadBack(c: Clock)
    requires c.day < 100 && c.month < 100 && c.year >= 10
    ensures HeaderDate(DateLine(c))
            == IgcDate(Finite((2000 + c.year % 100) as real), Finite((c.month - 1) as real), Finite(c.day as real))
  {
    var dd, mm, yy := ZeroPad(c.day, 2), ZeroPad(c.month, 2), LastTwo(NatDigits(c.year));
    ZeroPadDigits(c.day, 2);
    ZeroPadDigits(c.month, 2);
    LastTwoValue(c.year);
    assert DateLine(c) == "HFDTE:" + (dd + mm + yy);
    HeaderDateOf("HFDTE:", dd, mm, yy);
  }

  /** A text that starts at column `k` is included. */
  lemma {:induction false} IncludesAt(s: string, k: nat, t: string)
    requires k <= |s| && t <= s[k..]
    ensures Includes(s, t)
    decreases k
  {
    if k == 0 {
      assert s[0..] == s;
    } else {
      assert s[1..][k - 1..] == s[k..];
      IncludesAt(s[1..], k - 1, t);
    }
  }

  lemma {:induction false} NotIncludes(s: string, t: string, c: char)
    requires c in t && c !in s
    ensures !Includes(s, t)
  {
    if |s| > 0 {
      NotIncludes(s[1..], t, c);
    }
  }

  /** Four lines where only the second sets the date and only the third
      the name. */
  lemma FourHeaders(a: string, b: string, c: string, d: string)
    requires !IsHLine(a)
    requires IsHLine(b) && Includes(b, "HFDTE") && !Includes(b, "HFPLT")
    requires IsHLine(c) && Includes(c, "HFPLT")
    requires !Includes(d, "HFDTE") && !Includes(d, "HFPLT")
    ensures Headers([a, b, c, d]) == IgcHeader(HeaderName(c), Some(HeaderDate(if Includes(c, "HFDTE") then c else b)))
  {
    var h := [a, b, c, d];
    assert h[..3] == [a, b, c] && h[..3][..2] == [a, b] && h[..3][..2][..1] == [a];
    assert [a][..0] == [];
    assert Headers([a]) == IgcHeader(DefaultIgcName, None);
    assert Headers([a, b]) == IgcHeader(DefaultIgcName, Some(HeaderDate(b)));
    assert Headers([a, b, c]) == IgcHeader(HeaderName(c), Some(HeaderDate(if Includes(c, "HFDTE") then c else b)));
  }

  lemma DateLineTags(c: Clock)
    ensures IsHLine(DateLine(c)) && Includes(DateLine(c), "HFDTE") && !Includes(DateLine(c), "HFPLT")
  {
    var d := DateLine(c);
    assert "HFDTE" <= d;
    LastTwoDigits(NatDigits(c.year));
    assert AllDigits(DateField(c));
    assert d[5] == ':' && d[..5] == "HFDTE";
    assert forall i | 0 <= i < |d| :: d[i] != 'P' by {
      forall i | 0 <= i < |d| ensures d[i] != 'P' {
        if i >= 6 {
          assert d[i] == DateField(c)[i - 6];
        }
      }
    }
    NotIncludes(d, "HFPLT", 'P');
  }

  lemma PilotLineTags(name: string)
    ensures IsHLine(PilotLine(name)) && Includes(PilotLine(name), "HFPLT")
  {
    assert "HFPLT" <= PilotLine(name);
  }

  lemma OtherLineTags()
    ensures !IsHLine(GeneratorLine) && !Includes(GpsLine, "HFDTE") && !Includes(GpsLine, "HFPLT")
  {
    assert GeneratorLine[0] == 'A';
    var g := GpsLine;
    assert forall i | 0 <= i < |g| :: g[i] != 'D' && g[i] != 'L' by {
      assert g == "HFGPS:Converted";
    }
    assert "HFDTE"[2] == 'D' && "HFPLT"[3] == 'L';
    NotIncludes(GpsLine, "HFDTE", 'D');
    NotIncludes(GpsLine, "HFPLT", 'L');
  }

  /** The four header lines set the name from `HFPLT` and the date from
      `HFDTE`; when the escaped name itself spells `HFDTE`, the pilot line
      comes later and the date is read again from it. */
  lemma HeadersOfHeader(name: string, c: Clock)
    ensures var p := PilotLine(name);
            Headers(HeaderLines(name, c))
            == IgcHeader(HeaderName(p), Some(HeaderDate(if Includes(p, "HFDTE") then p else DateLine(c))))
  {
    DateLineTags(c);
    PilotLineTags(name);
    OtherLineTags();
    FourHeaders(GeneratorLine, DateLine(c), PilotLine(name), GpsLine);
  }

  /** The name and description `parseIGC` reads from a file `toIGC`
      wrote: the pilot name as the reader cuts it (or the default), and
      the date of the clock, unless the escaped name spells `HFDTE`, when
      the date is read from the pilot line instead. */
  lemma IgcFileHeader(trace: TraceData, c: Clock, localeDate: IgcDate -> string)
    requires c.day < 100 && c.month < 100 && c.year >= 10
    ensures var r := ParseIgc(ToIgc(trace, c), localeDate);
            var read := HeaderName(PilotLine(trace.name));
            r.name == (if read == [] then DefaultIgcName else read)
    ensures var r := ParseIgc(ToIgc(trace, c), localeDate);
            !Includes(PilotLine(trace.name), "HFDTE") ==>
              r.description == IgcDescription(Some(IgcDate(Finite((2000 + c.year % 100) as real),
                                                           Finite((c.month - 1) as real),
                                                           Finite(c.day as real))), localeDate)
    ensures var r := ParseIgc(ToIgc(trace, c), localeDate);
            Includes(PilotLine(trace.name), "HFDTE") ==>
              r.description == IgcDescription(Some(HeaderDate(PilotLine(trace.name))), localeDate)
  {
    HeadersOfFile(trace, c);
    HeadersOfHeader(trace.name, c);
    DateReadBack(c);
  }

  /** A pilot called `HFDTE` hides the flight date: the pilot line now
      mentions `HFDTE` too, and the date read from it has no digits, so
      every field of the date is NaN. */
  lemma PilotNamedHfdte(c: Clock)
    ensures PilotLine("HFDTE") == "HFPLT:HFDTE"
    ensures Headers(HeaderLines("HFDTE", c)).date == Some(IgcDate(NaN, NaN, NaN))
  {
    var name := "HFDTE";
    assert Filter(IsIgcSafe, name) == name by {
      FilterAll(IsIgcSafe, name);
    }
    var p := PilotLine(name);
    assert p == "HFPLT:HFDTE";
    assert Includes(p, "HFDTE") by {
      assert "HFDTE" <= p[6..];
      IncludesAt(p, 6, "HFDTE");
    }
    HeadersOfHeader(name, c);
    LetterDate(p);
  }

  /** A date field holding letters reads as NaN throughout. */
  lemma LetterDate(line: string)
    requires line == "HFPLT:HFDTE"
    ensures HeaderDate(line) == IgcDate(NaN, NaN, NaN)
  {
    var dateStr := Substring(line, 6, 12);
    assert dateStr == line[6..11];
    assert |dateStr| == 5 && dateStr[0] == 'H' && dateStr[2] == 'D' && dateStr[4] == 'E';
    assert Substring(dateStr, 0, 2) == dateStr[0..2] && dateStr[0..2][0] == dateStr[0];
    assert Substring(dateStr, 2, 4) == dateStr[2..4] && dateStr[2..4][0] == dateStr[2];
    assert Substring(dateStr, 4, 6) == dateStr[4..5] && dateStr[4..5][0] == dateStr[4];
    NoDigitNaN(Substring(dateStr, 0, 2));
    NoDigitNaN(Substring(dateStr, 2, 4));
    NoDigitNaN(Substring(dateStr, 4, 6));
  }

  /** Text starting with a letter other than a sign or white space holds
      no number for `parseInt`. */
  lemma NoDigitNaN(t: string)
    requires |t| > 0 && 'A' <= t[0] <= 'Z'
    ensures ParseIntAuto(t) == NaN
  {
    assert TrimStart(t) == t;
  }

  /** Only the four header lines of the file set its name and date. */
  lemma HeadersOfFile(trace: TraceData, c: Clock)
    ensures Headers(Split(ToIgc(trace, c), '\n')) == Headers(HeaderLines(trace.name, c))
  {
    var header := HeaderLines(trace.name, c);
    var rest := BLines(trace.points) + [[]];
    ToIgcLines(trace, c);
    assert header + BLines(trace.points) + [[]] == header + rest;
    BodyNoHeader(trace.points);
    HeadersIgnoreOtherLines(header, rest);
  }

  /** No B line, nor the empty text after the last line feed, is a header
      line. */
  lemma BodyNoHeader(points: seq<TracePoint>)
    ensures forall i :: 0 <= i < |BLines(points) + [[]]| ==> !IsHLine((BLines(points) + [[]])[i])
  {
    var rest := BLines(points) + [[]];
    forall i | 0 <= i < |rest|
      ensures !IsHLine(rest[i])
    {
      if i < |points| {
        BLineStartsWithB(points[i], i);
      }
    }
  }
}

=== FILE: js_number.dfy ===
/** JavaScript numbers as the track code uses them: exact reals plus NaN, the
    digit-prefix parsers `parseInt` / `parseFloat`, `String(n)` for integers,
    `Math.round` and `Number.prototype.toFixed`. IEEE-754 rounding is not
    modelled: every finite value is an exact real. */
module JsNumber {
  import opened JsText

  /** A JavaScript number: a finite value or NaN (what `parseFloat` returns
      when there are no digits to read). */
  datatype Num = Finite(value: real) | NaN

  /** JavaScript truthiness of a number: neither 0 nor NaN. */
  predicate Truthy(n: Num) {
    n.Finite? && n.value != 0.0
  }

  /** The numeric `a || b`. */
  function Or(a: Num, b: Num): (r: Num)
    ensures Truthy(a) ==> r == a
    ensures !Truthy(a) ==> r == b
  {
    if Truthy(a) then a else b
  }

  /** Unary minus; NaN stays NaN. */
  function Negate(n: Num): Num {
    match n
    case NaN => NaN
    case Finite(v) => Finite(-v)
  }

  /** Addition; NaN is absorbing. */
  function Add(a: Num, b: Num): (r: Num)
    ensures r.NaN? <==> a.NaN? || b.NaN?
    ensures r.Finite? ==> r.value == a.value + b.value
  {
    if a.Finite? && b.Finite? then Finite(a.value + b.value) else NaN
  }

  /** Division by a non-zero constant; NaN stays NaN. */
  function DivBy(a: Num, d: real): (r: Num)
    requires d != 0.0
    ensures r.NaN? <==> a.NaN?
    ensures r.Finite? ==> r.value * d == a.value
  {
    if a.Finite? then Finite(a.value / d) else NaN
  }

  function Abs(x: real): (r: real)
    ensures r >= 0.0 && (r == x || r == -x)
  {
    if x < 0.0 then -x else x
  }

  predicate IsDigit(c: char) {
    '0' <= c <= '9'
  }

  predicate AllDigits(s: string) {
    forall i :: 0 <= i < |s| ==> IsDigit(s[i])
  }

  function DigitValue(c: char): nat
    requires IsDigit(c)
  {
    c as int - '0' as int
  }

  function DigitChar(d: nat): (c: char)
    requires d < 10
    ensures IsDigit(c) && DigitValue(c) == d
  {
    ('0' as int + d) as char
  }

  function Pow10(k: nat): (r: nat)
    ensures r >= 1
  {
    if k == 0 then 1 else 10 * Pow10(k - 1)
  }

  /** `x * 10^f`. */
  function Scale(x: real, f: nat): (r: real)
    ensures x >= 0.0 ==> r >= 0.0
  {
    ProductNonNegative(x, Pow10(f) as real);
    x * Pow10(f) as real
  }

  /** `n / 10^f`. */
  function Unscale(n: int, f: nat): real {
    n as real / Pow10(f) as real
  }

  /** The value of a string of decimal digits, most significant first. */
  function DigitsValue(ds: string): nat
    requires AllDigits(ds)
  {
    if |ds| == 0 then 0
    else DigitsValue(ds[..|ds| - 1]) * 10 + DigitValue(ds[|ds| - 1])
  }

  /** The longest prefix of `s` made of decimal digits. */
  function DigitPrefix(s: string): (ds: string)
    ensures |ds| <= |s| && AllDigits(ds)
  {
    if |s| > 0 && IsDigit(s[0]) then [s[0]] + DigitPrefix(s[1..]) else []
  }

  /** The digit prefix is a prefix of `s`, and the character after it, if
      any, is no digit. */
  lemma {:induction false} DigitPrefixShape(s: string)
    ensures DigitPrefix(s) <= s
    ensures |DigitPrefix(s)| < |s| ==> !IsDigit(s[|DigitPrefix(s)|])
  {
    if |s| > 0 && IsDigit(s[0]) {
      DigitPrefixShape(s[1..]);
    }
  }

  /** The shortest decimal text of a natural number: `String(n)`. */
  function NatDigits(n: nat): (ds: string)
    ensures |ds| >= 1 && AllDigits(ds)
  {
    if n < 10 then [DigitChar(n)] else NatDigits(n / 10) + [DigitChar(n % 10)]
  }

  /** `String(i)` for an integer. */
  function IntToString(i: int): string {
    if i < 0 then "-" + NatDigits(-i) else NatDigits(i)
  }

  /** `String(n).padStart(w, '0')`: the zero-padded decimal field of `n`. */
  function ZeroPad(n: nat, width: nat): (r: string)
    ensures AllDigits(r) && |r| >= width && |r| >= 1
  {
    PaddedValue(NatDigits(n), width);
    PadStart(NatDigits(n), width, '0')
  }

  /** Whether a numeral starts with `-`, and the numeral without its sign. */
  function SignOf(t: string): (bool, string) {
    if |t| > 0 && (t[0] == '-' || t[0] == '+') then (t[0] == '-', t[1..]) else (false, t)
  }

  function ApplySign(negative: bool, n: Num): Num {
    if negative then Negate(n) else n
  }

  /** The unsigned part of `parseInt`: the longest run of leading digits. */
  function UnsignedInt(body: string): Num {
    var ds := DigitPrefix(body);
    if |ds| == 0 then NaN else Finite(DigitsValue(ds) as real)
  }

  /** `parseInt(s, 10)`: leading white space, an optional sign, then the
      longest run of digits; NaN when that run is empty. */
  function ParseInt(s: string): Num {
    var (negative, body) := SignOf(TrimStart(s));
    ApplySign(negative, UnsignedInt(body))
  }

  predicate IsHexDigit(c: char) {
    IsDigit(c) || 'a' <= c <= 'f' || 'A' <= c <= 'F'
  }

  function HexDigitValue(c: char): nat
    requires IsHexDigit(c)
  {
    if IsDigit(c) then DigitValue(c)
    else if 'a' <= c <= 'f' then c as int - 'a' as int + 10
    else c as int - 'A' as int + 10
  }

  /** The value of the longest run of leading hexadecimal digits, `acc` being
      the value of the digits already read. */
  function HexPrefixValue(s: string, acc: nat): nat {
    if |s| > 0 && IsHexDigit(s[0]) then HexPrefixValue(s[1..], acc * 16 + HexDigitValue(s[0])) else acc
  }

  /** `parseInt(s)` without a radix: as `parseInt(s, 10)`, except that a body
      starting with `0x` or `0X` is read in base 16. */
  function ParseIntAuto(s: string): Num {
    var (negative, body) := SignOf(TrimStart(s));
    if |body| >= 2 && body[0] == '0' && (body[1] == 'x' || body[1] == 'X') then
      var hex := body[2..];
      if |hex| > 0 && IsHexDigit(hex[0]) then ApplySign(negative, Finite(HexPrefixValue(hex, 0) as real))
      else NaN
    else ApplySign(negative, UnsignedInt(body))
  }

  /** The value of the numeral `whole.frac`. */
  function Magnitude(whole: string, frac: string): real
    requires AllDigits(whole) && AllDigits(frac)
  {
    DigitsValue(whole) as real + Unscale(DigitsValue(frac), |frac|)
  }

  /** The unsigned part of `parseFloat`: digits, then optionally a point and
      more digits; NaN when no digit is read. */
  function UnsignedDecimal(body: string): Num {
    var whole := DigitPrefix(body);
    var rest := body[|whole|..];
    var frac := if |rest| > 0 && rest[0] == '.' then DigitPrefix(rest[1..]) else [];
    if |whole| + |frac| == 0 then NaN else Finite(Magnitude(whole, frac))
  }

  /** `parseFloat(s)`: leading white space, an optional sign, digits, and an
      optional fraction `.digits`; NaN when no digit is read. */
  function ParseFloat(s: string): Num {
    var (negative, body) := SignOf(TrimStart(s));
    ApplySign(negative, UnsignedDecimal(body))
  }

  /** `Math.round`: the nearest integer, halves rounded up. */
  function Round(x: real): (r: int)
    ensures x - 0.5 < r as real <= x + 0.5
  {
    (x + 0.5).Floor
  }

  /** `n.toFixed(f)` for a non-negative value already scaled to the integer
      `n = x * 10^f`: the integer part, a point, and exactly `f` fraction
      digits. */
  function FixedDigits(n: nat, f: nat): string {
    if f == 0 then NatDigits(n)
    else
      DivMod(n, Pow10(f));
      NatDigits(n / Pow10(f)) + "." + PadStart(NatDigits(n % Pow10(f)), f, '0')
  }

  /** `x.toFixed(f)`: the multiple of `10^-f` nearest to `|x|` (the larger one
      on a tie), prefixed with `-` when `x < 0`; `"NaN"` for NaN. */
  function ToFixed(x: Num, f: nat): string {
    match x
    case NaN => "NaN"
    case Finite(v) =>
      if v < 0.0 then "-" + FixedDigits(Round(Scale(-v, f)), f)
      else FixedDigits(Round(Scale(v, f)), f)
  }

  /** The number `x.toFixed(f)` denotes: `x` rounded to `f` decimals, halves
      rounded away from zero. */
  function FixedValue(v: real, f: nat): real {
    if v < 0.0 then -Unscale(Round(Scale(-v, f)), f) else Unscale(Round(Scale(v, f)), f)
  }

  // ----- arithmetic facts -----

  lemma {:induction false} ProductNonNegative(a: real, b: real)
    requires b >= 0.0
    ensures a >= 0.0 ==> a * b >= 0.0
  {
  }

  /** Euclidean division by a positive divisor. */
  lemma {:induction false} DivMod(n: nat, p: nat)
    requires p >= 1
    ensures 0 <= n / p && 0 <= n % p < p
  {
  }

  /** Splitting a scaled integer at the decimal point keeps its value. */
  lemma {:induction false} ScaledSplit(n: nat, f: nat)
    ensures (n / Pow10(f)) as real + Unscale(n % Pow10(f), f) == Unscale(n, f)
  {
    var p := Pow10(f);
    QuotientSplit(n / p, n % p, p);
  }

  lemma {:induction false} QuotientSplit(q: int, m: int, p: nat)
    requires p >= 1
    ensures q as real + m as real / p as real == (q * p + m) as real / p as real
  {
    var pr := p as real;
    assert (q * p + m) as real == q as real * pr + m as real;
    assert (q as real * pr + m as real) / pr == q as real * pr / pr + m as real / pr;
  }

  /** Rounding a scaled value to the nearest integer and scaling back moves
      it by at most half a unit. */
  lemma {:induction false} ScaledError(n: real, v: real, p: real)
    requires p >= 1.0
    requires v * p - 0.5 < n <= v * p + 0.5
    ensures -0.5 / p <= n / p - v <= 0.5 / p
  {
    var d := n - v * p;
    assert n / p - v == d / p;
    assert -0.5 <= d <= 0.5;
  }

  // ----- digit-string facts -----

  /** `String(n)` denotes `n`. */
  lemma {:induction false} NatDigitsValue(n: nat)
    ensures DigitsValue(NatDigits(n)) == n
  {
    if n >= 10 {
      var ds := NatDigits(n);
      assert ds[..|ds| - 1] == NatDigits(n / 10);
      NatDigitsValue(n / 10);
    }
  }

  /** `String(n)` has one digit exactly when `n < 10`, and two when
      `10 <= n < 100`. */
  lemma {:induction false} NatDigitsShort(n: nat)
    ensures n < 10 <==> |NatDigits(n)| == 1
    ensures 10 <= n < 100 ==> |NatDigits(n)| == 2
  {
    if n >= 10 {
      NatDigitsShort(n / 10);
    }
  }

  /** `String(n)` has at most `k` digits when `n < 10^k`. */
  lemma {:induction false} NatDigitsLength(n: nat, k: nat)
    requires n < Pow10(k) && k >= 1
    ensures |NatDigits(n)| <= k
  {
    if n >= 10 {
      NatDigitsLength(n / 10, k - 1);
    }
  }

  /** Leading zeros do not change the value of a digit string. */
  lemma {:induction false} LeadingZeros(k: nat, ds: string)
    requires AllDigits(ds)
    ensures AllDigits(Repeat('0', k) + ds)
    ensures DigitsValue(Repeat('0', k) + ds) == DigitsValue(ds)
  {
    var zs := Repeat('0', k) + ds;
    if |ds| == 0 {
      assert zs == Repeat('0', k);
      if k > 0 {
        assert zs[..|zs| - 1] == Repeat('0', k - 1) + [];
        LeadingZeros(k - 1, []);
      }
    } else {
      assert zs[..|zs| - 1] == Repeat('0', k) + ds[..|ds| - 1];
      LeadingZeros(k, ds[..|ds| - 1]);
    }
  }

  /** Zero-padding a digit string keeps its value. */
  lemma {:induction false} PaddedValue(ds: string, width: nat)
    requires AllDigits(ds)
    ensures AllDigits(PadStart(ds, width, '0'))
    ensures DigitsValue(PadStart(ds, width, '0')) == DigitsValue(ds)
  {
    if |ds| < width {
      LeadingZeros(width - |ds|, ds);
    }
  }

  /** The digit prefix of a run of digits followed by a non-digit. */
  lemma {:induction false} DigitPrefixOf(ds: string, t: string)
    requires AllDigits(ds)
    requires |t| == 0 || !IsDigit(t[0])
    ensures DigitPrefix(ds + t) == ds
  {
    if |ds| > 0 {
      assert (ds + t)[1..] == ds[1..] + t;
      DigitPrefixOf(ds[1..], t);
    } else {
      assert ds + t == t;
    }
  }

  /** A numeral that starts with a digit has no white space or sign to skip. */
  lemma {:induction false} NoSignNoSpace(s: string)
    requires |s| > 0 && IsDigit(s[0])
    ensures SignOf(TrimStart(s)) == (false, s)
  {
    assert !IsSpace(s[0]);
  }

  /** A numeral `-s` where `s` starts with a digit is read as negative `s`. */
  lemma {:induction false} MinusSign(s: string)
    requires |s| > 0 && IsDigit(s[0])
    ensures SignOf(TrimStart("-" + s)) == (true, s)
  {
    assert ("-" + s)[1..] == s;
  }

  /** `parseInt` reads back an unsigned digit run that ends the text or is
      followed by a non-digit. */
  lemma {:induction false} ParseIntDigits(ds: string, t: string)
    requires |ds| >= 1 && AllDigits(ds)
    requires |t| == 0 || !IsDigit(t[0])
    ensures ParseInt(ds + t) == Finite(DigitsValue(ds) as real)
  {
    NoSignNoSpace(ds + t);
    DigitPrefixOf(ds, t);
  }

  /** Without a radix, `parseInt` reads a run of decimal digits as
      `parseInt(s, 10)` does. */
  lemma {:induction false} ParseIntAutoDigits(ds: string)
    requires |ds| >= 1 && AllDigits(ds)
    ensures ParseIntAuto(ds) == ParseInt(ds)
  {
    NoSignNoSpace(ds);
    assert |ds| >= 2 ==> IsDigit(ds[1]);
  }

  /** `parseInt(String(n).padStart(w, '0')) == n`. */
  lemma {:induction false} ParseIntPadded(n: nat, width: nat)
    ensures ParseInt(PadStart(NatDigits(n), width, '0')) == Finite(n as real)
  {
    var p := PadStart(NatDigits(n), width, '0');
    NatDigitsValue(n);
    PaddedValue(NatDigits(n), width);
    ParseIntDigits(p, []);
    assert p + [] == p;
  }

  /** A zero-padded field of a number below `10^w` is exactly `w` wide. */
  lemma {:induction false} ZeroPadWidth(n: nat, width: nat)
    requires width >= 1 && n < Pow10(width)
    ensures |ZeroPad(n, width)| == width
  {
    NatDigitsLength(n, width);
  }

  /** The unsigned decimal reader takes a plain run of digits as an integer. */
  lemma {:induction false} UnsignedDecimalInteger(ds: string)
    requires |ds| >= 1 && AllDigits(ds)
    ensures UnsignedDecimal(ds) == Finite(DigitsValue(ds) as real)
  {
    DigitPrefixOf(ds, []);
    assert ds + [] == ds;
    assert Magnitude(ds, []) == DigitsValue(ds) as real;
  }

  /** `parseFloat` reads a run of digits as an integer. */
  lemma {:induction false} ParseFloatInteger(ds: string)
    requires |ds| >= 1 && AllDigits(ds)
    ensures ParseFloat(ds) == Finite(DigitsValue(ds) as real)
  {
    UnsignedDecimalInteger(ds);
    ParseFloatUnsigned(ds, DigitsValue(ds) as real);
  }

  /** `parseInt` and `parseFloat` both read a zero-padded field back. */
  lemma {:induction false} ZeroPadValue(n: nat, width: nat)
    ensures ParseInt(ZeroPad(n, width)) == Finite(n as real)
    ensures ParseFloat(ZeroPad(n, width)) == Finite(n as real)
    ensures ParseIntAuto(ZeroPad(n, width)) == Finite(n as real)
  {
    ParseIntPadded(n, width);
    NatDigitsValue(n);
    PaddedValue(NatDigits(n), width);
    ParseFloatInteger(ZeroPad(n, width));
    ParseIntAutoDigits(ZeroPad(n, width));
  }

  /** The unsigned decimal reader takes `whole.frac` exactly. */
  lemma {:induction false} UnsignedDecimalOf(whole: string, frac: string)
    requires |whole| >= 1 && AllDigits(whole) && AllDigits(frac)
    ensures UnsignedDecimal(whole + "." + frac) == Finite(Magnitude(whole, frac))
  {
    var s := whole + "." + frac;
    assert s == whole + ("." + frac);
    DigitPrefixOf(whole, "." + frac);
    assert s[|whole|..] == "." + frac;
    assert ("." + frac)[1..] == frac;
    DigitPrefixOf(frac, []);
    assert frac + [] == frac;
  }

  /** `parseFloat` is the unsigned reader applied after the sign. */
  lemma {:induction false} ParseFloatSigned(s: string, negative: bool, body: string)
    requires SignOf(TrimStart(s)) == (negative, body)
    ensures ParseFloat(s) == ApplySign(negative, UnsignedDecimal(body))
  {
  }

  /** A numeral starting with a digit is read by the unsigned reader alone. */
  lemma {:induction false} ParseFloatUnsigned(s: string, m: real)
    requires |s| > 0 && IsDigit(s[0])
    requires UnsignedDecimal(s) == Finite(m)
    ensures ParseFloat(s) == Finite(m)
  {
    NoSignNoSpace(s);
    ParseFloatSigned(s, false, s);
  }

  /** A minus sign before such a numeral negates its value. */
  lemma {:induction false} ParseFloatNegated(s: string, m: real)
    requires |s| > 0 && IsDigit(s[0])
    requires UnsignedDecimal(s) == Finite(m)
    ensures ParseFloat("-" + s) == Finite(-m)
  {
    MinusSign(s);
    ParseFloatSigned("-" + s, true, s);
  }

  /** `parseFloat` reads a decimal `whole.frac` exactly. */
  lemma {:induction false} ParseFloatDecimal(whole: string, frac: string)
    requires |whole| >= 1 && AllDigits(whole) && AllDigits(frac)
    ensures ParseFloat(whole + "." + frac) == Finite(Magnitude(whole, frac))
  {
    UnsignedDecimalOf(whole, frac);
    ParseFloatUnsigned(whole + "." + frac, Magnitude(whole, frac));
  }

  /** `toFixed` text of a scaled integer `n` is a numeral `whole.frac` whose
      value is `n / 10^f`. */
  lemma {:induction false} FixedDigitsParts(n: nat, f: nat) returns (whole: string, frac: string)
    requires f >= 1
    ensures |whole| >= 1 && AllDigits(whole) && AllDigits(frac)
    ensures FixedDigits(n, f) == whole + "." + frac
    ensures Magnitude(whole, frac) == Unscale(n, f)
    ensures whole == NatDigits(n / Pow10(f)) && |frac| == f
  {
    var p := Pow10(f);
    DivMod(n, p);
    var ip: nat := n / p;
    var fp: nat := n % p;
    whole := NatDigits(ip);
    frac := PadStart(NatDigits(fp), f, '0');
    PaddedValue(NatDigits(fp), f);
    NatDigitsLength(fp, f);
    NatDigitsValue(ip);
    NatDigitsValue(fp);
    ScaledSplit(n, f);
  }

  /** The `toFixed` text of a scaled integer is an unsigned numeral for
      `n / 10^f`. */
  lemma FixedDigitsNumeral(n: nat, f: nat)
    requires f >= 1
    ensures |FixedDigits(n, f)| > 0 && IsDigit(FixedDigits(n, f)[0])
    ensures UnsignedDecimal(FixedDigits(n, f)) == Finite(Unscale(n, f))
  {
    var whole, frac := FixedDigitsParts(n, f);
    UnsignedDecimalOf(whole, frac);
    assert FixedDigits(n, f)[0] == whole[0];
  }

  /** The value `toFixed(f)` denotes for a scaled integer `n`: `n / 10^f`. */
  lemma {:induction false} FixedDigitsValue(n: nat, f: nat)
    requires f >= 1
    ensures ParseFloat(FixedDigits(n, f)) == Finite(Unscale(n, f))
  {
    var t := FixedDigits(n, f);
    var m := Unscale(n, f);
    assert |t| > 0 && IsDigit(t[0]) && UnsignedDecimal(t) == Finite(m) by {
      FixedDigitsNumeral(n, f);
    }
    ParseFloatUnsigned(t, m);
  }

  /** The same text after a minus sign denotes `-n / 10^f`. */
  lemma {:induction false} NegativeFixedDigitsValue(n: nat, f: nat)
    requires f >= 1
    ensures ParseFloat("-" + FixedDigits(n, f)) == Finite(-Unscale(n, f))
  {
    var t := FixedDigits(n, f);
    var m := Unscale(n, f);
    assert |t| > 0 && IsDigit(t[0]) && UnsignedDecimal(t) == Finite(m) by {
      FixedDigitsNumeral(n, f);
    }
    ParseFloatNegated(t, m);
  }

  /** The text and the value of `toFixed` for a non-negative value. */
  lemma {:induction false} ToFixedNonNegative(v: real, f: nat)
    requires v >= 0.0
    ensures ToFixed(Finite(v), f) == FixedDigits(Round(Scale(v, f)), f)
    ensures FixedValue(v, f) == Unscale(Round(Scale(v, f)), f)
  {
  }

  /** The text and the value of `toFixed` for a negative value. */
  lemma {:induction false} ToFixedNegative(v: real, f: nat)
    requires v < 0.0
    ensures ToFixed(Finite(v), f) == "-" + FixedDigits(Round(Scale(-v, f)), f)
    ensures FixedValue(v, f) == -Unscale(Round(Scale(-v, f)), f)
  {
  }

  lemma {:induction false} ParseToFixedNonNegative(v: real, f: nat)
    requires f >= 1 && v >= 0.0
    ensures ParseFloat(ToFixed(Finite(v), f)) == Finite(FixedValue(v, f))
  {
    var n: nat := Round(Scale(v, f));
    FixedDigitsValue(n, f);
    ToFixedNonNegative(v, f);
  }

  lemma {:induction false} ParseToFixedNegative(v: real, f: nat)
    requires f >= 1 && v < 0.0
    ensures ParseFloat(ToFixed(Finite(v), f)) == Finite(FixedValue(v, f))
  {
    ToFixedNegative(v, f);
    NegativeFixedRead(ToFixed(Finite(v), f), FixedValue(v, f), Round(Scale(-v, f)), f);
  }

  lemma NegativeFixedRead(text: string, value: real, n: nat, f: nat)
    requires f >= 1 && text == "-" + FixedDigits(n, f) && value == -Unscale(n, f)
    ensures ParseFloat(text) == Finite(value)
  {
    NegativeFixedDigitsValue(n, f);
  }

  /** `parseFloat(x.toFixed(f))` reads back `x` rounded to `f` decimals. */
  lemma {:induction false} ParseToFixed(v: real, f: nat)
    requires f >= 1
    ensures ParseFloat(ToFixed(Finite(v), f)) == Finite(FixedValue(v, f))
  {
    if v < 0.0 {
      ParseToFixedNegative(v, f);
    } else {
      ParseToFixedNonNegative(v, f);
    }
  }

  /** Rounding to `f` decimals moves a value by at most half a unit in the
      last place. */
  lemma {:induction false} FixedValueError(v: real, f: nat)
    ensures -Unscale(1, f) / 2.0 <= FixedValue(v, f) - v <= Unscale(1, f) / 2.0
  {
    var a := if v < 0.0 then -v else v;
    var e := MagnitudeError(a, f);
    if v < 0.0 {
      assert FixedValue(v, f) == -(a + e);
    } else {
      assert FixedValue(v, f) == a + e;
    }
  }

  /** The rounding error of a non-negative value. */
  lemma {:induction false} MagnitudeError(a: real, f: nat) returns (e: real)
    requires a >= 0.0
    ensures Unscale(Round(Scale(a, f)), f) == a + e
    ensures -Unscale(1, f) / 2.0 <= e <= Unscale(1, f) / 2.0
  {
    var p := Pow10(f) as real;
    var n := Round(Scale(a, f));
    assert a * p - 0.5 < n as real <= a * p + 0.5;
    ScaledError(n as real, a, p);
    e := n as real / p - a;
    assert Unscale(1, f) / 2.0 == 0.5 / p;
  }

}

=== FILE: js_text.dfy ===
/** The JavaScript string operations the track code relies on, with their
    ECMAScript semantics: `trim`, `split` on one character, `join`,
    `substring`, `padStart`, `startsWith`, `includes` and ASCII case mapping.
    A JavaScript string is a sequence of UTF-16 code units; here it is a
    `string` of Unicode scalar values, which agree with the code units for
    every character of the Basic Multilingual Plane. */
module JsText {

  /** The WhiteSpace and LineTerminator code points that `trim`, `parseInt`
      and `parseFloat` skip. */
  predicate IsSpace(c: char) {
    || c == '\t' || c == '\n' || c == '\U{000B}' || c == '\U{000C}' || c == '\r'
    || c == ' ' || c == '\U{00A0}' || c == '\U{1680}'
    || ('\U{2000}' <= c <= '\U{200A}')
    || c == '\U{2028}' || c == '\U{2029}' || c == '\U{202F}' || c == '\U{205F}'
    || c == '\U{3000}' || c == '\U{FEFF}'
  }

  predicate NoSpace(s: string) {
    forall i :: 0 <= i < |s| ==> !IsSpace(s[i])
  }

  predicate AllSpace(s: string) {
    forall i :: 0 <= i < |s| ==> IsSpace(s[i])
  }

  /** `String.prototype.trimStart`. */
  function TrimStart(s: string): string {
    if |s| > 0 && IsSpace(s[0]) then TrimStart(s[1..]) else s
  }

  /** `String.prototype.trimEnd`. */
  function TrimEnd(s: string): string {
    if |s| > 0 && IsSpace(s[|s| - 1]) then TrimEnd(s[..|s| - 1]) else s
  }

  /** `trimStart` removes exactly the leading white space: what remains is a
      suffix that does not start with white space, and all that was cut off is
      white space. */
  lemma {:induction false} TrimStartShape(s: string)
    ensures |TrimStart(s)| <= |s| && TrimStart(s) == s[|s| - |TrimStart(s)|..]
    ensures |TrimStart(s)| > 0 ==> !IsSpace(TrimStart(s)[0])
    ensures AllSpace(s[..|s| - |TrimStart(s)|])
  {
    if |s| > 0 && IsSpace(s[0]) {
      TrimStartShape(s[1..]);
      assert s[..|s| - |TrimStart(s)|] == [s[0]] + s[1..][..|s| - 1 - |TrimStart(s)|];
    }
  }

  /** `trimEnd` removes exactly the trailing white space. */
  lemma {:induction false} TrimEndShape(s: string)
    ensures |TrimEnd(s)| <= |s| && TrimEnd(s) == s[..|TrimEnd(s)|]
    ensures |TrimEnd(s)| > 0 ==> !IsSpace(TrimEnd(s)[|TrimEnd(s)| - 1])
    ensures AllSpace(s[|TrimEnd(s)|..])
  {
    if |s| > 0 && IsSpace(s[|s| - 1]) {
      TrimEndShape(s[..|s| - 1]);
      assert s[|TrimEnd(s)|..] == s[..|s| - 1][|TrimEnd(s)|..] + [s[|s| - 1]];
    }
  }

  /** `String.prototype.trim`. */
  function Trim(s: string): string {
    TrimEnd(TrimStart(s))
  }

  /** A string is blank when `trim` leaves nothing: `filter(c => c.trim())`
      drops exactly these. */
  predicate IsBlank(s: string) {
    Trim(s) == []
  }

  lemma {:induction false} TrimStartSkipsSpace(w: string, t: string)
    requires AllSpace(w)
    requires |t| > 0 && !IsSpace(t[0])
    ensures TrimStart(w + t) == t
  {
    if |w| > 0 {
      assert (w + t)[1..] == w[1..] + t;
      TrimStartSkipsSpace(w[1..], t);
    } else {
      assert w + t == t;
    }
  }

  lemma {:induction false} TrimEndSkipsSpace(t: string, w: string)
    requires AllSpace(w)
    requires |t| > 0 && !IsSpace(t[|t| - 1])
    ensures TrimEnd(t + w) == t
  {
    if |w| > 0 {
      assert (t + w)[..|t + w| - 1] == t + w[..|w| - 1];
      TrimEndSkipsSpace(t, w[..|w| - 1]);
    } else {
      assert t + w == t;
    }
  }

  /** Trimming removes exactly the white space around a word whose ends are
      not white space. */
  lemma {:induction false} TrimAround(w1: string, t: string, w2: string)
    requires AllSpace(w1) && AllSpace(w2)
    requires |t| > 0 && !IsSpace(t[0]) && !IsSpace(t[|t| - 1])
    ensures Trim(w1 + t + w2) == t
  {
    assert w1 + t + w2 == w1 + (t + w2);
    TrimStartSkipsSpace(w1, t + w2);
    TrimEndSkipsSpace(t, w2);
  }

  lemma {:induction false} TrimWord(t: string)
    requires |t| > 0 && !IsSpace(t[0]) && !IsSpace(t[|t| - 1])
    ensures Trim(t) == t
  {
    TrimAround([], t, []);
    assert [] + t + [] == t;
  }

  lemma {:induction false} TrimAllSpace(w: string)
    requires AllSpace(w)
    ensures Trim(w) == []
  {
    if |w| > 0 {
      TrimAllSpace(w[1..]);
    }
  }

  /** `parts.join(sep)`. */
  function Join(parts: seq<string>, sep: string): string {
    if |parts| == 0 then []
    else if |parts| == 1 then parts[0]
    else parts[0] + sep + Join(parts[1..], sep)
  }

  /** `s.split(sep)` for a one-character separator: the maximal runs between
      separators, including the empty ones at either end. */
  function Split(s: string, sep: char): (parts: seq<string>)
    ensures |parts| >= 1
    ensures forall i :: 0 <= i < |parts| ==> sep !in parts[i]
    ensures Join(parts, [sep]) == s
  {
    if |s| == 0 then [[]]
    else
      var rest := Split(s[1..], sep);
      if s[0] == sep then
        [[]] + rest
      else
        assert Join(rest, [sep]) == rest[0] + (if |rest| == 1 then [] else [sep] + Join(rest[1..], [sep]));
        [[s[0]] + rest[0]] + rest[1..]
  }

  /** Splitting a word free of the separator gives the word alone. */
  lemma {:induction false} SplitWord(p: string, sep: char)
    requires sep !in p
    ensures Split(p, sep) == [p]
  {
    if |p| > 0 {
      SplitWord(p[1..], sep);
    }
  }

  /** A leading separator-free word followed by the separator is split off
      as the first part. */
  lemma {:induction false} SplitFirst(p: string, sep: char, t: string)
    requires sep !in p
    ensures Split(p + [sep] + t, sep) == [p] + Split(t, sep)
  {
    if |p| == 0 {
      assert p + [sep] + t == [sep] + t;
      assert ([sep] + t)[1..] == t;
    } else {
      assert (p + [sep] + t)[1..] == p[1..] + [sep] + t;
      SplitFirst(p[1..], sep, t);
      assert p == [p[0]] + p[1..];
    }
  }

  /** `split` inverts `join` when no part holds the separator. */
  lemma {:induction false} SplitJoin(parts: seq<string>, sep: char)
    requires |parts| >= 1
    requires forall i :: 0 <= i < |parts| ==> sep !in parts[i]
    ensures Split(Join(parts, [sep]), sep) == parts
  {
    if |parts| == 1 {
      SplitWord(parts[0], sep);
    } else {
      SplitJoin(parts[1..], sep);
      SplitFirst(parts[0], sep, Join(parts[1..], [sep]));
      assert parts == [parts[0]] + parts[1..];
    }
  }

  /** Joining one more part appends the separator and that part. */
  lemma {:induction false} JoinAppend(parts: seq<string>, sep: string, x: string)
    requires |parts| >= 1
    ensures Join(parts + [x], sep) == Join(parts, sep) + sep + x
  {
    if |parts| > 1 {
      assert (parts + [x])[1..] == parts[1..] + [x];
      JoinAppend(parts[1..], sep, x);
    }
  }

  /** The last part of a split is what follows the last separator. */
  lemma SplitLast(s: string, sep: char, x: string)
    requires sep !in x
    ensures var parts := Split(s + [sep] + x, sep); |parts| >= 2 && parts[|parts| - 1] == x
  {
    var parts := Split(s, sep);
    JoinAppend(parts, [sep], x);
    SplitJoin(parts + [x], sep);
  }

  /** The concatenation of `lines`, each followed by a line feed: the shape of
      a text file written line by line. */
  function Terminated(lines: seq<string>): string {
    if |lines| == 0 then [] else lines[0] + "\n" + Terminated(lines[1..])
  }

  /** Splitting a line-feed-terminated text on line feeds gives back its lines
      followed by one empty string. */
  lemma {:induction false} SplitTerminated(lines: seq<string>)
    requires forall i :: 0 <= i < |lines| ==> '\n' !in lines[i]
    ensures Split(Terminated(lines), '\n') == lines + [[]]
  {
    if |lines| > 0 {
      SplitTerminated(lines[1..]);
      SplitFirst(lines[0], '\n', Terminated(lines[1..]));
      assert lines == [lines[0]] + lines[1..];
    }
  }

  /** `s.substring(start, end)`: both indices are clamped to `[0, |s|]` and
      swapped when out of order. */
  function Substring(s: string, start: int, end: int): (r: string)
    ensures |r| <= |s|
  {
    var a := if start < 0 then 0 else if start > |s| then |s| else start;
    var b := if end < 0 then 0 else if end > |s| then |s| else end;
    if a <= b then s[a..b] else s[b..a]
  }

  /** `s.substring(start)`. */
  function SubstringFrom(s: string, start: int): string {
    Substring(s, start, |s|)
  }

  function Repeat(c: char, n: nat): (r: string)
    ensures |r| == n
    ensures forall i :: 0 <= i < n ==> r[i] == c
  {
    if n == 0 then [] else [c] + Repeat(c, n - 1)
  }

  /** `s.padStart(width, c)` with a one-character filler. */
  function PadStart(s: string, width: nat, c: char): (r: string)
    ensures |r| == if |s| >= width then |s| else width
  {
    if |s| >= width then s else Repeat(c, width - |s|) + s
  }

  /** The padded text ends with the original and starts with fillers. */
  lemma PadStartShape(s: string, width: nat, c: char)
    ensures var r := PadStart(s, width, c);
            r[|r| - |s|..] == s && forall i :: 0 <= i < |r| - |s| ==> r[i] == c
  {
    if |s| < width {
      var r := PadStart(s, width, c);
      assert r == Repeat(c, width - |s|) + s;
    }
  }

  /** `s.startsWith(prefix)`. */
  predicate StartsWith(s: string, prefix: string) {
    prefix <= s
  }

  /** `s.includes(t)`. */
  predicate Includes(s: string, t: string) {
    t <= s || (|s| > 0 && Includes(s[1..], t))
  }

  function LowerChar(c: char): char {
    if 'A' <= c <= 'Z' then (c as int + 32) as char else c
  }

  function UpperChar(c: char): char {
    if 'a' <= c <= 'z' then (c as int - 32) as char else c
  }

  /** `toLowerCase` restricted to the ASCII letters. */
  function Lower(s: string): (r: string)
    ensures |r| == |s|
    ensures forall i :: 0 <= i < |s| ==> r[i] == LowerChar(s[i])
  {
    if |s| == 0 then [] else [LowerChar(s[0])] + Lower(s[1..])
  }

  /** `toUpperCase` restricted to the ASCII letters. */
  function Upper(s: string): (r: string)
    ensures |r| == |s|
    ensures forall i :: 0 <= i < |s| ==> r[i] == UpperChar(s[i])
  {
    if |s| == 0 then [] else [UpperChar(s[0])] + Upper(s[1..])
  }
}

=== FILE: real_seqs.dfy ===
/** Sums, extrema and mean bounds of a sequence of exact reals: what the
    track statistics and the FIT centroid compute with `reduce`, `Math.min`
    and `Math.max`. */
module RealSeqs {

  /** The sum of the values, added from the left: both `a.reduce((a, b) => a + b)`
      and `a.reduce((sum, x) => sum + x, 0)` compute it. */
  function Sum(a: seq<real>): real {
    if |a| == 0 then 0.0 else Sum(a[..|a| - 1]) + a[|a| - 1]
  }

  /** `Math.min(...a)` of a non-empty array. */
  function MinOf(a: seq<real>): (m: real)
    requires |a| > 0
    ensures m in a
    ensures forall i :: 0 <= i < |a| ==> m <= a[i]
  {
    if |a| == 1 then a[0]
    else
      var m := MinOf(a[1..]);
      assert forall i :: 1 <= i < |a| ==> a[i] == a[1..][i - 1];
      if a[0] <= m then a[0] else m
  }

  /** `Math.max(...a)` of a non-empty array. */
  function MaxOf(a: seq<real>): (m: real)
    requires |a| > 0
    ensures m in a
    ensures forall i :: 0 <= i < |a| ==> a[i] <= m
  {
    if |a| == 1 then a[0]
    else
      var m := MaxOf(a[1..]);
      assert forall i :: 1 <= i < |a| ==> a[i] == a[1..][i - 1];
      if a[0] >= m then a[0] else m
  }

  /** A sum of values at least `lo` is at least `|a|` times `lo`. */
  lemma {:induction false} SumAtLeast(a: seq<real>, lo: real)
    requires forall i :: 0 <= i < |a| ==> lo <= a[i]
    ensures |a| as real * lo <= Sum(a)
  {
    if |a| > 0 {
      var p := a[..|a| - 1];
      assert forall i :: 0 <= i < |p| ==> p[i] == a[i];
      SumAtLeast(p, lo);
      assert |a| as real * lo == |p| as real * lo + lo;
    }
  }

  /** A sum of values at most `hi` is at most `|a|` times `hi`. */
  lemma {:induction false} SumAtMost(a: seq<real>, hi: real)
    requires forall i :: 0 <= i < |a| ==> a[i] <= hi
    ensures Sum(a) <= |a| as real * hi
  {
    if |a| > 0 {
      var p := a[..|a| - 1];
      assert forall i :: 0 <= i < |p| ==> p[i] == a[i];
      SumAtMost(p, hi);
      assert |a| as real * hi == |p| as real * hi + hi;
    }
  }

  lemma DivAtLeast(total: real, n: real, lo: real)
    requires n > 0.0 && n * lo <= total
    ensures lo <= total / n
  {
    assert total / n * n == total;
  }

  lemma DivAtMost(total: real, n: real, hi: real)
    requires n > 0.0 && total <= n * hi
    ensures total / n <= hi
  {
    assert total / n * n == total;
  }

  /** The mean of a non-empty array is at least any lower bound of its
      elements, its minimum in particular. */
  lemma MeanAtLeast(a: seq<real>, lo: real)
    requires |a| > 0
    requires forall i :: 0 <= i < |a| ==> lo <= a[i]
    ensures lo <= Sum(a) / |a| as real
  {
    SumAtLeast(a, lo);
    DivAtLeast(Sum(a), |a| as real, lo);
  }

  /** The mean of a non-empty array is at most any upper bound of its
      elements, its maximum in particular. */
  lemma MeanAtMost(a: seq<real>, hi: real)
    requires |a| > 0
    requires forall i :: 0 <= i < |a| ==> a[i] <= hi
    ensures Sum(a) / |a| as real <= hi
  {
    SumAtMost(a, hi);
    DivAtMost(Sum(a), |a| as real, hi);
  }
}

=== FILE: seqs.dfy ===
/** The two array idioms the track code builds its results with: `filter`,
    and `forEach` pushing the values a per-element decoder accepts. */
module Seqs {
  import opened Wrappers

  /** `Array.prototype.filter`: the elements that satisfy `keep`, in order. */
  function Filter<T>(keep: T -> bool, s: seq<T>): (r: seq<T>)
    ensures |r| <= |s|
    ensures forall i :: 0 <= i < |r| ==> keep(r[i])
  {
    if |s| == 0 then []
    else (if keep(s[0]) then [s[0]] else []) + Filter(keep, s[1..])
  }

  /** `r` is `s` with some elements left out and the others in their
      original order. */
  predicate Subsequence<T(==)>(r: seq<T>, s: seq<T>)
    decreases |s|
  {
    if |r| == 0 then true
    else if |s| == 0 then false
    else (r[0] == s[0] && Subsequence(r[1..], s[1..])) || Subsequence(r, s[1..])
  }

  /** `filter` only leaves elements out: what it keeps stays in input
      order. */
  lemma {:induction false} FilterSubsequence<T>(keep: T -> bool, s: seq<T>)
    ensures Subsequence(Filter(keep, s), s)
  {
    if |s| > 0 {
      FilterSubsequence(keep, s[1..]);
      var r := Filter(keep, s);
      if keep(s[0]) {
        assert r[0] == s[0] && r[1..] == Filter(keep, s[1..]);
      } else {
        assert r == Filter(keep, s[1..]);
      }
    }
  }

  /** A `forEach` loop that pushes `f(x)` for every element `x` it accepts. */
  function FilterMap<T, U>(f: T -> Option<U>, s: seq<T>): (r: seq<U>)
    ensures |r| <= |s|
  {
    if |s| == 0 then []
    else (match f(s[0]) case None => [] case Some(u) => [u]) + FilterMap(f, s[1..])
  }

  /** `filter` distributes over concatenation: it keeps the input order. */
  lemma {:induction false} FilterConcat<T>(keep: T -> bool, a: seq<T>, b: seq<T>)
    ensures Filter(keep, a + b) == Filter(keep, a) + Filter(keep, b)
  {
    if |a| == 0 {
      assert a + b == b;
    } else {
      assert (a + b)[1..] == a[1..] + b;
      FilterConcat(keep, a[1..], b);
    }
  }

  /** An element survives `filter` exactly when it is in the input and
      satisfies the predicate. */
  lemma {:induction false} FilterMembers<T>(keep: T -> bool, s: seq<T>, x: T)
    ensures x in Filter(keep, s) <==> x in s && keep(x)
  {
    if |s| > 0 {
      FilterMembers(keep, s[1..], x);
      assert s == [s[0]] + s[1..];
    }
  }

  /** `filter` keeps everything exactly when every element satisfies it. */
  lemma {:induction false} FilterAll<T>(keep: T -> bool, s: seq<T>)
    ensures Filter(keep, s) == s <==> forall i :: 0 <= i < |s| ==> keep(s[i])
  {
    if |s| > 0 {
      FilterAll(keep, s[1..]);
      assert forall i :: 1 <= i < |s| ==> s[i] == s[1..][i - 1];
      if !keep(s[0]) {
        assert |Filter(keep, s)| <= |s[1..]| < |s|;
      }
    }
  }

  /** The pushing loop distributes over concatenation. */
  lemma {:induction false} FilterMapConcat<T, U>(f: T -> Option<U>, a: seq<T>, b: seq<T>)
    ensures FilterMap(f, a + b) == FilterMap(f, a) + FilterMap(f, b)
  {
    if |a| == 0 {
      assert a + b == b;
    } else {
      assert (a + b)[1..] == a[1..] + b;
      FilterMapConcat(f, a[1..], b);
    }
  }

  /** The pushing loop produces nothing exactly when it accepts nothing. */
  lemma {:induction false} FilterMapEmpty<T, U>(f: T -> Option<U>, s: seq<T>)
    ensures FilterMap(f, s) == [] <==> forall i :: 0 <= i < |s| ==> f(s[i]).None?
  {
    if |s| > 0 {
      FilterMapEmpty(f, s[1..]);
      assert forall i :: 1 <= i < |s| ==> s[i] == s[1..][i - 1];
    }
  }

  /** When every element is accepted, the loop pushes one value per element,
      in order. */
  lemma {:induction false} FilterMapAll<T, U>(f: T -> Option<U>, s: seq<T>)
    requires forall i :: 0 <= i < |s| ==> f(s[i]).Some?
    ensures |FilterMap(f, s)| == |s|
    ensures forall i :: 0 <= i < |s| ==> FilterMap(f, s)[i] == f(s[i]).value
  {
    if |s| > 0 {
      FilterMapAll(f, s[1..]);
      assert forall i :: 1 <= i < |s| ==> s[i] == s[1..][i - 1];
    }
  }

  /** Every pushed value comes from an accepted element. */
  lemma {:induction false} FilterMapFrom<T, U>(f: T -> Option<U>, s: seq<T>, u: U)
    requires u in FilterMap(f, s)
    ensures exists i :: 0 <= i < |s| && f(s[i]) == Some(u)
  {
    if f(s[0]).Some? && f(s[0]).value == u {
      assert f(s[0]) == Some(u);
    } else {
      FilterMapFrom(f, s[1..], u);
      var i :| 0 <= i < |s[1..]| && f(s[1..][i]) == Some(u);
      assert s[1..][i] == s[i + 1];
    }
  }

  /** Two loops whose decoders agree element by element push the same
      values. */
  lemma {:induction false} FilterMapPointwise<T, V, U>(f: T -> Option<U>, a: seq<T>, g: V -> Option<U>, b: seq<V>)
    requires |a| == |b|
    requires forall i :: 0 <= i < |a| ==> f(a[i]) == g(b[i])
    ensures FilterMap(f, a) == FilterMap(g, b)
  {
    if |a| > 0 {
      assert forall i :: 1 <= i < |a| ==> a[i] == a[1..][i - 1] && b[i] == b[1..][i - 1];
      FilterMapPointwise(f, a[1..], g, b[1..]);
    }
  }
}

=== FILE: trace_decode.dfy ===
/** The decoding half of TraceConverter (conversion_trace.js): the format
    dispatch of `parse`, the point-extraction rules of `parseGPX`,
    `parseKML` and `parseTCX` applied to the answers of the XML parser, and
    the lenient IGC reader `parseIGC`. */
module TraceDecode {
  import opened Wrappers
  import opened JsText
  import opened JsNumber
  import opened Seqs

  /** One point of TraceConverter's common representation. A timestamp is
      kept as the text it was read from. */
  datatype TracePoint = TracePoint(lat: Num, lon: Num, elevation: Num, timestamp: Option<string>)

  /** The object every parser returns and every writer consumes. */
  datatype TraceData = TraceData(format: string, points: seq<TracePoint>, name: string, description: string)

  /** The formats `parse` dispatches to. */
  datatype Format = Gpx | Kml | Igc | Tcx

  /** The lower-case tag of a format. */
  function FormatTag(f: Format): string {
    match f
    case Gpx => "gpx"
    case Kml => "kml"
    case Igc => "igc"
    case Tcx => "tcx"
  }

  /** The dispatch of `parse`: the tag is lower-cased and trimmed; anything
      but the four tags is refused with the original text in the message. */
  function ParseFormat(format: string): (r: Result<Format, string>)
    ensures r.Success? ==> FormatTag(r.value) == Trim(Lower(format))
    ensures r.Failure? ==> r.error == "Format non supporté: " + format
  {
    var clean := Trim(Lower(format));
    if clean == "gpx" then Success(Gpx)
    else if clean == "kml" then Success(Kml)
    else if clean == "igc" then Success(Igc)
    else if clean == "tcx" then Success(Tcx)
    else Failure("Format non supporté: " + format)
  }

  lemma LowerSpace(w: string)
    requires AllSpace(w)
    ensures Lower(w) == w
  {
  }

  lemma {:induction false} LowerConcat(a: string, b: string)
    ensures Lower(a + b) == Lower(a) + Lower(b)
  {
  }

  /** Each tag is accepted in any letter case and with white space around it. */
  lemma ParseFormatTolerant(f: Format, w1: string, w2: string, upper: bool)
    requires AllSpace(w1) && AllSpace(w2)
    ensures ParseFormat(w1 + (if upper then Upper(FormatTag(f)) else FormatTag(f)) + w2) == Success(f)
  {
    var t := FormatTag(f);
    var u := if upper then Upper(t) else t;
    assert Lower(u) == t;
    LowerAround(w1, u, w2);
    TrimAround(w1, t, w2);
  }

  /** Lower-casing leaves the white space around a word alone. */
  lemma LowerAround(w1: string, u: string, w2: string)
    requires AllSpace(w1) && AllSpace(w2)
    ensures Lower(w1 + u + w2) == w1 + Lower(u) + w2
  {
    LowerConcat(w1 + u, w2);
    LowerConcat(w1, u);
    LowerSpace(w1);
    LowerSpace(w2);
  }

  /** Every tag is distinct, so the dispatch is exact. */
  lemma ParseFormatExact(format: string, f: Format)
    ensures ParseFormat(format) == Success(f) <==> Trim(Lower(format)) == FormatTag(f)
  {
  }

  /** A binary FIT tag is not among the converter's formats. */
  lemma FitRejected()
    ensures ParseFormat("fit") == Failure("Format non supporté: fit")
  {
    var t := "fit";
    assert Lower(t) == t;
    TrimWord(t);
    assert t[0] != "gpx"[0] && t[0] != "kml"[0] && t[0] != "igc"[0] && t[0] != "tcx"[0];
    assert Trim(Lower(t)) == t;
    assert ParseFormat(t) == Failure("Format non supporté: " + t);
    assert "Format non supporté: " + t == "Format non supporté: fit";
  }

  /** `parseFloat` of an attribute or a node text that may be missing: a
      missing one reads as `undefined` or `null`, which is NaN. */
  function ParseFloatOpt(s: Option<string>): (r: Num)
    ensures s.None? ==> r.NaN?
  {
    match s
    case None => NaN
    case Some(t) => ParseFloat(t)
  }

  /** `x?.textContent || fallback`. */
  function TextOr(s: Option<string>, fallback: string): (r: string)
    ensures r == fallback || (s.Some? && r == s.value && r != [])
  {
    if s.Some? && s.value != [] then s.value else fallback
  }

  // ----- GPX and TCX: rules applied to the nodes the XML parser found -----

  /** A `trkpt` element: its `lat` and `lon` attributes and the text of its
      `ele` and `time` children, each possibly missing. */
  datatype GpxTrackPoint = GpxTrackPoint(lat: Option<string>, lon: Option<string>,
                                         ele: Option<string>, time: Option<string>)

  /** A `Trackpoint` element of TCX. */
  datatype TcxTrackPoint = TcxTrackPoint(position: Option<TcxPosition>, altitude: Option<string>,
                                         time: Option<string>)

  datatype TcxPosition = TcxPosition(latitude: Option<string>, longitude: Option<string>)

  /** The point `parseGPX` pushes for a `trkpt`, if its coordinates are
      numbers; a missing `ele` reads as 0. */
  function GpxPoint(pt: GpxTrackPoint): (r: Option<TracePoint>)
    ensures r.Some? <==> ParseFloatOpt(pt.lat).Finite? && ParseFloatOpt(pt.lon).Finite?
    ensures r.Some? ==> r.value.lat == ParseFloatOpt(pt.lat) && r.value.lon == ParseFloatOpt(pt.lon)
    ensures r.Some? && pt.ele.None? ==> r.value.elevation == Finite(0.0)
    ensures r.Some? && pt.ele.Some? ==> r.value.elevation == ParseFloat(pt.ele.value)
    ensures r.Some? ==> r.value.timestamp == pt.time
  {
    var lat := ParseFloatOpt(pt.lat);
    var lon := ParseFloatOpt(pt.lon);
    if lat.Finite? && lon.Finite? then
      Some(TracePoint(lat, lon, if pt.ele.Some? then ParseFloat(pt.ele.value) else Finite(0.0), pt.time))
    else None
  }

  /** The point `parseTCX` pushes for a `Trackpoint` with a numeric
      position; a missing altitude reads as 0. */
  function TcxPoint(tp: TcxTrackPoint): (r: Option<TracePoint>)
    ensures r.Some? <==> tp.position.Some? && ParseFloatOpt(tp.position.value.latitude).Finite?
                         && ParseFloatOpt(tp.position.value.longitude).Finite?
    ensures r.Some? ==> r.value.lat == ParseFloatOpt(tp.position.value.latitude)
                        && r.value.lon == ParseFloatOpt(tp.position.value.longitude)
    ensures r.Some? && tp.altitude.None? ==> r.value.elevation == Finite(0.0)
    ensures r.Some? && tp.altitude.Some? ==> r.value.elevation == ParseFloat(tp.altitude.value)
    ensures r.Some? ==> r.value.timestamp == tp.time
  {
    match tp.position
    case None => None
    case Some(pos) =>
      var lat := ParseFloatOpt(pos.latitude);
      var lon := ParseFloatOpt(pos.longitude);
      if lat.Finite? && lon.Finite? then
        Some(TracePoint(lat, lon, if tp.altitude.Some? then ParseFloat(tp.altitude.value) else Finite(0.0), tp.time))
      else None
  }

  // ----- KML coordinates -----

  /** The point `parseKML` pushes for one `lon,lat[,ele]` line: `undefined`
      and NaN elevations read as 0, and a line whose latitude or longitude
      is not a number is skipped. */
  function KmlLinePoint(line: string): (r: Option<TracePoint>)
    ensures var parts := Split(Trim(line), ',');
            r.Some? <==> |parts| >= 2 && ParseFloat(parts[0]).Finite? && ParseFloat(parts[1]).Finite?
    ensures var parts := Split(Trim(line), ',');
            r.Some? ==> r.value.lon == ParseFloat(parts[0]) && r.value.lat == ParseFloat(parts[1])
    ensures var parts := Split(Trim(line), ',');
            r.Some? && |parts| >= 3 && ParseFloat(parts[2]).Finite? ==> r.value.elevation == ParseFloat(parts[2])
    ensures var parts := Split(Trim(line), ',');
            r.Some? && (|parts| < 3 || ParseFloat(parts[2]).NaN?) ==> r.value.elevation == Finite(0.0)
    ensures r.Some? ==> r.value.lat.Finite? && r.value.lon.Finite? && r.value.elevation.Finite?
    ensures r.Some? ==> r.value.timestamp.None?
  {
    var parts := Split(Trim(line), ',');
    var lon := ParseFloat(parts[0]);
    var lat := if |parts| >= 2 then ParseFloat(parts[1]) else NaN;
    var elevation := if |parts| >= 3 then ParseFloat(parts[2]) else NaN;
    if lat.NaN? || lon.NaN? then None
    else Some(TracePoint(lat, lon, Or(elevation, Finite(0.0)), None))
  }

  predicate NotBlank(line: string) {
    !IsBlank(line)
  }

  /** The lines of a `coordinates` text: trimmed, split on line feeds only,
      blank lines dropped. */
  function KmlLines(text: string): seq<string> {
    Filter(NotBlank, Split(Trim(text), '\n'))
  }

  /** The points of one `coordinates` text, in line order. */
  function KmlCoordinates(text: string): seq<TracePoint> {
    FilterMap(KmlLinePoint, KmlLines(text))
  }

  // ----- the answers of the XML parser -----

  /** What `parseGPX`, `parseKML` and `parseTCX` ask of the parsed document:
      whether a `parsererror` element exists, the elements they iterate over,
      and the texts of the name and description elements they look up. */
  datatype XmlDocument = XmlDocument(
    parserError: bool,
    trkpts: seq<GpxTrackPoint>, trkName: Option<string>, trkDesc: Option<string>,
    placemarks: seq<Placemark>, placemarkName: Option<string>, placemarkDesc: Option<string>,
    trackpoints: seq<TcxTrackPoint>, activityId: Option<string>)

  /** A `Placemark`: its `LineString` child, if any, and that child's
      `coordinates` text, if any. */
  datatype Placemark = Placemark(lineString: Option<Option<string>>)

  const InvalidXml := "XML invalide"

  function ParseGpx(doc: XmlDocument): (r: Result<TraceData, string>)
    ensures r.Failure? <==> doc.parserError
    ensures r.Failure? ==> r.error == InvalidXml
    ensures r.Success? ==> r.value.format == "GPX" && r.value.points == FilterMap(GpxPoint, doc.trkpts)
    ensures r.Success? ==> r.value.name == TextOr(doc.trkName, "Trace GPS") && r.value.description == TextOr(doc.trkDesc, "")
  {
    if doc.parserError then Failure(InvalidXml)
    else Success(TraceData("GPX", FilterMap(GpxPoint, doc.trkpts),
                           TextOr(doc.trkName, "Trace GPS"), TextOr(doc.trkDesc, "")))
  }

  /** The points of one `Placemark`: none without a `LineString`. */
  function PlacemarkPoints(pm: Placemark): seq<TracePoint> {
    match pm.lineString
    case None => []
    case Some(coords) => KmlCoordinates(TextOr(coords, ""))
  }

  function PlacemarksPoints(pms: seq<Placemark>): seq<TracePoint> {
    if |pms| == 0 then [] else PlacemarkPoints(pms[0]) + PlacemarksPoints(pms[1..])
  }

  /** The placemarks are read one after the other: the points of a list of
      placemarks are those of its first part followed by those of the
      rest. */
  lemma {:induction false} PlacemarksConcat(a: seq<Placemark>, b: seq<Placemark>)
    ensures PlacemarksPoints(a + b) == PlacemarksPoints(a) + PlacemarksPoints(b)
  {
    if |a| == 0 {
      assert a + b == b;
    } else {
      assert (a + b)[1..] == a[1..] + b;
      PlacemarksConcat(a[1..], b);
    }
  }

  function ParseKml(doc: XmlDocument): (r: Result<TraceData, string>)
    ensures r.Failure? <==> doc.parserError
    ensures r.Failure? ==> r.error == InvalidXml
    ensures r.Success? ==> r.value.format == "KML" && r.value.points == PlacemarksPoints(doc.placemarks)
    ensures r.Success? ==> r.value.name == TextOr(doc.placemarkName, "Trace GPS") && r.value.description == TextOr(doc.placemarkDesc, "")
  {
    if doc.parserError then Failure(InvalidXml)
    else Success(TraceData("KML", PlacemarksPoints(doc.placemarks),
                           TextOr(doc.placemarkName, "Trace GPS"), TextOr(doc.placemarkDesc, "")))
  }

  function ParseTcx(doc: XmlDocument): (r: Result<TraceData, string>)
    ensures r.Failure? <==> doc.parserError
    ensures r.Failure? ==> r.error == InvalidXml
    ensures r.Success? ==> r.value.format == "TCX" && r.value.points == FilterMap(TcxPoint, doc.trackpoints)
    ensures r.Success? ==> r.value.name == TextOr(doc.activityId, "Trace TCX") && r.value.description == ""
  {
    if doc.parserError then Failure(InvalidXml)
    else Success(TraceData("TCX", FilterMap(TcxPoint, doc.trackpoints),
                           TextOr(doc.activityId, "Trace TCX"), ""))
  }

  // ----- the lenient IGC reader -----

  /** `new Date(year, month - 1, day)` as its three arguments. */
  datatype IgcDate = IgcDate(year: Num, monthIndex: Num, day: Num)

  /** `line.substring(0, 1) === 'B'`. */
  predicate IsBLine(line: string) {
    |line| > 0 && line[0] == 'B'
  }

  predicate IsHLine(line: string) {
    |line| > 0 && line[0] == 'H'
  }

  /** `'S'` or `'W'` in the hemisphere column negates; any other letter,
      or none, leaves the value positive. */
  function Hemisphere(line: string, at: nat, negative: char, v: Num): Num {
    if |line| > at && line[at] == negative then Negate(v) else v
  }

  /** The point `parseIGC` pushes for a B line: degrees and decimal minutes
      read at the fixed columns with no check of length or hemisphere
      letter, and the GPS altitude unless it is 0 or NaN, then the pressure
      altitude. What it recovers from a line `toIGC` wrote is stated by
      `BLineReadBack` and `IgcRoundTrip` in the IgcWrite module. */
  function IgcFixPoint(line: string): TracePoint {
    var latDeg := ParseIntAuto(Substring(line, 7, 9));
    var latMin := ParseFloat(Substring(line, 9, 14));
    var lonDeg := ParseIntAuto(Substring(line, 15, 18));
    var lonMin := ParseFloat(Substring(line, 18, 23));
    var pressureAlt := ParseIntAuto(Substring(line, 25, 30));
    var gpsAlt := ParseIntAuto(Substring(line, 30, 35));
    var lat := Add(latDeg, DivBy(latMin, 60.0));
    var lon := Add(lonDeg, DivBy(lonMin, 60.0));
    TracePoint(Hemisphere(line, 14, 'S', lat), Hemisphere(line, 23, 'W', lon), Or(gpsAlt, pressureAlt), None)
  }

  function IgcLinePoint(line: string): (r: Option<TracePoint>)
    ensures r.Some? <==> IsBLine(line)
  {
    if IsBLine(line) then Some(IgcFixPoint(line)) else None
  }

  /** The flight date and pilot name read so far. */
  datatype IgcHeader = IgcHeader(name: string, date: Option<IgcDate>)

  /** The date of an `HFDTE` line: `ddmmyy` at columns 6 to 11, with the
      year taken in the 2000s. */
  function HeaderDate(line: string): IgcDate {
    var dateStr := Substring(line, 6, 12);
    var day := ParseIntAuto(Substring(dateStr, 0, 2));
    var month := ParseIntAuto(Substring(dateStr, 2, 4));
    var year := Add(ParseIntAuto(Substring(dateStr, 4, 6)), Finite(2000.0));
    IgcDate(year, Add(month, Finite(-1.0)), day)
  }

  /** The pilot name of an `HFPLT` line as `parseIGC` reads it: from column
      8 on, trimmed. */
  function HeaderName(line: string): string {
    Trim(SubstringFrom(line, 8))
  }

  /** What one line changes in the header: an H line mentioning `HFDTE`
      sets the date, one mentioning `HFPLT` sets the name. */
  function ReadHeader(h: IgcHeader, line: string): IgcHeader {
    var h1 := if IsHLine(line) && Includes(line, "HFDTE") then h.(date := Some(HeaderDate(line))) else h;
    if IsHLine(line) && Includes(line, "HFPLT") then h1.(name := HeaderName(line)) else h1
  }

  const DefaultIgcName := "Trace IGC"

  /** The header after reading `lines` in order. */
  function Headers(lines: seq<string>): IgcHeader {
    if |lines| == 0 then IgcHeader(DefaultIgcName, None)
    else ReadHeader(Headers(lines[..|lines| - 1]), lines[|lines| - 1])
  }

  lemma IgcStep(lines: seq<string>, i: nat)
    requires i < |lines|
    ensures FilterMap(IgcLinePoint, lines[..i + 1])
            == FilterMap(IgcLinePoint, lines[..i]) + (if IsBLine(lines[i]) then [IgcFixPoint(lines[i])] else [])
    ensures Headers(lines[..i + 1]) == ReadHeader(Headers(lines[..i]), lines[i])
  {
    var a := lines[..i];
    assert lines[..i + 1] == a + [lines[i]];
    IgcPointsSnoc(a, lines[i]);
    HeadersSnoc(a, lines[i]);
  }

  /** One more line adds its point, if it is a B line. */
  lemma IgcPointsSnoc(a: seq<string>, x: string)
    ensures FilterMap(IgcLinePoint, a + [x]) == FilterMap(IgcLinePoint, a) + (if IsBLine(x) then [IgcFixPoint(x)] else [])
  {
    FilterMapConcat(IgcLinePoint, a, [x]);
    assert [x][1..] == [];
  }

  /** One more line updates the header read so far. */
  lemma HeadersSnoc(a: seq<string>, x: string)
    ensures Headers(a + [x]) == ReadHeader(Headers(a), x)
  {
    assert (a + [x])[..|a|] == a;
  }

  /** The loop of `parseIGC` over the lines of the file. */
  method ReadIgcLines(lines: seq<string>) returns (points: seq<TracePoint>, header: IgcHeader)
    ensures points == FilterMap(IgcLinePoint, lines)
    ensures header == Headers(lines)
  {
    points := [];
    header := IgcHeader(DefaultIgcName, None);
    var i := 0;
    while i < |lines|
      invariant 0 <= i <= |lines|
      invariant points == FilterMap(IgcLinePoint, lines[..i])
      invariant header == Headers(lines[..i])
    {
      var line := lines[i];
      IgcStep(lines, i);
      if IsBLine(line) {
        points := points + [IgcFixPoint(line)];
      }
      header := ReadHeader(header, line);
      i := i + 1;
    }
    assert lines[..i] == lines;
  }

  /** The description `parseIGC` writes: the flight date in the host's
      locale format, or `Inconnue`. */
  function IgcDescription(date: Option<IgcDate>, localeDate: IgcDate -> string): string {
    "Date: " + (match date case Some(d) => localeDate(d) case None => "Inconnue")
  }

  /** The points of `parseIGC`: one per B line, in line order. */
  function IgcPoints(content: string): seq<TracePoint> {
    FilterMap(IgcLinePoint, Split(content, '\n'))
  }

  /** `parseIGC`. The date is shown with the host's `toLocaleDateString`. */
  function ParseIgc(content: string, localeDate: IgcDate -> string): (r: TraceData)
    ensures r.format == "IGC"
    ensures r.name != []
    ensures forall i :: 0 <= i < |r.points| ==> r.points[i].timestamp.None?
    ensures |r.points| <= |Split(content, '\n')|
    ensures r.points == FilterMap(IgcLinePoint, Split(content, '\n'))
    ensures r.name == if Headers(Split(content, '\n')).name == [] then DefaultIgcName else Headers(Split(content, '\n')).name
    ensures r.description == IgcDescription(Headers(Split(content, '\n')).date, localeDate)
  {
    var lines := Split(content, '\n');
    var header := Headers(lines);
    IgcPointsNoTime(lines);
    TraceData("IGC", IgcPoints(content), if header.name == [] then DefaultIgcName else header.name,
              IgcDescription(header.date, localeDate))
  }

  lemma {:induction false} IgcPointsNoTime(lines: seq<string>)
    ensures forall i :: 0 <= i < |FilterMap(IgcLinePoint, lines)| ==> FilterMap(IgcLinePoint, lines)[i].timestamp.None?
  {
    if |lines| > 0 {
      IgcPointsNoTime(lines[1..]);
    }
  }

  /** A file made only of B lines gives one point per line, in order. */
  lemma IgcOnePointPerFix(lines: seq<string>)
    requires forall i :: 0 <= i < |lines| ==> IsBLine(lines[i])
    ensures |FilterMap(IgcLinePoint, lines)| == |lines|
    ensures forall i :: 0 <= i < |lines| ==> FilterMap(IgcLinePoint, lines)[i] == IgcFixPoint(lines[i])
  {
    FilterMapAll(IgcLinePoint, lines);
  }

  /** Lines that are not B lines add no point; B lines add one each, in
      order. */
  lemma IgcPointsConcat(a: seq<string>, b: seq<string>)
    ensures FilterMap(IgcLinePoint, a + b) == FilterMap(IgcLinePoint, a) + FilterMap(IgcLinePoint, b)
  {
    FilterMapConcat(IgcLinePoint, a, b);
  }

  /** The last `HFPLT` line decides the name: lines after it that are not H
      lines leave it alone. */
  lemma {:induction false} HeadersIgnoreOtherLines(lines: seq<string>, rest: seq<string>)
    requires forall i :: 0 <= i < |rest| ==> !IsHLine(rest[i])
    ensures Headers(lines + rest) == Headers(lines)
  {
    if |rest| > 0 {
      var p := rest[..|rest| - 1];
      HeadersIgnoreOtherLines(lines, p);
      assert (lines + rest)[..|lines + rest| - 1] == lines + p;
    } else {
      assert lines + rest == lines;
    }
  }

  /** `parse`: the format dispatch. The XML formats go through the host's
      XML parser `xml`; IGC never fails. */
  function Parse(content: string, format: string, xml: string -> XmlDocument,
                 localeDate: IgcDate -> string): (r: Result<TraceData, string>)
    ensures ParseFormat(format).Failure? ==> r == Failure(ParseFormat(format).error)
    ensures ParseFormat(format) == Success(Igc) ==> r == Success(ParseIgc(content, localeDate))
    ensures ParseFormat(format) == Success(Gpx) ==> r == ParseGpx(xml(content))
    ensures ParseFormat(format) == Success(Kml) ==> r == ParseKml(xml(content))
    ensures ParseFormat(format) == Success(Tcx) ==> r == ParseTcx(xml(content))
    ensures r.Failure? ==> r.error == InvalidXml || ParseFormat(format).Failure?
  {
    match ParseFormat(format)
    case Failure(e) => Failure(e)
    case Success(Gpx) => ParseGpx(xml(content))
    case Success(Kml) => ParseKml(xml(content))
    case Success(Igc) => Success(ParseIgc(content, localeDate))
    case Success(Tcx) => ParseTcx(xml(content))
  }
}

=== FILE: wrappers.dfy ===
/** Failure-carrying result types shared by every decoder of the model. */
module Wrappers {

  /** A value that may be absent: JavaScript's `null` / `undefined`. */
  datatype Option<+T> = None | Some(value: T)

  /** The outcome of an operation that either produces a value or reports why
      it could not (a thrown `Error` or an error message in the source). */
  datatype Result<+T, +E> = Success(value: T) | Failure(error: E)
}

=== FILE: xml_write.dfy ===
/** The converter's XML writers, `toKML`, `toGPX` and `toTCX`, and what
    its own readers make of their output. The KML coordinates are text the
    reader splits itself, so they are written out in full; for GPX and TCX
    the model stops at the elements and attribute values written, which is
    what the readers query. Numbers are printed by the host's `${x}`, a
    parameter `show` of which only the read-back property is assumed. */
module XmlWrite {
  import opened Wrappers
  import opened JsText
  import opened JsNumber
  import opened Seqs
  import opened Escapes
  import opened TraceDecode

  // ----- printing numbers -----

  /** A character that neither ends a token of a coordinate line nor means
      anything to an XML parser. */
  predicate Plain(c: char) {
    !IsSpace(c) && c != ',' && c != '<' && c != '&'
  }

  /** `show` writes `x` as one plain token that `parseFloat` reads back as
      `x`. */
  predicate Prints(show: real -> string, x: real) {
    |show(x)| > 0 && (forall i :: 0 <= i < |show(x)| ==> Plain(show(x)[i])) && ParseFloat(show(x)) == Finite(x)
  }

  predicate PrintsNum(show: real -> string, v: Num) {
    v.Finite? ==> Prints(show, v.value)
  }

  /** `${v}` for a number that may be NaN. */
  function NumText(v: Num, show: real -> string): string {
    match v
    case NaN => "NaN"
    case Finite(x) => show(x)
  }

  /** A printed number is one plain token and reads back as itself, NaN
      included. */
  lemma NumTextReads(v: Num, show: real -> string)
    requires PrintsNum(show, v)
    ensures |NumText(v, show)| > 0
    ensures forall i :: 0 <= i < |NumText(v, show)| ==> Plain(NumText(v, show)[i])
    ensures ParseFloat(NumText(v, show)) == v
  {
    if v.NaN? {
      var t := "NaN";
      assert TrimStart(t) == t;
      assert SignOf(t) == (false, t);
      assert DigitPrefix(t) == [];
    }
  }

  // ----- KML -----

  /** `a,b`, then `,c` when there is a third token. */
  function CommaLine(a: string, b: string, c: Option<string>): string {
    a + "," + b + (if c.Some? then "," + c.value else "")
  }

  /** The coordinate line `toKML` writes for a point: `lon,lat`, then
      `,ele` when the elevation is truthy. */
  function KmlLine(pt: TracePoint, show: real -> string): string {
    CommaLine(NumText(pt.lon, show), NumText(pt.lat, show),
              if Truthy(pt.elevation) then Some(NumText(pt.elevation, show)) else None)
  }

  /** The numbers of a point that `toKML` prints all print faithfully. */
  predicate KmlPrintable(pt: TracePoint, show: real -> string) {
    PrintsNum(show, pt.lat) && PrintsNum(show, pt.lon) && (Truthy(pt.elevation) ==> PrintsNum(show, pt.elevation))
  }

  /** The point `parseKML` is meant to recover from a written line: the
      coordinates when both are numbers, the elevation or 0. */
  function KmlExpected(pt: TracePoint): (r: Option<TracePoint>)
    ensures r.Some? <==> pt.lat.Finite? && pt.lon.Finite?
  {
    if pt.lat.Finite? && pt.lon.Finite? then Some(TracePoint(pt.lat, pt.lon, Or(pt.elevation, Finite(0.0)), None))
    else None
  }

  predicate PlainToken(t: string) {
    |t| > 0 && forall i :: 0 <= i < |t| ==> Plain(t[i])
  }

  /** A line of plain tokens: no white space at either end, no line feed,
      no markup. */
  lemma CommaLineShape(a: string, b: string, c: Option<string>)
    requires PlainToken(a) && PlainToken(b) && (c.Some? ==> PlainToken(c.value))
    ensures var line := CommaLine(a, b, c);
            |line| > 0 && !IsSpace(line[0]) && !IsSpace(line[|line| - 1])
            && forall i :: 0 <= i < |line| ==> line[i] == ',' || Plain(line[i])
  {
    var tail := if c.Some? then "," + c.value else "";
    var line := CommaLine(a, b, c);
    assert line == a + ("," + b + tail);
    forall i | 0 <= i < |line|
      ensures line[i] == ',' || Plain(line[i])
    {
      if i < |a| {
        assert line[i] == a[i];
      } else if i < |a| + 1 + |b| {
        assert i == |a| || line[i] == b[i - |a| - 1];
      } else if c.Some? {
        assert i == |a| + 1 + |b| || line[i] == c.value[i - |a| - 2 - |b|];
      }
    }
  }

  /** Splitting on commas gives the tokens back. */
  lemma CommaLineSplit(a: string, b: string, c: Option<string>)
    requires ',' !in a && ',' !in b && (c.Some? ==> ',' !in c.value)
    ensures Split(CommaLine(a, b, c), ',') == [a, b] + (if c.Some? then [c.value] else [])
  {
    var line := CommaLine(a, b, c);
    if c.Some? {
      assert line == a + [','] + (b + [','] + c.value);
      SplitFirst(a, ',', b + [','] + c.value);
      SplitFirst(b, ',', c.value);
      SplitWord(c.value, ',');
    } else {
      assert line == a + [','] + b;
      SplitFirst(a, ',', b);
      SplitWord(b, ',');
    }
  }

  lemma PlainNoComma(t: string)
    requires PlainToken(t)
    ensures ',' !in t
  {
  }

  /** The tokens of a written line. */
  lemma KmlLineTokens(pt: TracePoint, show: real -> string)
    requires KmlPrintable(pt, show)
    ensures PlainToken(NumText(pt.lon, show)) && PlainToken(NumText(pt.lat, show))
    ensures Truthy(pt.elevation) ==> PlainToken(NumText(pt.elevation, show))
    ensures ParseFloat(NumText(pt.lon, show)) == pt.lon && ParseFloat(NumText(pt.lat, show)) == pt.lat
    ensures Truthy(pt.elevation) ==> ParseFloat(NumText(pt.elevation, show)) == pt.elevation
  {
    NumTextReads(pt.lon, show);
    NumTextReads(pt.lat, show);
    if Truthy(pt.elevation) {
      NumTextReads(pt.elevation, show);
    }
  }

  /** A written line is a single line of plain tokens and commas. */
  lemma KmlLineShape(pt: TracePoint, show: real -> string)
    requires KmlPrintable(pt, show)
    ensures |KmlLine(pt, show)| > 0
    ensures forall i :: 0 <= i < |KmlLine(pt, show)| ==> KmlLine(pt, show)[i] == ',' || Plain(KmlLine(pt, show)[i])
    ensures !IsSpace(KmlLine(pt, show)[0]) && !IsSpace(KmlLine(pt, show)[|KmlLine(pt, show)| - 1])
  {
    KmlLineTokens(pt, show);
    CommaLineShape(NumText(pt.lon, show), NumText(pt.lat, show),
                   if Truthy(pt.elevation) then Some(NumText(pt.elevation, show)) else None);
  }

  /** The reader's view of a trimmed line of tokens. */
  lemma ReadTokens(line: string, w: string, a: string, b: string, c: Option<string>, lon: Num, lat: Num, ele: Num)
    requires AllSpace(w) && line == CommaLine(a, b, c)
    requires PlainToken(a) && PlainToken(b) && (c.Some? ==> PlainToken(c.value))
    requires ParseFloat(a) == lon && ParseFloat(b) == lat && (c.Some? ==> ParseFloat(c.value) == ele)
    ensures KmlLinePoint(w + line)
            == if lat.NaN? || lon.NaN? then None
               else Some(TracePoint(lat, lon, Or(if c.Some? then ele else NaN, Finite(0.0)), None))
  {
    CommaLineShape(a, b, c);
    TrimAround(w, line, []);
    assert w + line + [] == w + line;
    PlainNoComma(a);
    PlainNoComma(b);
    if c.Some? {
      PlainNoComma(c.value);
    }
    CommaLineSplit(a, b, c);
  }

  /** `parseKML` reads a written line, whatever indentation precedes it,
      back as the point it was written for. */
  lemma KmlLineReadBack(pt: TracePoint, show: real -> string, w: string)
    requires KmlPrintable(pt, show) && AllSpace(w)
    ensures KmlLinePoint(w + KmlLine(pt, show)) == KmlExpected(pt)
  {
    KmlLineTokens(pt, show);
    var c := if Truthy(pt.elevation) then Some(NumText(pt.elevation, show)) else None;
    ReadTokens(KmlLine(pt, show), w, NumText(pt.lon, show), NumText(pt.lat, show), c, pt.lon, pt.lat, pt.elevation);
  }

  /** The written lines, one per point in order. */
  function WrittenKmlLines(points: seq<TracePoint>, show: real -> string): (r: seq<string>)
    ensures |r| == |points|
    ensures forall i :: 0 <= i < |points| ==> r[i] == KmlLine(points[i], show)
  {
    seq(|points|, i requires 0 <= i < |points| => KmlLine(points[i], show))
  }

  const Indent := "      "
  const KmlSeparator := "\n" + Indent
  /** What follows the last line: a line feed and the closing tag's
      indentation. */
  const KmlClosing := "\n        "

  /** `coordsStr`: the lines joined by a line feed and six spaces. */
  function KmlCoordinatesText(points: seq<TracePoint>, show: real -> string): string {
    Join(WrittenKmlLines(points, show), KmlSeparator)
  }

  /** The text inside the `coordinates` element `toKML` writes. */
  function KmlCoordinatesContent(points: seq<TracePoint>, show: real -> string): string {
    KmlSeparator + KmlCoordinatesText(points, show) + KmlClosing
  }

  function IndentAll(lines: seq<string>, ind: string): (r: seq<string>)
    ensures |r| == |lines|
    ensures forall i :: 0 <= i < |lines| ==> r[i] == ind + lines[i]
  {
    seq(|lines|, i requires 0 <= i < |lines| => ind + lines[i])
  }

  /** The lines as a split on `nl` sees them: all but the first carry
      the indentation. */
  function Lead(lines: seq<string>, ind: string): (r: seq<string>)
    requires |lines| >= 1
    ensures |r| == |lines| && r[0] == lines[0]
    ensures forall i :: 1 <= i < |lines| ==> r[i] == ind + lines[i]
  {
    [lines[0]] + IndentAll(lines[1..], ind)
  }

  lemma {:induction false} IndentJoin(rest: seq<string>, nl: string, ind: string)
    requires |rest| >= 1
    ensures ind + Join(rest, nl + ind) == Join(IndentAll(rest, ind), nl)
  {
    if |rest| > 1 {
      IndentJoin(rest[1..], nl, ind);
      var all := IndentAll(rest, ind);
      assert all[1..] == IndentAll(rest[1..], ind);
      var j := Join(rest[1..], nl + ind);
      calc {
        ind + Join(rest, nl + ind);
        ind + (rest[0] + (nl + ind) + j);
        (ind + rest[0]) + nl + (ind + j);
        all[0] + nl + Join(all[1..], nl);
      }
    }
  }

  /** Joining on a line feed and an indentation is joining the indented
      lines on the line feed. */
  lemma {:induction false} JoinLead(lines: seq<string>, nl: string, ind: string)
    requires |lines| >= 1
    ensures Join(lines, nl + ind) == Join(Lead(lines, ind), nl)
  {
    if |lines| > 1 {
      IndentJoin(lines[1..], nl, ind);
      var lead := Lead(lines, ind);
      assert lead[1..] == IndentAll(lines[1..], ind);
      var j := Join(lines[1..], nl + ind);
      calc {
        Join(lines, nl + ind);
        lines[0] + (nl + ind) + j;
        lines[0] + nl + (ind + j);
        lead[0] + nl + Join(lead[1..], nl);
      }
    }
  }

  /** A join of non-empty parts starts with the first part and ends with
      the last. */
  lemma {:induction false} JoinEnds(parts: seq<string>, sep: string)
    requires |parts| >= 1 && forall i :: 0 <= i < |parts| ==> |parts[i]| > 0
    ensures |Join(parts, sep)| > 0
    ensures Join(parts, sep)[0] == parts[0][0]
    ensures Join(parts, sep)[|Join(parts, sep)| - 1] == parts[|parts| - 1][|parts[|parts| - 1]| - 1]
  {
    if |parts| > 1 {
      JoinEnds(parts[1..], sep);
      var j := Join(parts[1..], sep);
      assert Join(parts, sep) == parts[0] + (sep + j);
    }
  }

  /** A line the reader keeps: no line feed inside, something besides
      white space, and no white space at its ends when it is the first or
      last one. */
  predicate KeptLine(line: string) {
    '\n' !in line && NotBlank(line) && |line| > 0
  }

  /** The reader splits text made of kept lines joined by line feeds, with
      white space around, back into those lines. */
  lemma {:induction false} LinesOfJoin(w1: string, lead: seq<string>, w2: string)
    requires AllSpace(w1) && AllSpace(w2) && |lead| >= 1
    requires forall i :: 0 <= i < |lead| ==> KeptLine(lead[i])
    requires |lead[0]| > 0 && |lead[|lead| - 1]| > 0
    requires !IsSpace(lead[0][0]) && !IsSpace(lead[|lead| - 1][|lead[|lead| - 1]| - 1])
    ensures KmlLines(w1 + Join(lead, "\n") + w2) == lead
  {
    JoinEnds(lead, "\n");
    TrimAround(w1, Join(lead, "\n"), w2);
    assert "\n" == ['\n'];
    SplitJoin(lead, '\n');
    FilterAll(NotBlank, lead);
  }

  /** One written line as the reader sees it after the split, behind
      the indentation `w` (none for the first). */
  lemma LeadLine(pt: TracePoint, show: real -> string, w: string)
    requires KmlPrintable(pt, show) && AllSpace(w) && '\n' !in w
    ensures KeptLine(w + KmlLine(pt, show))
    ensures KmlLinePoint(w + KmlLine(pt, show)) == KmlExpected(pt)
  {
    var line := KmlLine(pt, show);
    KmlLineShape(pt, show);
    TrimAround(w, line, []);
    assert w + line + [] == w + line;
    KmlLineReadBack(pt, show, w);
  }

  /** Every line is kept by the reader and decodes to the point of the same
      index. */
  predicate ReadsBackAs(lead: seq<string>, points: seq<TracePoint>) {
    && |lead| == |points|
    && (forall i {:trigger KeptLine(lead[i])} :: 0 <= i < |lead| ==> KeptLine(lead[i]))
    && (forall i {:trigger KmlLinePoint(lead[i])} :: 0 <= i < |lead| ==> KmlLinePoint(lead[i]) == KmlExpected(points[i]))
  }

  /** Each written line, behind its indentation, is kept and reads back as
      its point. */
  lemma {:induction false} LeadKept(lines: seq<string>, points: seq<TracePoint>, show: real -> string, ind: string)
    requires |lines| == |points| >= 1 && forall i :: 0 <= i < |points| ==> lines[i] == KmlLine(points[i], show)
    requires forall i :: 0 <= i < |points| ==> KmlPrintable(points[i], show)
    requires AllSpace(ind) && '\n' !in ind
    ensures ReadsBackAs(Lead(lines, ind), points)
  {
    var lead := Lead(lines, ind);
    forall i | 0 <= i < |lines|
      ensures KeptLine(lead[i]) && KmlLinePoint(lead[i]) == KmlExpected(points[i])
    {
      var w: string := if i == 0 then [] else ind;
      LeadLine(points[i], show, w);
      assert lead[i] == w + lines[i] by {
        if i == 0 {
          assert [] + lines[0] == lines[0];
        }
      }
    }
  }

  /** Indenting the lines after the first keeps the first character of
      the first line and the last character of the last one. */
  lemma {:induction false} LeadEnds(lines: seq<string>, ind: string)
    requires CleanEnds(lines)
    ensures CleanEnds(Lead(lines, ind))
  {
    var n := |lines| - 1;
    if n > 0 {
      var last := ind + lines[n];
      assert last[|last| - 1] == lines[n][|lines[n]| - 1];
    }
  }

  /** The written lines start and end with no white space when the first
      and the last line do. */
  lemma {:induction false} WrittenEnds(points: seq<TracePoint>, show: real -> string)
    requires |points| >= 1 && CleanLine(KmlLine(points[0], show)) && CleanLine(KmlLine(points[|points| - 1], show))
    ensures CleanEnds(WrittenKmlLines(points, show))
  {
    CleanEndsOf(WrittenKmlLines(points, show));
  }

  /** A written line neither starts nor ends with white space. */
  lemma KmlLineEnds(pt: TracePoint, show: real -> string)
    requires KmlPrintable(pt, show)
    ensures CleanLine(KmlLine(pt, show))
  {
    KmlLineShape(pt, show);
  }

  /** A line with no white space at either end. */
  predicate CleanLine(s: string) {
    |s| > 0 && !IsSpace(s[0]) && !IsSpace(s[|s| - 1])
  }

  lemma CleanEndsOf(lines: seq<string>)
    requires |lines| >= 1 && CleanLine(lines[0]) && CleanLine(lines[|lines| - 1])
    ensures CleanEnds(lines)
  {
  }

  /** The round trip for any white space around the text and any
      indentation without line feeds. */
  lemma CoordinatesRoundTrip(points: seq<TracePoint>, show: real -> string, w1: string, ind: string, w2: string)
    requires forall i :: 0 <= i < |points| ==> KmlPrintable(points[i], show)
    requires AllSpace(w1) && AllSpace(w2) && AllSpace(ind) && '\n' !in ind
    ensures KmlCoordinates(w1 + Join(WrittenKmlLines(points, show), "\n" + ind) + w2) == FilterMap(KmlExpected, points)
  {
    var lines := WrittenKmlLines(points, show);
    if |points| == 0 {
      assert w1 + Join(lines, "\n" + ind) + w2 == w1 + w2;
      BlankCoordinates(w1 + w2);
    } else {
      JoinLead(lines, "\n", ind);
      LeadRoundTrip(points, show, w1, ind, w2);
    }
  }

  lemma {:induction false} LeadRoundTrip(points: seq<TracePoint>, show: real -> string, w1: string, ind: string, w2: string)
    requires |points| >= 1 && forall i :: 0 <= i < |points| ==> KmlPrintable(points[i], show)
    requires AllSpace(w1) && AllSpace(w2) && AllSpace(ind) && '\n' !in ind
    ensures KmlCoordinates(w1 + Join(Lead(WrittenKmlLines(points, show), ind), "\n") + w2) == FilterMap(KmlExpected, points)
  {
    LeadFacts(points, show, ind);
    LeadReadBack(Lead(WrittenKmlLines(points, show), ind), points, w1, w2);
  }

  /** The written lines, as the split sees them, are ready to be read
      back. */
  lemma {:induction false} LeadFacts(points: seq<TracePoint>, show: real -> string, ind: string)
    requires |points| >= 1 && forall i :: 0 <= i < |points| ==> KmlPrintable(points[i], show)
    requires AllSpace(ind) && '\n' !in ind
    ensures LeadReady(Lead(WrittenKmlLines(points, show), ind), points)
  {
    LeadKept(WrittenKmlLines(points, show), points, show, ind);
    WrittenLeadEnds(points, show, ind);
  }

  lemma {:induction false} WrittenLeadEnds(points: seq<TracePoint>, show: real -> string, ind: string)
    requires |points| >= 1 && forall i :: 0 <= i < |points| ==> KmlPrintable(points[i], show)
    ensures CleanEnds(Lead(WrittenKmlLines(points, show), ind))
  {
    KmlLineEnds(points[0], show);
    KmlLineEnds(points[|points| - 1], show);
    WrittenEnds(points, show);
    LeadEnds(WrittenKmlLines(points, show), ind);
  }

  /** Text made of these lines has no white space at either end. */
  predicate CleanEnds(lead: seq<string>) {
    && |lead| >= 1 && |lead[0]| > 0 && |lead[|lead| - 1]| > 0
    && !IsSpace(lead[0][0]) && !IsSpace(lead[|lead| - 1][|lead[|lead| - 1]| - 1])
  }

  /** Lines the reader keeps one by one, decoding to `points`, whose text
      has no white space at either end. */
  predicate LeadReady(lead: seq<string>, points: seq<TracePoint>) {
    ReadsBackAs(lead, points) && CleanEnds(lead)
  }

  /** Kept lines joined by line feeds, with white space around, read back
      as the points they each decode to. */
  lemma {:induction false} LeadReadBack(lead: seq<string>, points: seq<TracePoint>, w1: string, w2: string)
    requires AllSpace(w1) && AllSpace(w2) && LeadReady(lead, points)
    ensures KmlCoordinates(w1 + Join(lead, "\n") + w2) == FilterMap(KmlExpected, points)
  {
    LinesOfJoin(w1, lead, w2);
    FilterMapPointwise(KmlLinePoint, lead, KmlExpected, points);
  }

  /** White space alone holds no points. */
  lemma BlankCoordinates(w: string)
    requires AllSpace(w)
    ensures KmlCoordinates(w) == []
  {
    TrimAllSpace(w);
    assert Split([], '\n') == [[]];
    assert Trim([]) == [];
  }

  lemma KmlWhiteSpace()
    ensures AllSpace(Indent) && '\n' !in Indent && AllSpace(KmlSeparator) && AllSpace(KmlClosing)
  {
  }

  /** `parseKML` gets back from the `coordinates` text of `toKML` exactly
      the points it was written from whose coordinates are numbers, in
      order, with a falsy elevation read as 0. */
  lemma KmlRoundTrip(points: seq<TracePoint>, show: real -> string)
    requires forall i :: 0 <= i < |points| ==> KmlPrintable(points[i], show)
    ensures KmlCoordinates(KmlCoordinatesContent(points, show)) == FilterMap(KmlExpected, points)
  {
    KmlWhiteSpace();
    CoordinatesRoundTrip(points, show, KmlSeparator, Indent, KmlClosing);
  }

  /** The `coordinates` text holds no markup, so the XML parser hands it
      over as written. */
  lemma KmlCoordinatesPlain(points: seq<TracePoint>, show: real -> string)
    requires forall i :: 0 <= i < |points| ==> KmlPrintable(points[i], show)
    ensures forall i :: 0 <= i < |KmlCoordinatesContent(points, show)| ==>
              KmlCoordinatesContent(points, show)[i] != '<' && KmlCoordinatesContent(points, show)[i] != '&'
  {
    forall k | 0 <= k < |points|
      ensures forall i :: 0 <= i < |KmlLine(points[k], show)| ==>
                (KmlLine(points[k], show)[i] != '<' && KmlLine(points[k], show)[i] != '&')
    {
      KmlLineShape(points[k], show);
    }
    var lines := WrittenKmlLines(points, show);
    JoinPlain(lines, KmlSeparator);
  }

  lemma {:induction false} JoinPlain(parts: seq<string>, sep: string)
    requires forall i :: 0 <= i < |sep| ==> sep[i] != '<' && sep[i] != '&'
    requires forall k, i :: 0 <= k < |parts| && 0 <= i < |parts[k]| ==> parts[k][i] != '<' && parts[k][i] != '&'
    ensures forall i :: 0 <= i < |Join(parts, sep)| ==> Join(parts, sep)[i] != '<' && Join(parts, sep)[i] != '&'
  {
    if |parts| > 1 {
      JoinPlain(parts[1..], sep);
      var rest := Join(parts[1..], sep);
      assert Join(parts, sep) == parts[0] + sep + rest;
      forall i | 0 <= i < |Join(parts, sep)|
        ensures Join(parts, sep)[i] != '<' && Join(parts, sep)[i] != '&'
      {
        if i < |parts[0]| {
          assert Join(parts, sep)[i] == parts[0][i];
        } else if i < |parts[0]| + |sep| {
          assert Join(parts, sep)[i] == sep[i - |parts[0]|];
        } else {
          assert Join(parts, sep)[i] == rest[i - |parts[0]| - |sep|];
        }
      }
    }
  }

  /** What the XML parser answers for the text `toKML` writes. The name
      and the description go through `escapeXml` only, so a character XML
      does not allow makes the file ill-formed and the parser reports an
      error. Otherwise there is one placemark with one line string, and
      the name and description come back as character data. */
  function KmlView(trace: TraceData, show: real -> string): XmlDocument {
    var name := EscapeXml(Some(trace.name));
    var desc := EscapeXml(Some(trace.description));
    XmlDocument(!(XmlText(name) && XmlText(desc)), [], None, None,
                [Placemark(Some(Some(KmlCoordinatesContent(trace.points, show))))],
                Some(CharData(name)), Some(CharData(desc)),
                [], None)
  }

  /** A KML file `toKML` wrote reads back with its points, its name (or
      the default for an empty one) and its description, each with its
      line ends normalised; it fails to parse when the name or the
      description holds a character XML does not allow. Text without a
      CR comes back unchanged. */
  lemma KmlFileRoundTrip(trace: TraceData, show: real -> string)
    requires forall i :: 0 <= i < |trace.points| ==> KmlPrintable(trace.points[i], show)
    ensures ParseKml(KmlView(trace, show))
            == if XmlText(trace.name) && XmlText(trace.description)
               then Success(TraceData("KML", FilterMap(KmlExpected, trace.points),
                                      if trace.name == [] then "Trace GPS" else LineEnds(trace.name),
                                      LineEnds(trace.description)))
               else Failure(InvalidXml)
    ensures XmlText(trace.name) && XmlText(trace.description) && '\r' !in trace.name && '\r' !in trace.description
            ==> ParseKml(KmlView(trace, show))
                == Success(TraceData("KML", FilterMap(KmlExpected, trace.points),
                                     if trace.name == [] then "Trace GPS" else trace.name, trace.description))
  {
    var content := KmlCoordinatesContent(trace.points, show);
    KmlRoundTrip(trace.points, show);
    ReadBackText(trace.name);
    ReadBackText(trace.description);
    assert |content| > 0 by {
      assert |KmlSeparator| > 0;
    }
    OnePlacemark(content);
  }

  /** What the reader makes of a text `escapeXml` wrote. */
  lemma ReadBackText(s: string)
    ensures XmlText(EscapeXml(Some(s))) <==> XmlText(s)
    ensures CharData(EscapeXml(Some(s))) == LineEnds(s)
    ensures LineEnds(s) == [] <==> s == []
    ensures '\r' !in s ==> LineEnds(s) == s
  {
    EscapeXmlText(s);
    EscapedCharData(s);
    LineEndsKeeps(s);
  }

  /** The document holds one placemark, whose line string has a
      non-empty `coordinates` text. */
  lemma OnePlacemark(content: string)
    requires |content| > 0
    ensures PlacemarksPoints([Placemark(Some(Some(content)))]) == KmlCoordinates(content)
  {
    var pms := [Placemark(Some(Some(content)))];
    assert PlacemarksPoints(pms) == PlacemarkPoints(pms[0]) + PlacemarksPoints(pms[1..]);
    assert PlacemarksPoints(pms[1..]) == [];
  }

  // ----- GPX and TCX: the elevation omission rule -----

  /** `pt.elevation !== 0`: the elevation element is left out exactly for
      a zero elevation; NaN is written. */
  predicate ElevationWritten(e: Num) {
    e != Finite(0.0)
  }

  /** The `trkpt` element `toGPX` writes: the coordinates as attributes,
      the elevation to two decimals unless it is 0, and the time when the
      point has one. */
  function GpxElement(pt: TracePoint, show: real -> string): (r: GpxTrackPoint)
    ensures r.ele.None? <==> pt.elevation == Finite(0.0)
  {
    GpxTrackPoint(Some(NumText(pt.lat, show)), Some(NumText(pt.lon, show)),
                  if ElevationWritten(pt.elevation) then Some(ToFixed(pt.elevation, 2)) else None,
                  pt.timestamp)
  }

  /** The elevation `parseGPX` recovers: rounded to the centimetre, a
      left-out 0 read as 0. */
  function GpxElevation(e: Num): (r: Num)
    ensures r.NaN? <==> e.NaN?
    ensures e.Finite? ==> -1.0 / 200.0 <= r.value - e.value <= 1.0 / 200.0
    ensures e == Finite(0.0) ==> r == e
  {
    match e
    case NaN => NaN
    case Finite(x) =>
      FixedValueError(x, 2);
      assert Unscale(1, 2) == 1.0 / 100.0;
      Finite(FixedValue(x, 2))
  }

  function GpxExpected(pt: TracePoint): (r: Option<TracePoint>)
    ensures r.Some? <==> pt.lat.Finite? && pt.lon.Finite?
  {
    if pt.lat.Finite? && pt.lon.Finite? then Some(TracePoint(pt.lat, pt.lon, GpxElevation(pt.elevation), pt.timestamp))
    else None
  }

  /** `parseGPX` reads a written `trkpt` back: the same coordinates and
      time, the elevation rounded to the centimetre, 0 when it was left
      out. */
  lemma GpxPointReadBack(pt: TracePoint, show: real -> string)
    requires PrintsNum(show, pt.lat) && PrintsNum(show, pt.lon)
    ensures GpxPoint(GpxElement(pt, show)) == GpxExpected(pt)
  {
    NumTextReads(pt.lat, show);
    NumTextReads(pt.lon, show);
    if ElevationWritten(pt.elevation) && pt.elevation.Finite? {
      ParseToFixed(pt.elevation.value, 2);
    }
    if pt.elevation.NaN? {
      NumTextReads(NaN, show);
    }
  }

  /** What the XML parser answers for the text `toGPX` writes: an error
      when the name or the description holds a character XML does not
      allow, and otherwise the written points with no `name` or `desc`
      under `trk`, since the name and description go into `metadata`. */
  function GpxView(trace: TraceData, show: real -> string): XmlDocument {
    XmlDocument(!(XmlText(EscapeXml(Some(trace.name))) && XmlText(EscapeXml(Some(trace.description)))),
                seq(|trace.points|, i requires 0 <= i < |trace.points| => GpxElement(trace.points[i], show)),
                None, None, [], None, None, [], None)
  }

  /** A GPX file `toGPX` wrote reads back with its points but under the
      default name and with no description; it fails to parse when the
      name or the description holds a character XML does not allow. */
  lemma GpxFileRoundTrip(trace: TraceData, show: real -> string)
    requires forall i :: 0 <= i < |trace.points| ==> PrintsNum(show, trace.points[i].lat) && PrintsNum(show, trace.points[i].lon)
    ensures ParseGpx(GpxView(trace, show))
            == if XmlText(trace.name) && XmlText(trace.description)
               then Success(TraceData("GPX", FilterMap(GpxExpected, trace.points), "Trace GPS", ""))
               else Failure(InvalidXml)
  {
    var doc := GpxView(trace, show);
    ReadBackText(trace.name);
    ReadBackText(trace.description);
    forall i | 0 <= i < |trace.points|
      ensures GpxPoint(doc.trkpts[i]) == GpxExpected(trace.points[i])
    {
      GpxPointReadBack(trace.points[i], show);
    }
    FilterMapPointwise(GpxPoint, doc.trkpts, GpxExpected, trace.points);
  }

  /** The `Trackpoint` element `toTCX` writes: the position, the altitude
      as printed unless it is 0, and the time stamp given to it. */
  function TcxElement(pt: TracePoint, show: real -> string, time: string): (r: TcxTrackPoint)
    ensures r.altitude.None? <==> pt.elevation == Finite(0.0)
    ensures r.position.Some? && r.time == Some(time)
  {
    TcxTrackPoint(Some(TcxPosition(Some(NumText(pt.lat, show)), Some(NumText(pt.lon, show)))),
                  if ElevationWritten(pt.elevation) then Some(NumText(pt.elevation, show)) else None,
                  Some(time))
  }

  function TcxExpected(pt: TracePoint): (r: Option<TracePoint>)
    ensures r.Some? <==> pt.lat.Finite? && pt.lon.Finite?
    ensures r.Some? ==> r.value == pt
  {
    if pt.lat.Finite? && pt.lon.Finite? then Some(pt) else None
  }

  /** `parseTCX` reads a written `Trackpoint` back exactly, with the time
      stamp it was given: leaving out a zero altitude loses nothing,
      because a missing altitude reads as 0. */
  lemma TcxPointReadBack(pt: TracePoint, show: real -> string, time: string)
    requires PrintsNum(show, pt.lat) && PrintsNum(show, pt.lon) && PrintsNum(show, pt.elevation)
    ensures TcxPoint(TcxElement(pt, show, time)) == TcxExpected(pt.(timestamp := Some(time)))
  {
    NumTextReads(pt.lat, show);
    NumTextReads(pt.lon, show);
    NumTextReads(pt.elevation, show);
  }

  /** The points `toTCX` writes with the time stamps `stamp(i)` of their
      indices (the clock plus one second per point). */
  function Stamped(points: seq<TracePoint>, stamp: nat -> string): (r: seq<TracePoint>)
    ensures |r| == |points|
    ensures forall i :: 0 <= i < |points| ==> r[i] == points[i].(timestamp := Some(stamp(i)))
  {
    seq(|points|, i requires 0 <= i < |points| => points[i].(timestamp := Some(stamp(i))))
  }

  /** What the XML parser answers for the text `toTCX` writes: the written
      points, and the activity `Id`, which is the clock's time `now`. */
  function TcxView(trace: TraceData, show: real -> string, stamp: nat -> string, now: string): XmlDocument {
    XmlDocument(false, [], None, None, [], None, None,
                seq(|trace.points|, i requires 0 <= i < |trace.points| => TcxElement(trace.points[i], show, stamp(i))),
                Some(now))
  }

  /** A TCX file `toTCX` wrote reads back with every point whose
      coordinates are numbers, exactly and in order, named after the time
      it was written. */
  lemma TcxFileRoundTrip(trace: TraceData, show: real -> string, stamp: nat -> string, now: string)
    requires forall i :: 0 <= i < |trace.points| ==>
               PrintsNum(show, trace.points[i].lat) && PrintsNum(show, trace.points[i].lon)
               && PrintsNum(show, trace.points[i].elevation)
    ensures ParseTcx(TcxView(trace, show, stamp, now))
            == Success(TraceData("TCX", FilterMap(TcxExpected, Stamped(trace.points, stamp)), TextOr(Some(now), "Trace TCX"), ""))
  {
    var doc := TcxView(trace, show, stamp, now);
    var stamped := Stamped(trace.points, stamp);
    forall i | 0 <= i < |trace.points|
      ensures TcxPoint(doc.trackpoints[i]) == TcxExpected(stamped[i])
    {
      TcxPointReadBack(trace.points[i], show, stamp(i));
    }
    FilterMapPointwise(TcxPoint, doc.trackpoints, TcxExpected, stamped);
  }
}
